=== FILE: README.md ===
# superterminal core, modelled in Dafny

This project models the sequential logic of *superterminal*, a MobaXterm-like
SSH/SFTP desktop client written in Python and Qt, together with the mock SSH
server of its Electron proof of concept. Sockets, SSH, threads and Qt widgets
are replaced by values: every call into paramiko, the operating system or Qt
becomes a parameter that says what the call returned, or whether it raised.
Everything else is written as pure functions over immutable datatypes, plus a
few methods whose loops mirror the source's own loops.

The modules follow the program's structure:

- **Sessions.**
  - `SessionModel`: the saved-session record, with folder normalisation, `display_name` and the `to_dict`/`from_dict` round trip.
  - `SessionManager`: the index-addressed catalog.
  - `SessionDialog`: the form that edits a session.
  - `NestedFolder` and `FolderTreeItem`: the folder pieces of the session tree.
- **Port forwarding.**
  - `TunnelForward`: one forward's resources and its idempotent `stop()`.
  - `TunnelRegistry`: the id-keyed registry.
  - `TunnelRunner`: the accept loops, as folds over abstract accept outcomes.
  - `TunnelRelay`: the chunked byte relay.
  - `TunnelingDialog`: the dialog's forward table.
- **SFTP.**
  - `PosixPath`: the parts of Python's `posixpath` the code relies on.
  - `Listing`: directories first, then lower-cased name, as a stable sort.
  - `SftpClient`: `list_dir`, `change_dir`, `up_dir`, the ancestor chain of `_ensure_remote_dir`, and the transfer counters.
  - `SftpTab`: the two panes.
- **Terminals.**
  - `SshClient`: the line buffering of `read_output`, `send_command` and `disconnect`.
  - `TerminalView`: what both Qt terminals share, namely blocks, padding, trailing-blank trim, caret clamping and the render throttle.
  - `MobaTerminal`: the alternate-screen escape filter, the key map and the resize report.
  - `Terminal2`: the simpler terminal.
- **Mock server.** `MockSshServer`: the authentication rule, the PTY size, the shell choice, `runCommand` and the character-at-a-time line editor.
- **Shared helpers.** `Base` (Option/Result, min/max, flatten), `Text` (Python whitespace, `strip`, ASCII lower-casing, split/join on one separator) and `Numbers` (`str(int)` and `int(text)`).

Some behaviours of the source are kept as they are, because the code does
them. Each has a lemma:

- `re.sub` makes a single left-to-right pass. A sequence that only forms once another sequence has been cut out of the middle of it survives the filter (`MobaTerminal.RemoveLeavesSplicedSequence`).
- A CR at the end of one chunk followed by an LF at the start of the next counts as two line ends (`MockSshServer.CrLfSplitAcrossChunks`).
- Construction strips only one leading `/` from a folder, so `//x` becomes `/x` (`SessionModel.NormalizeStripsOnlyOne`).
- The SFTP display name shows `(None)` when there is no username (`SessionModel.DisplayNameSftp`).

## Model

| member | source | states |
|---|---|---|
| SessionModel.NormalizeFolder | mobaxterm/models/session.py:19-21 | a folder starting with `/` loses exactly that one character; any other folder, `None` and `""` included, is kept |
| SessionModel.NewSession | mobaxterm/models/session.py:6-21 | every field is stored as given except the folder, which is normalised |
| SessionModel.NormalizeStripsOnlyOne | mobaxterm/models/session.py:19-21 | `//x` becomes `/x`, so normalisation is not idempotent |
| SessionModel.DisplayName | mobaxterm/models/session.py:22-27 | an SSH session with a username shows `SSH - host:port (user)`; without one it shows `SSH - host:port` with no trailing space |
| SessionModel.DisplayNameStrip | mobaxterm/models/session.py:24-25 | the `.strip()` of the padded SSH name removes only the space left by an empty username part |
| SessionModel.DisplayNameSftp | mobaxterm/models/session.py:26-27 | a non-SSH session without a username is shown with `(None)` |
| SessionModel.ToDict | mobaxterm/models/session.py:29-43 | exactly the declared keys are written, and never a password |
| SessionModel.FromDict | mobaxterm/models/session.py:45-59 | `type`, `host`, `port` and `username` are required, and the first one missing is the one reported; absent optional keys take the defaults `password`, `False` and `None` |
| SessionModel.ToDictEntries | mobaxterm/models/session.py:29-43 | each key holds the field of the same name |
| SessionModel.DictRoundTrip | mobaxterm/models/session.py:19-59 | `from_dict(to_dict(s)) == s` exactly when `s.folder` does not start with `/`; otherwise the reloaded folder has lost its first slash |
| SessionManager.GetSession | mobaxterm/core/session_manager.py:33-36 | the element at an in-range index; `None` for every other index, negative ones included |
| SessionManager.AddSession | mobaxterm/core/session_manager.py:14-17 | appends and returns the old length, which now finds the new session; earlier indices are unchanged |
| SessionManager.UpdateSession | mobaxterm/core/session_manager.py:19-24 | an in-range index replaces exactly that element and answers true; any other index answers false with no change |
| SessionManager.DeleteSession | mobaxterm/core/session_manager.py:26-31 | an in-range index removes that element and shifts the later ones down by one; otherwise false with no change |
| SessionManager.GetAllSessions | mobaxterm/core/session_manager.py:38-39 | a copy holding every session in order, as `get_session` finds them |
| SessionManager.ClearSessions | mobaxterm/core/session_manager.py:41-43 | afterwards no index finds a session |
| SessionManager.AddThenDelete | mobaxterm/core/session_manager.py:14-31 | deleting the session just added restores the catalog |
| SessionDialog.SpinValue | mobaxterm/ui/session_dialog.py:249-250 | a port spin box holds a value in 1..65535 and clamps anything outside |
| SessionDialog.NewDialog | mobaxterm/ui/session_dialog.py:249-261 | a fresh form is consistent: port 22, no folder, username and key inputs disabled; the folder list is given |
| SessionDialog.OpenDialog | mobaxterm/ui/session_dialog.py:263-266 | as written: construction raises `AttributeError` on `get_all_folders` exactly when the parent has a session manager; otherwise a consistent form with no folders |
| SessionDialog.OpenDialogFixed | mobaxterm/ui/session_dialog.py:260-269 | corrected: a consistent form on the SSH tab with no folder chosen, listing the manager's folders, or none without a manager |
| SessionDialog.MainWindowDialogFails | mobaxterm/ui/main_window.py:368 | with the main window as parent every opening fails as written while the corrected one lists the folders; with any other parent the two agree |
| SessionDialog.ToggleUsername | mobaxterm/ui/session_dialog.py:365-368 | the username input is enabled iff checked, and unchecking clears it |
| SessionDialog.EditUsername | mobaxterm/ui/session_dialog.py:365-368 | a disabled input cannot be edited; the form stays consistent |
| SessionDialog.TogglePort | mobaxterm/ui/session_dialog.py:370-373 | the port input is enabled iff checked, and unchecking resets it to 22 |
| SessionDialog.EditPort | mobaxterm/ui/session_dialog.py:249-250 | an enabled port input takes the typed value clamped to 1..65535 |
| SessionDialog.ChooseAuthMethod | mobaxterm/ui/session_dialog.py:578-583 | key path, browse and passphrase are enabled iff the method is `key`; their text is kept |
| SessionDialog.SlotsKeepConsistent | mobaxterm/ui/session_dialog.py:365-373 | every slot keeps the form consistent: enabled states match the checks, ports in range |
| SessionDialog.KeyField | mobaxterm/ui/session_dialog.py:558-559 | a key field is read only when the method is `key` and the field is non-empty; otherwise `None` |
| SessionDialog.SshSession | mobaxterm/ui/session_dialog.py:552-565 | port is the spin value if custom, else 22; username is the text if specified, else `None`; the folder is the combo's data |
| SessionDialog.GetSessionData | mobaxterm/ui/session_dialog.py:550-576 | the SSH tab builds a session; the SFTP tab always fails with `TypeError` on `password=` |
| SessionDialog.GetSessionDataFixed | mobaxterm/ui/session_dialog.py:550-576 | both tabs build a session; the SFTP page's password is dropped, since `Session` has no field for it |
| SessionDialog.GetSessionInRange | mobaxterm/ui/session_dialog.py:249-250 | a consistent form produces a port in 1..65535 and a known auth method; where the as-written reading succeeds, it agrees with the corrected one |
| SessionDialog.SelectFolder | mobaxterm/ui/session_dialog.py:517-520 | a non-empty folder is selected when the combo holds it, or when it is the new-folder entry; otherwise the selection is kept |
| SessionDialog.LoadUsername | mobaxterm/ui/session_dialog.py:504-507 | a non-empty username checks, fills and enables the field; otherwise nothing changes |
| SessionDialog.LoadPort | mobaxterm/ui/session_dialog.py:512-515 | a port other than 22 checks, sets (clamped) and enables the spin box; 22 leaves it alone |
| SessionDialog.LoadAuth | mobaxterm/ui/session_dialog.py:525-533 | a known method is selected; non-empty key fields are filled in; the form stays consistent |
| SessionDialog.LoadSshPage | mobaxterm/ui/session_dialog.py:500-533 | the SSH page shows the session's host, username, port, folder, flags and auth |
| SessionDialog.LoadSftpPage | mobaxterm/ui/session_dialog.py:536-548 | the SFTP page shows host, username (or empty), the clamped port, folder and bookmark flag |
| SessionDialog.LoadSessionData | mobaxterm/ui/session_dialog.py:499-548 | loading any session fails with `AttributeError` on `session.password` |
| SessionDialog.LoadSessionDataFixed | mobaxterm/ui/session_dialog.py:499-548 | the tab follows the session type, only that page changes, and a consistent form stays consistent |
| SessionDialog.LoadThenGet | mobaxterm/ui/session_dialog.py:499-576 | loading a session into a new form and reading it back gives the same session, whenever the form can show it |
| SessionDialog.GetThenLoad | mobaxterm/ui/session_dialog.py:499-576 | reading an SSH form and loading the result into a new form restores the page, except the password |
| NestedFolder.FolderPath | mobaxterm/ui/nested_folder_dialog.py:44-51 | `None` iff the name is blank; otherwise exactly the parent, one `/` and the stripped name (prefix, suffix and length pin it down), or the stripped name alone under the root |
| NestedFolder.FolderPathSegments | mobaxterm/ui/nested_folder_dialog.py:20-51 | the path's `/`-segments are the parent's segments followed by the new name |
| FolderTreeItem.NewItem | mobaxterm/ui/folder_tree_item.py:9-18 | a new item is expanded and shows the down triangle |
| FolderTreeItem.SetExpanded | mobaxterm/ui/folder_tree_item.py:63-68 | the item takes the given state and its glyph shows it |
| FolderTreeItem.Toggle | mobaxterm/ui/folder_tree_item.py:56-61 | the state is negated and the glyph shows the new state |
| FolderTreeItem.ToggleLaws | mobaxterm/ui/folder_tree_item.py:56-68 | toggling twice restores the item; toggling is setting the opposite state; setting is idempotent |
| FolderTreeItem.GlyphsDiffer | mobaxterm/ui/folder_tree_item.py:58-68 | equal glyphs mean equal states |
| TunnelForward.NewForward | mobaxterm/core/tunneling.py:9-22 | a new forward holds nothing and is neither stopped nor started |
| TunnelForward.Stop | mobaxterm/core/tunneling.py:24-49 | sets the stop flag; cancels the remote bind only for a Remote forward with a transport; closes the listener and then the client when present; leaves nothing open |
| TunnelForward.StopIdempotent | mobaxterm/core/tunneling.py:24-49 | a second `stop()` changes nothing and only touches resources already closed |
| TunnelForward.ConnectKwargs | mobaxterm/core/tunneling.py:75-94 | key auth passes the key path and passphrase and turns the agent and key search on; anything else passes a `None` password and turns both off |
| TunnelRegistry.ForwardId | mobaxterm/core/tunneling.py:104 | ids start with `L:` or `R:` and end with the millisecond timestamp |
| TunnelRegistry.ForwardIdDistinct | mobaxterm/core/tunneling.py:104-146 | two starts of one rule collide only within one millisecond; Local and Remote ids never collide |
| TunnelRegistry.StampsDiffer | mobaxterm/core/tunneling.py:104 | the millisecond stamp at the end of an id tells two starts apart exactly when the stamps differ |
| TunnelRegistry.Register | mobaxterm/core/tunneling.py:208-210 | inserts or overwrites the entry; a new id goes to the end of the insertion order |
| TunnelRegistry.RemoveIdOrder | mobaxterm/core/tunneling.py:72 | popping an id keeps the ids distinct, drops exactly one when it is present, and changes nothing when it is absent |
| TunnelRegistry.StopForward | mobaxterm/core/tunneling.py:65-73 | an unknown id answers false with no change; a known one is stopped, removed, and answers true |
| TunnelRegistry.StopForwardTwice | mobaxterm/core/tunneling.py:65-73 | a second stop of the same id answers false and changes nothing |
| TunnelRegistry.RegisterThenStop | mobaxterm/core/tunneling.py:65-73 | stopping an id just registered stops that forward |
| TunnelRegistry.ListForwards | mobaxterm/core/tunneling.py:61-63 | the (id, forward) pairs in insertion order, one per registered id |
| TunnelRegistry.ListForwardsComplete | mobaxterm/core/tunneling.py:61-63 | every registered id appears exactly once |
| TunnelRegistry.StartForward | mobaxterm/core/tunneling.py:101-146 | a new, unstopped forward with the given rule is registered under its generated id, and every other entry is kept |
| TunnelRegistry.UpdateForward | mobaxterm/core/tunneling.py:105-136 | a registered id's entry is replaced in place, keeping the order; an unknown id changes nothing |
| TunnelRelay.RecvSize | mobaxterm/core/tunneling.py:187 | each `recv` returns between 1 and 32768 bytes while data remains |
| TunnelRelay.CopyDirectionSpec | mobaxterm/core/tunneling.py:184-192 | a direction forwards a prefix of its source in order, in non-empty chunks of at most 32768 bytes; it all goes through at end of input, and always does without errors |
| TunnelRelay.CopyLoop | mobaxterm/core/tunneling.py:184-192 | the copy loop with a mutable position forwards exactly what the functional definition describes |
| TunnelRelay.RunBridge | mobaxterm/core/tunneling.py:182-206 | both directions run to their end, independently, and both ends are closed afterwards |
| TunnelRelay.RelayDeliversAll | mobaxterm/core/tunneling.py:182-206 | without I/O errors each direction delivers its whole source, in order |
| TunnelRunner.HandleConn | mobaxterm/core/tunneling.py:126-131 | a connection is relayed iff its peer is reachable; a relayed one ends with both sides closed; a dropped one closes only the end that was accepted (the client socket of a Local forward, the channel of a Remote one) |
| TunnelRunner.DroppedLocal | mobaxterm/core/tunneling.py:126-130 | a Local connection whose channel cannot be opened closes its client socket and the loop goes on, unless that unguarded close raises, which ends the loop |
| TunnelRunner.DroppedRemote | mobaxterm/core/tunneling.py:163-170 | a Remote connection whose target cannot be reached closes its channel, any failure of that close is swallowed, and the loop goes on |
| TunnelRunner.AcceptLoop | mobaxterm/core/tunneling.py:119-131 | timeouts are skipped; each arrival yields one result; every drop closes only the accepted end; only an exception ends the loop early |
| TunnelRunner.AcceptLoopAppend | mobaxterm/core/tunneling.py:119-131 | an error-free run of events yields its own results followed by what the later events yield on their own |
| TunnelRunner.AcceptLoopStopsAtError | mobaxterm/core/tunneling.py:133-134 | nothing after the first exception is handled, whether the wait raised it or the unguarded close of a Local client socket did |
| TunnelRunner.RunLocal | mobaxterm/core/tunneling.py:105-136 | started iff a session was resolved, the connect succeeded and the listener was bound; the forward always ends stopped with nothing open; a dropped connection closed only its client socket |
| TunnelRunner.RunRemote | mobaxterm/core/tunneling.py:147-176 | started iff a session was resolved, the connect succeeded and the server accepted the bind; once connected, the bind is cancelled before the client is closed; a dropped connection closed only its channel |
| TunnelRunner.ConnectionsLeaveForwardAlone | mobaxterm/core/tunneling.py:119-136 | no connection touches the listener, the SSH client or the server-side bind: the forward ends and is released exactly as with no connections |
| TunnelRunner.Finish | mobaxterm/core/tunneling.py:135-136 | every runner ends with `stop()` |
| TunnelingDialog.BindHost | mobaxterm/ui/tunneling_dialog.py:110 | a blank bind host becomes `127.0.0.1`; any other is stripped |
| TunnelingDialog.AddForward | mobaxterm/ui/tunneling_dialog.py:105-135 | no session selected raises; non-integer ports, ports `<= 0` and a Remote forward without a target are refused; an accepted row is appended stopped, with no id, and a Local row targets the session's host |
| TunnelingDialog.Validate | mobaxterm/ui/tunneling_dialog.py:117-133 | accepts iff both ports parsed, both are positive, and a Remote forward has a target host |
| TunnelingDialog.LocalIgnoresTargetField | mobaxterm/ui/tunneling_dialog.py:113-116 | for a Local forward the target-host field plays no part |
| TunnelingDialog.NoUpperPortBound | mobaxterm/ui/tunneling_dialog.py:121-123 | any positive port is accepted, however large |
| TunnelingDialog.ParsePortDecimal | mobaxterm/ui/tunneling_dialog.py:111 | a port written in decimal reads back as itself |
| TunnelingDialog.SelectedRows | mobaxterm/ui/tunneling_dialog.py:154-158 | the rows of the selected cells, each once, in increasing order |
| TunnelingDialog.StartRow | mobaxterm/ui/tunneling_dialog.py:166-182 | a row already running with an id is skipped; a successful start records the id it was registered under and `running`; a start that raises leaves the row as it was |
| TunnelingDialog.StopRow | mobaxterm/ui/tunneling_dialog.py:191-199 | a row without an id is skipped; otherwise it becomes `stopped` and loses its id |
| TunnelingDialog.StartSelected | mobaxterm/ui/tunneling_dialog.py:160-183 | an empty selection only asks for one; otherwise every selected row is started as above and the others are kept; every selected row not already running has its forward registered, whether or not its start then raised, and no entry is removed |
| TunnelingDialog.StopSelected | mobaxterm/ui/tunneling_dialog.py:185-202 | an empty selection only asks for one; otherwise every selected row is stopped as above, the others are kept, and each selected forward leaves the registry |
| TunnelingDialog.RaisedStartLeavesOrphan | mobaxterm/core/tunneling.py:137-140 | a start whose spawn or wait raises has already registered its forward; the row keeps no id, so stopping the row afterwards leaves that forward registered |
| TunnelingDialog.StartThenStop | mobaxterm/ui/tunneling_dialog.py:160-202 | starting and then stopping a selection of stopped rows leaves them stopped and without ids |
| PosixPath.JoinPath | mobaxterm/core/sftp_client.py:95 | `posixpath.join` of two parts: an absolute second part replaces the first; otherwise the first part, one separating `/` unless it already ends in one, then the second |
| PosixPath.NormPath | mobaxterm/core/sftp_client.py:95-97 | `normpath` is never empty and keeps the count of leading slashes (none, one, or exactly two), so it is absolute exactly when its argument is |
| PosixPath.Parent | mobaxterm/core/sftp_client.py:125 | `dirname(p.rstrip('/'))` is a prefix of `p` that, unless it is all slashes, does not end in `/` |
| PosixPath.Dirname | mobaxterm/core/sftp_client.py:109 | `dirname` is a prefix of its argument |
| PosixPath.ParentShorter | mobaxterm/core/sftp_client.py:161-163 | the parent of anything but `''` and `/` is strictly shorter, so the climb ends |
| PosixPath.ParentOfAbsolute | mobaxterm/core/sftp_client.py:125 | the parent of an absolute path is absolute, or empty for a path of slashes |
| PosixPath.NormPathIdempotent | mobaxterm/core/sftp_client.py:95-97 | `normpath` is idempotent |
| PosixPath.NormPathAbsolute | mobaxterm/core/sftp_client.py:95-97 | `normpath` of an absolute path is absolute and free of `.`, `..` and empty components |
| Listing.SortListing | mobaxterm/core/sftp_client.py:81 | the listing is a sorted permutation of the entries |
| Listing.SortListingStable | mobaxterm/core/sftp_client.py:81 | entries with equal keys keep their relative order, as Python's sort does |
| Listing.DirsFirst | mobaxterm/ui/sftp_tab.py:119 | every directory comes before every file |
| Listing.NamesOrdered | mobaxterm/ui/sftp_tab.py:119 | within a group, lower-cased names are in order |
| SftpClient.FormatEntry | mobaxterm/core/sftp_client.py:63-71 | `is_dir` iff the mode is a directory mode; a missing name, size or mtime defaults to `''`, 0 and 0; a missing mode raises |
| SftpClient.FormatAll | mobaxterm/core/sftp_client.py:79 | the listing is formatted iff every entry has a mode |
| SftpClient.ListDir | mobaxterm/core/sftp_client.py:73-84 | a no-op unless connected; the target is `path`, else the current path, else `/`; the entries sent are a sorted permutation of the formatted ones |
| SftpClient.ListDirOrder | mobaxterm/core/sftp_client.py:79-81 | a remote listing puts directories first and orders names case-insensitively |
| SftpClient.Candidate | mobaxterm/core/sftp_client.py:91-97 | the candidate is normalised, and absolute whenever the current path is |
| SftpClient.Resolve | mobaxterm/core/sftp_client.py:100-116 | a directory resolves to itself and a file to a leading part of its path (its directory) or `/`, staying absolute; when `stat` fails, the path resolves iff `listdir` accepts it |
| SftpClient.ChangeDir | mobaxterm/core/sftp_client.py:86-120 | a no-op unless connected; an unresolvable path warns and changes nothing; otherwise the resolved path becomes current and is listed |
| SftpClient.ChangeDirStaysAbsolute | mobaxterm/core/sftp_client.py:86-120 | from an absolute (or unset) current directory, when the server's `normalize` raises or answers an absolute path, a successful change always lands on an absolute directory |
| SftpClient.UpTargetClimbs | mobaxterm/core/sftp_client.py:125 | going up stays absolute and gets strictly shorter until `/` |
| SftpClient.UpDir | mobaxterm/core/sftp_client.py:122-126 | a no-op without a current path; otherwise a change to its parent |
| SftpClient.AncestorChain | mobaxterm/core/sftp_client.py:159-163 | the chain starts with the path itself and is empty for `''` and `/` |
| SftpClient.AncestorChainShape | mobaxterm/core/sftp_client.py:159-163 | the chain never holds `''` or `/`, and each entry is the next one's parent and longer than it |
| SftpClient.CollectParts | mobaxterm/core/sftp_client.py:159-163 | the source's `while` loop collects exactly the chain |
| SftpClient.MkdirOrder | mobaxterm/core/sftp_client.py:164-171 | directories are visited shallowest first, ending with the path itself |
| SftpClient.CountTransfers | mobaxterm/core/sftp_client.py:136-149 | uploaded plus failed equals the number of items |
| SftpClient.Summarise | mobaxterm/core/sftp_client.py:152-155 | the success message is chosen iff nothing failed |
| SftpClient.UploadFiles | mobaxterm/core/sftp_client.py:129-155 | nothing unless connected; otherwise a summary against the normalised directory that counts every item |
| SftpClient.DownloadFiles | mobaxterm/core/sftp_client.py:186-218 | nothing unless connected; otherwise a summary against the local directory that counts every item |
| SftpClient.Disconnect | mobaxterm/core/sftp_client.py:234-246 | afterwards the client is not connected, so listing is a no-op |
| SftpTab.Kept | mobaxterm/ui/sftp_tab.py:106-118 | exactly the names whose stat succeeded are kept |
| SftpTab.ListLocal | mobaxterm/ui/sftp_tab.py:100-120 | an unreadable directory gives nothing; otherwise the kept entries, sorted |
| SftpTab.PopulateLocal | mobaxterm/ui/sftp_tab.py:138-154 | the `..` row is shown iff the path is neither `/` nor `''` |
| SftpTab.LocalUp | mobaxterm/ui/sftp_tab.py:156-159 | the parent, or `/` when it is empty; absolute paths climb strictly |
| SftpTab.LocalPathEnter | mobaxterm/ui/sftp_tab.py:161-165 | the stripped text becomes the path iff it names a directory |
| SftpTab.LocalDoubleClick | mobaxterm/ui/sftp_tab.py:167-178 | `..` goes up, a directory is joined to the path, anything else does nothing |
| SftpTab.SetRemoteListing | mobaxterm/ui/sftp_tab.py:181-197 | an empty path is shown as `/`; the `..` row is shown iff the path is neither `/` nor `''` |
| SftpTab.RemotePathEnter | mobaxterm/ui/sftp_tab.py:199-202 | a change is requested iff the stripped text is non-empty |
| SftpTab.ChildPath | mobaxterm/ui/sftp_tab.py:215-218 | starts with the path, ends with the name, and puts a `/` between them iff the path does not already end with one |
| SftpTab.RemoteDoubleClick | mobaxterm/ui/sftp_tab.py:204-219 | `..` requests up, a directory requests its child path, anything else nothing |
| SftpTab.UpUndoesChild | mobaxterm/ui/sftp_tab.py:204-219 | entering a directory and then going up returns to where one was |
| SftpTab.LocalUpUndoesChild | mobaxterm/ui/sftp_tab.py:156-178 | the same for the local pane |
| SshClient.Emit | mobaxterm/core/ssh_client.py:73 | each emitted line is its piece, stripped |
| SshClient.SplitLinesKeepEnds | mobaxterm/core/ssh_client.py:71 | `splitlines(True)` loses nothing, and is empty only for empty text |
| SshClient.SplitLinesShape | mobaxterm/core/ssh_client.py:71 | every piece but the last ends with its line boundary |
| SshClient.SplitLast | mobaxterm/core/ssh_client.py:71-74 | the pieces before the last are complete lines, and they and the last piece make up the text |
| SshClient.ReadStep | mobaxterm/core/ssh_client.py:68-74 | without a `\n` or `\r` the data is only buffered; otherwise every piece but the last is emitted; nothing is lost |
| SshClient.ReadStepWithholdsLine | mobaxterm/core/ssh_client.py:71-74 | any single complete line of plain text, such as `ls\n`, arriving in an empty buffer is kept back whole and nothing is emitted |
| SshClient.ReadStepFixed | mobaxterm/core/ssh_client.py:68-74 | the same step, with only an unfinished line kept back |
| SshClient.ReadStepFixedEmitsLine | mobaxterm/core/ssh_client.py:71-74 | the corrected step emits any single complete line of plain text at once, stripped, and leaves the buffer empty |
| SshClient.ReadLoop | mobaxterm/core/ssh_client.py:62-80 | the loop as written, or with the corrected step: either way the emitted pieces and the buffer make up exactly the decoded text received, and only complete lines are emitted |
| SshClient.OneLineSession | mobaxterm/core/ssh_client.py:62-80 | over a whole session whose only output is one line, the loop as written shows nothing and keeps the line buffered, while the corrected loop shows it |
| SshClient.ReadLoopStops | mobaxterm/core/ssh_client.py:64 | nothing is read once the connected flag is cleared |
| SshClient.SendCommand | mobaxterm/core/ssh_client.py:82-87 | the command and a newline are sent iff connected with a shell and the send succeeds; without a shell nothing is attempted |
| SshClient.Disconnect | mobaxterm/core/ssh_client.py:89-93 | clears the connected flag, so nothing more is sent; the client is closed iff there is one |
| TerminalView.Blocks | mobaxterm/ui/moba_terminal.py:159-162 | a document has at least one block, and no block holds a newline |
| TerminalView.BlocksOfShow | mobaxterm/ui/moba_terminal.py:157 | showing lines and reading the blocks back gives the same lines |
| TerminalView.ShowOfBlocks | mobaxterm/ui/moba_terminal.py:110-116 | reading the blocks and showing them again gives the same text |
| TerminalView.PadTo | mobaxterm/ui/terminal2.py:72-74 | pads with `""` up to the height and never truncates |
| TerminalView.TrimBlankTail | mobaxterm/ui/moba_terminal.py:155-156 | the lines up to the last non-blank one; every line cut off is blank |
| TerminalView.TrimBlankTailUnique | mobaxterm/ui/moba_terminal.py:155-156 | those three facts determine the result |
| TerminalView.TrimIgnoresBlankTail | mobaxterm/ui/moba_terminal.py:131-134 | appended blank lines do not survive, and the trim is idempotent |
| TerminalView.PlaceCaret | mobaxterm/ui/moba_terminal.py:158-169 | the row is clamped to the blocks and the column to the chosen block's length |
| TerminalView.Fed | mobaxterm/ui/moba_terminal.py:91-93 | output leaves a render pending, and starts the timer only if none was |
| TerminalView.Rendered | mobaxterm/ui/moba_terminal.py:145 | a render clears the pending flag |
| TerminalView.StartsBoundedByRenders | mobaxterm/ui/moba_terminal.py:91-93 | the timer starts at most once more than it fires |
| TerminalView.BurstStartsOnce | mobaxterm/ui/terminal2.py:60-62 | a burst of output starts the timer once, or not at all when a render is pending |
| MobaTerminal.MatchAt | mobaxterm/ui/moba_terminal.py:138-139 | the first alternative of the pattern that matches here, or none iff none matches |
| MobaTerminal.Remove | mobaxterm/ui/moba_terminal.py:138-139 | one left-to-right pass never adds characters |
| MobaTerminal.RemoveFindsAny | mobaxterm/ui/moba_terminal.py:138-139 | the callback runs iff some sequence occurs in the text |
| MobaTerminal.RemoveKeepsPlain | mobaxterm/ui/moba_terminal.py:138-139 | text with no sequence passes unchanged |
| MobaTerminal.RemoveKeepsPlainPrefix | mobaxterm/ui/moba_terminal.py:138-139 | a prefix without ESC stays, unchanged, in front of the filtered rest |
| MobaTerminal.RemoveDropsLeading | mobaxterm/ui/moba_terminal.py:138-139 | a leading sequence is deleted and counted |
| MobaTerminal.RemoveSplices | mobaxterm/ui/moba_terminal.py:138-139 | removing a match behind an unmatched ESC joins the ESC to the text after the match, in one pass |
| MobaTerminal.ExitPassesEnter | mobaxterm/ui/moba_terminal.py:138 | the enter pass leaves an exit sequence alone |
| MobaTerminal.EnterExitPasses | mobaxterm/ui/moba_terminal.py:138-139 | an enter then an exit sequence: one match in each pass, no text left |
| MobaTerminal.RemoveLeavesSplicedSequence | mobaxterm/ui/moba_terminal.py:138 | a worked instance of MobaTerminal.RemoveSplices: `ESC [?1` + `ESC[?47h` + `049h` loses the inner sequence and leaves a whole `ESC[?1049h` behind after the single pass |
| MobaTerminal.EnterAlt | mobaxterm/ui/moba_terminal.py:106-122 | entering from normal mode snapshots the document's blocks; repeated enters do nothing |
| MobaTerminal.ExitAlt | mobaxterm/ui/moba_terminal.py:124-136 | leaving restores the snapshot without its trailing blank lines; repeated exits do nothing |
| MobaTerminal.EnterTimes | mobaxterm/ui/moba_terminal.py:106-108 | n enters act as one |
| MobaTerminal.ExitTimes | mobaxterm/ui/moba_terminal.py:124-126 | n exits act as one |
| MobaTerminal.HandleAltScreen | mobaxterm/ui/moba_terminal.py:103-142 | every sequence is deleted; the mode ends false if an exit occurred, else true if an enter occurred, else unchanged |
| MobaTerminal.Feed | mobaxterm/ui/moba_terminal.py:83-95 | without an emulator the text is appended; with one it is filtered, fed and a render scheduled |
| MobaTerminal.FeedPlain | mobaxterm/ui/moba_terminal.py:83-95 | text without ESC reaches the emulator unchanged and keeps the mode |
| MobaTerminal.EnterThenExitRestores | mobaxterm/ui/moba_terminal.py:103-139 | entering and leaving in one chunk restores the document |
| MobaTerminal.EnterExitView | mobaxterm/ui/moba_terminal.py:106-136 | entering then leaving shows the saved document again when it did not end in blank lines |
| MobaTerminal.Render | mobaxterm/ui/moba_terminal.py:144-171 | alt mode pads to the height, normal mode trims trailing blank lines; the caret is clamped |
| MobaTerminal.RenderShowsLines | mobaxterm/ui/moba_terminal.py:150-157 | the rendered document's blocks are the displayed lines, padded or trimmed |
| MobaTerminal.OnKey | mobaxterm/ui/moba_terminal.py:173-222 | a key that sends always sends something |
| MobaTerminal.OnKeyFollowsTable | mobaxterm/ui/moba_terminal.py:197-218 | a key with an entry in the key table sends that entry's bytes, with paste and copy taking precedence |
| MobaTerminal.OnKeyFallsBackToText | mobaxterm/ui/moba_terminal.py:219-222 | keys without an entry send their text, and are not handled iff it is empty |
| MobaTerminal.ControlLetters | mobaxterm/ui/moba_terminal.py:199-204 | Ctrl+C, Ctrl+D and Ctrl+L send the control character of their letter |
| MobaTerminal.Paste | mobaxterm/ui/moba_terminal.py:178-186 | clipboard text is sent iff non-empty |
| MobaTerminal.EmitResize | mobaxterm/ui/moba_terminal.py:231-244 | reported only with a resizer; at least 20 columns and 5 rows, and exactly the cells that fit above that |
| Terminal2.NewTerm | mobaxterm/ui/terminal2.py:21-24 | a new terminal shows nothing, has fed nothing and has no pending render |
| Terminal2.Feed | mobaxterm/ui/terminal2.py:52-64 | without an emulator the raw text is appended; with one it is fed and a render scheduled unless pending |
| Terminal2.Render | mobaxterm/ui/terminal2.py:66-90 | the pending flag is cleared, the lines are padded to the height and the caret is clamped |
| Terminal2.RenderPadsNeverTruncates | mobaxterm/ui/terminal2.py:72-75 | the document's blocks are the displayed lines followed by empty ones up to the height |
| Terminal2.RawFeedAppends | mobaxterm/ui/terminal2.py:53-57 | without an emulator the document is everything fed, in order |
| Terminal2.BurstFeedsInOrder | mobaxterm/ui/terminal2.py:58-62 | a burst reaches the emulator in order and starts the timer at most once |
| MockSshServer.Accepts | electron-poc/mock_ssh_server.js:29-42 | a password attempt is accepted iff the password is `test`; any public key is accepted; other methods are rejected |
| MockSshServer.OnPty | electron-poc/mock_ssh_server.js:53-59 | the size is never zero, and a request without size information gives 80 by 24 |
| MockSshServer.OnWindowChange | electron-poc/mock_ssh_server.js:61-70 | a change without size information keeps the size, and a non-zero size stays non-zero |
| MockSshServer.SizeLaws | electron-poc/mock_ssh_server.js:53-70 | a window change repeating the PTY request changes nothing; a full one replaces the size |
| MockSshServer.ShellCandidates | electron-poc/mock_ssh_server.js:89-98 | five candidates: on Windows `BASH` (or `bash`) first and `COMSPEC` (or `cmd.exe`) last; elsewhere `SHELL` (or `bash`) first and `/bin/sh` last |
| MockSshServer.SpawnArgsFor | electron-poc/mock_ssh_server.js:100-110 | on Windows `-NoLogo` for PowerShell, nothing for `cmd`, `-l` otherwise; elsewhere always `-l` |
| MockSshServer.SpawnArgsExamples | electron-poc/mock_ssh_server.js:100-110 | worked instances of MockSshServer.SpawnArgsFor: `powershell.exe` gets `-NoLogo`, an upper-case `CMD.EXE` path gets no arguments (the match ignores case), `/bin/sh` off Windows gets `-l` |
| MockSshServer.ChooseShell | electron-poc/mock_ssh_server.js:113-132 | the first candidate that spawns, or none (the line-by-line fallback) iff there is no PTY module or none spawns |
| MockSshServer.ShellInvocation | electron-poc/mock_ssh_server.js:144-151 | `cmd /d /s /c` on Windows, the login shell with `-lc` elsewhere, with the command last |
| MockSshServer.RunCommand | electron-poc/mock_ssh_server.js:139-171 | re-prompts iff the line is blank; ends the session iff it is an exit word in any case; otherwise runs the trimmed line |
| MockSshServer.ExitAnyCase | electron-poc/mock_ssh_server.js:140-143 | a word that lowers to an exit word ends the session, bare or padded with spaces |
| MockSshServer.LowerExitWords | electron-poc/mock_ssh_server.js:142 | `EXIT` and `Quit` count as exit words: the match ignores case |
| MockSshServer.NewEditor | electron-poc/mock_ssh_server.js:136-138 | the fallback starts with an empty buffer and ends its first output with the prompt |
| MockSshServer.Submit | electron-poc/mock_ssh_server.js:176-182 | a line end hands the buffer to `runCommand` and empties it; it writes a new line, followed by the prompt when the line was blank; an exit word ends the session |
| MockSshServer.OnChar | electron-poc/mock_ssh_server.js:183-199 | Ctrl+C clears and re-prompts; Ctrl+D ends and keeps the buffer; erase drops one character if any and always writes `\b \b`; printable ASCII is buffered and echoed; anything else is ignored |
| MockSshServer.OnData | electron-poc/mock_ssh_server.js:172-202 | lines already handed on are never taken back |
| MockSshServer.CrLfOneChunk | electron-poc/mock_ssh_server.js:176-182 | CR LF in one chunk is one line end |
| MockSshServer.CrLfSplitAcrossChunks | electron-poc/mock_ssh_server.js:176-182 | CR LF split across two chunks hands on the line and then an extra empty line |
| MockSshServer.PrintableEchoed | electron-poc/mock_ssh_server.js:195-198 | printable text is appended to the buffer and echoed unchanged |
| MockSshServer.LinesAreSplitPieces | electron-poc/mock_ssh_server.js:172-198 | for printable text and line feeds, the lines handed on are the pieces of buffer plus input split at line feeds, the last piece staying in the buffer |
| MockSshServer.ControlKeys | electron-poc/mock_ssh_server.js:183-194 | Ctrl+C empties the buffer; Ctrl+D ends and keeps it; erasing an empty line still writes the erase sequence |
| Text.StripSpec | mobaxterm/ui/tunneling_dialog.py:110 | `str.strip` cuts a slice out of the text: everything cut away on either side is whitespace, and the slice neither starts nor ends with whitespace |
| Numbers.DecimalString | mobaxterm/core/tunneling.py:104 | the f-string rendering of an int is non-empty, ends in a digit and starts with a digit or `-` (read back by Numbers.ParseDecimalRoundTrip and Numbers.DecimalInjective) |
| Numbers.ParseInt | mobaxterm/ui/tunneling_dialog.py:111 | `int()` on the port field: blank text is a `ValueError`; accepted text is, once stripped, an optional sign and ASCII digits ending in a digit |
| Numbers.ParseDecimalRoundTrip | mobaxterm/ui/tunneling_dialog.py:111 | `int()` reads back every integer that `str()` writes |
| Numbers.DecimalInjective | mobaxterm/core/tunneling.py:104 | two integers written in decimal give the same text only when they are equal |

## Left out

- Threads, locks, daemon flags, join timeouts and `_wait_started` in `mobaxterm/core/tunneling.py`: the runner and relay are modelled as sequential folds over what the I/O calls return. Each direction's data is a finite sequence, so every relay ends and the accept loop always moves on. In the program `_bridge` runs inline and joins both copy threads (tunneling.py:131, :171, :194-197), so a peer that never closes blocks that runner's accept loop for good; that liveness hazard is outside the model.
- All network, SSH and file-system calls: paramiko connect and authentication, sockets, channels, SFTP `put`/`get`/`stat`/`listdir`, `os.walk` and `os.stat`. Each is a parameter giving its outcome.
- TunnelRunner.RunLocal: a failure to create the listening socket is folded into the bind outcome.
- SftpClient.UploadFiles: the recursive directory upload and download (`_upload_dir_recursive`, `_download_dir_recursive`) appear only as each item's success or failure.
- SftpClient.UploadDir: if `normalize` raises, the fallback directory is taken as given; server path semantics are not modelled.
- The JSON save and load of `SessionManager`, and its confirmation dialog, which are file I/O and UI.
- SessionModel.FromDict: ill-typed values are rejected, where Python would store them unchecked.
- `_fmt_size` (floating-point division and rounding) and `_fmt_time` (local time) in `mobaxterm/ui/sftp_tab.py`, and Qt's `sortItems` re-ordering of the tree widgets.
- SftpTab.LocalUp: `os.sep` is taken to be `/`.
- SftpClient.Candidate, SftpClient.Resolve, SftpClient.UpTarget, SftpClient.AncestorChain and the PosixPath module: `os.path` is taken to be `posixpath`, that is, the client runs on a POSIX host. On Windows `os.path` is `ntpath`, which would rewrite remote paths with backslashes (`normpath('/home/u')` gives `\home\u`); that behaviour is not modelled.
- The new-folder prompt of the session dialog (`on_folder_changed`) and the key-file browser, which are UI.
- SessionDialog.NewDialog: the folder list is a parameter, as if the session manager could list its folders. As written it cannot: see the `get_all_folders` row under "## Findings" and SessionDialog.OpenDialog.
- The pyte emulator itself: the screen's display lines and cursor are parameters of the render functions.
- MobaTerminal.Feed, Terminal2.Feed: the emulator's `feed` is taken never to raise. In the program an exception from it is swallowed by `except Exception: pass` before the pending flag is set, so no render is scheduled for that chunk (moba_terminal.py:88-95, terminal2.py:58-64); the contracts' "a render is scheduled" holds only when `feed` returns.
- SshClient.Disconnect: `client.close()` is taken never to raise. In the program a raising close skips the `connection_status` "Disconnected" signal (ssh_client.py:89-93); the connected flag is cleared either way.
- The caret's absolute document position: the model places the caret by block and column, which is what the position encodes.
- Qt's paragraph separator U+2029 in `QTextDocument` blocks: documents are split at `\n` only.
- MobaTerminal.EmitResize: `int(w / cw)` is modelled as exact floor division of positive integers; floating-point rounding of very large sizes is not modelled.
- The zoom shortcuts, the style sheets and the Ctrl+X copy of the selection: the copy is an outcome without data.
- Text.Lower and MockSshServer.SpawnArgsFor: lower-casing covers ASCII letters only, where Python's `str.lower` and JavaScript's `toLowerCase` also fold other scripts.
- MockSshServer.RunCommand: trimming uses Python's whitespace set; JavaScript's `trim` differs on U+001C-U+001F, U+0085 and U+FEFF.
- SshClient.ReadLoop: each `recv(1024)` chunk is decoded on its own with errors ignored, so a UTF-8 character split across two chunks, or any invalid byte, is dropped before the loop sees it. The model starts from the decoded text of each chunk, and its "nothing lost" property is about that decoded text, not the bytes received.
- Numbers.ParseInt: only the ASCII digits `0`-`9` are accepted, where Python's `int()` accepts every Unicode decimal digit (full-width or Arabic-Indic digits, say), so a port typed in such digits is accepted by the dialog but refused by TunnelingDialog.AddForward and TunnelingDialog.Validate in the model.
- The mock server's idle timer, the PTY process and its data pumping, the output of commands run by a shell, and the `exec` handler: these are processes and timers.
- MockSshServer.OnData: writes attempted after the stream has ended are recorded as made; whether Node raises on them is not modelled.
- TunnelRegistry.ListForwards: the listed forwards are values as they were when listed; in the program they are the shared `PortForward` objects, so a later `stop()` changes their stop flag, sockets and client in a list already returned. Only the ids and their order are a snapshot.
- The Electron main process and preload script, the web terminal bridges, `mobaxterm/core/ssh2.py`, the `next/` demo backends and the pure presentation widgets: they hold no logic beyond what is modelled here.

## Findings

| source | as written | input that shows it | evidently intended | confidence | as-written member | corrected member |
|---|---|---|---|---|---|---|
| mobaxterm/core/ssh_client.py:71-74 | the last piece of `splitlines(True)` is always kept in the buffer, even when it is a complete line | one chunk `ls\n` (or any one line of plain text ending in `\n`) into an empty buffer: nothing is emitted and the line stays buffered until more data arrives | emit every complete line and keep back only an unfinished one | not executed; high that the line is held back, medium that this was unintended | SshClient.ReadStep (shown by SshClient.ReadStepWithholdsLine) | SshClient.ReadStepFixed (shown by SshClient.ReadStepFixedEmitsLine; SshClient.ReadLoop runs either step, and SshClient.OneLineSession compares them over a session) |
| mobaxterm/ui/session_dialog.py:509 | `load_session_data` reads `session.password`, and the SFTP branch of `get_session_data` (line 572) passes `password=`, but `Session` (mobaxterm/models/session.py:6-18) has no such field | any session passed to `load_session_data` raises `AttributeError`; any SFTP form read by `get_session_data` raises `TypeError` | load and read sessions without a password | not executed; high | SessionDialog.LoadSessionData, SessionDialog.GetSessionData | SessionDialog.LoadSessionDataFixed, SessionDialog.GetSessionDataFixed (round trip proved by SessionDialog.LoadThenGet) |
| mobaxterm/ui/session_dialog.py:264 | with a parent that has a `session_manager`, `initUI` calls `session_manager.get_all_folders()`, which `SessionManager` (mobaxterm/core/session_manager.py:9-78) does not define (the SFTP page repeats the call at line 438) | the main window opens every dialog as `SessionDialog(self)` or `SessionDialog(self, session)` (mobaxterm/ui/main_window.py:368, :503) with `session_manager = SessionManager()` (line 36), so each construction raises `AttributeError` before any form exists | fill both folder combos with the manager's folders | not executed; high | SessionDialog.OpenDialog (shown by SessionDialog.MainWindowDialogFails) | SessionDialog.OpenDialogFixed (built on SessionDialog.NewDialog; SessionDialog.MainWindowDialogFails relates the two) |

=== FILE: base.dfy ===
/** Small shared vocabulary: optional values, results with an error, and
    integer helpers used by several models. */
module Base {

  /** A value that may be absent; Python's `None` and JavaScript's
      `undefined` are both modelled as `None`. */
  datatype Option<+T> = None | Some(value: T) {
    function GetOr(default: T): T {
      match this
      case Some(v) => v
      case None => default
    }
  }

  /** A Python optional string is truthy when present and non-empty. */
  predicate Truthy(o: Option<string>) { o.Some? && o.value != "" }

  /** The outcome of an operation that can raise: `Err` carries the
      exception the source would raise. */
  datatype Result<+T, +E> = Ok(value: T) | Err(error: E) {
    predicate IsFailure() { Err? }

    function PropagateFailure<U>(): Result<U, E>
      requires Err?
    {
      Err(error)
    }

    function Extract(): T
      requires Ok?
    {
      value
    }
  }

  function Min(a: int, b: int): int { if a <= b then a else b }

  function Max(a: int, b: int): int { if a >= b then a else b }

  /** `Max(lo, Min(x, hi))`: the value `x` clamped into `[lo, hi]`. */
  function Clamp(x: int, lo: int, hi: int): int { Max(lo, Min(x, hi)) }

  /** Concatenation of a sequence of sequences. */
  function Flatten<T>(xs: seq<seq<T>>): seq<T>
  {
    if |xs| == 0 then [] else xs[0] + Flatten(xs[1..])
  }

  lemma FlattenAppend<T>(xs: seq<seq<T>>, ys: seq<seq<T>>)
    ensures Flatten(xs + ys) == Flatten(xs) + Flatten(ys)
  {
    if |xs| == 0 {
      assert xs + ys == ys;
    } else {
      assert (xs + ys)[1..] == xs[1..] + ys;
      FlattenAppend(xs[1..], ys);
    }
  }

  /** How many elements of `xs` satisfy `p`. */
  function Count<T>(xs: seq<T>, p: T -> bool): nat
  {
    if |xs| == 0 then 0 else (if p(xs[0]) then 1 else 0) + Count(xs[1..], p)
  }

  lemma CountAppend<T>(xs: seq<T>, ys: seq<T>, p: T -> bool)
    ensures Count(xs + ys, p) == Count(xs, p) + Count(ys, p)
  {
    if |xs| == 0 {
      assert xs + ys == ys;
    } else {
      assert (xs + ys)[1..] == xs[1..] + ys;
      CountAppend(xs[1..], ys, p);
    }
  }
}

=== FILE: folders.dfy ===
/** Building a nested folder path from a parent and a typed name, as
    `get_folder_path` in `mobaxterm/ui/nested_folder_dialog.py` does.
    Folder paths are `/`-separated names; the root is the empty path. */
module NestedFolder {
  import opened Base
  import opened Text

  /** The data of the parent combo's "(Root)" item. */
  const Root := ""

  /** `get_folder_path`: nothing when the stripped name is empty; the name
      under the parent, joined with `/`, when a parent is chosen; the name
      alone under the root. */
  function FolderPath(parent: string, nameText: string): (r: Option<string>)
    ensures r.None? <==> IsBlank(nameText)
    ensures r.Some? ==> EndsWith(r.value, Strip(nameText)) && Strip(nameText) != ""
    ensures r.Some? && parent != Root ==> StartsWith(r.value, parent + "/")
    ensures r.Some? && parent != Root ==> |r.value| == |parent| + 1 + |Strip(nameText)|
    ensures r.Some? && parent == Root ==> r.value == Strip(nameText)
  {
    StripEmptyIffBlank(nameText);
    var name := Strip(nameText);
    if name == "" then None
    else if parent != Root then
      var path := parent + "/" + name;
      assert path[..|parent + "/"|] == parent + "/";
      assert path[|path| - |name|..] == name;
      Some(path)
    else Some(name)
  }

  /** Splitting at a separator distributes over a join at that separator. */
  lemma {:induction false} SplitConcat(a: string, b: string, c: char)
    ensures SplitOn(a + [c] + b, c) == SplitOn(a, c) + SplitOn(b, c)
    decreases |a|
  {
    if |a| == 0 {
      assert a + [c] + b == [c] + b;
      SplitOnCons(c, b, c);
    } else {
      var t := a[1..];
      assert a == [a[0]] + t;
      assert a + [c] + b == [a[0]] + (t + [c] + b);
      SplitConcat(t, b, c);
      SplitOnCons(a[0], t + [c] + b, c);
      SplitOnCons(a[0], t, c);
      ConsPieces(a[0], c, SplitOn(t, c), SplitOn(b, c));
    }
  }

  /** The step of `SplitOnCons` commutes with appending more pieces. */
  lemma ConsPieces(x: char, c: char, front: seq<string>, back: seq<string>)
    requires |front| >= 1
    ensures var whole := front + back;
      (if x == c then [""] + whole else [[x] + whole[0]] + whole[1..])
      == (if x == c then [""] + front else [[x] + front[0]] + front[1..]) + back
  {
    assert (front + back)[0] == front[0];
    assert (front + back)[1..] == front[1..] + back;
  }

  /** A folder built under a parent names the parent's folders and then
      the new one: the parent can be read back from the path. */
  lemma FolderPathSegments(parent: string, nameText: string)
    requires !IsBlank(nameText) && !Contains(nameText, '/')
    ensures var r := FolderPath(parent, nameText);
      r.Some? && SplitOn(r.value, '/') == (if parent == Root then [] else SplitOn(parent, '/')) + [Strip(nameText)]
  {
    StripEmptyIffBlank(nameText);
    var name := Strip(nameText);
    StripSpec(nameText);
    assert !Contains(name, '/') by {
      forall j | 0 <= j < |name| ensures name[j] != '/' {
        assert name[j] == nameText[StripStart(nameText) + j];
      }
    }
    SplitNoSep(name, '/');
    if parent != Root {
      assert parent + "/" + name == parent + ['/'] + name;
      SplitConcat(parent, name, '/');
    }
  }
}

/** The expand/collapse button of a folder row in the session tree,
    `mobaxterm/ui/folder_tree_item.py`. */
module FolderTreeItem {

  /** The button's glyphs: a down-pointing triangle when expanded, a
      right-pointing one when collapsed. */
  const ExpandedGlyph := "\U{25BC}"
  const CollapsedGlyph := "\U{25B6}"

  datatype Item = Item(name: string, expanded: bool, glyph: string)

  /** The button shows the item's state. */
  predicate GlyphShowsState(i: Item)
  {
    i.glyph == (if i.expanded then ExpandedGlyph else CollapsedGlyph)
  }

  /** A new item is expanded. */
  function NewItem(name: string): (i: Item)
    ensures i.name == name && i.expanded && GlyphShowsState(i)
  {
    Item(name, true, ExpandedGlyph)
  }

  /** `set_expanded`. */
  function SetExpanded(i: Item, expanded: bool): (r: Item)
    ensures r.expanded == expanded && r.name == i.name && GlyphShowsState(r)
  {
    Item(i.name, expanded, if expanded then ExpandedGlyph else CollapsedGlyph)
  }

  /** `toggle_folder`. */
  function Toggle(i: Item): (r: Item)
    ensures r.expanded == !i.expanded && r.name == i.name && GlyphShowsState(r)
  {
    Item(i.name, !i.expanded, if !i.expanded then ExpandedGlyph else CollapsedGlyph)
  }

  /** Toggling twice restores an item whose button shows its state;
      toggling is setting the opposite state; setting is idempotent. */
  lemma ToggleLaws(i: Item, x: bool)
    requires GlyphShowsState(i)
    ensures Toggle(Toggle(i)) == i
    ensures Toggle(i) == SetExpanded(i, !i.expanded)
    ensures SetExpanded(SetExpanded(i, x), x) == SetExpanded(i, x)
    ensures SetExpanded(i, i.expanded) == i
  {
  }

  /** The two glyphs differ, so the button tells the states apart. */
  lemma GlyphsDiffer(i: Item, j: Item)
    requires GlyphShowsState(i) && GlyphShowsState(j)
    ensures i.glyph == j.glyph <==> i.expanded == j.expanded
  {
    assert ExpandedGlyph[0] != CollapsedGlyph[0];
  }
}

=== FILE: listing.dfy ===
/** The order both file panes list a directory in: directories before
    files, each group by lower-cased name, as
    `entries.sort(key=lambda e: (0 if e['is_dir'] else 1, e['name'].lower()))`
    sorts them in `mobaxterm/core/sftp_client.py` and
    `mobaxterm/ui/sftp_tab.py`. Python's sort is stable, so entries with
    equal keys keep their listing order. */
module Listing {
  import opened Base
  import opened Text

  /** One listed entry; `mode` is present for remote entries only. */
  datatype Entry = Entry(name: string, isDir: bool, size: int, mtime: int, mode: Option<int>)

  /** The sort key: the group (0 for directories, 1 for files) and the
      lower-cased name. */
  datatype SortKey = SortKey(group: nat, name: string)

  function KeyOf(e: Entry): SortKey
  {
    SortKey(if e.isDir then 0 else 1, Lower(e.name))
  }

  /** Python's string comparison: code point by code point, a proper prefix
      first. */
  predicate StrLess(a: string, b: string)
    decreases |a|
  {
    |b| > 0 && (|a| == 0 || a[0] < b[0] || (a[0] == b[0] && StrLess(a[1..], b[1..])))
  }

  /** Python's tuple comparison on keys. */
  predicate KeyLess(a: SortKey, b: SortKey)
  {
    a.group < b.group || (a.group == b.group && StrLess(a.name, b.name))
  }

  lemma {:induction false} StrLessIrreflexive(a: string)
    ensures !StrLess(a, a)
    decreases |a|
  {
    if |a| > 0 {
      StrLessIrreflexive(a[1..]);
    }
  }

  lemma {:induction false} StrLessTrans(a: string, b: string, c: string)
    requires StrLess(a, b) && StrLess(b, c)
    ensures StrLess(a, c)
    decreases |a|
  {
    if |a| > 0 && a[0] == b[0] && b[0] == c[0] {
      StrLessTrans(a[1..], b[1..], c[1..]);
    }
  }

  lemma {:induction false} StrLessTotal(a: string, b: string)
    ensures a == b || StrLess(a, b) || StrLess(b, a)
    decreases |a|
  {
    if |a| > 0 && |b| > 0 && a[0] == b[0] {
      StrLessTotal(a[1..], b[1..]);
      if a[1..] == b[1..] {
        assert a == [a[0]] + a[1..] && b == [b[0]] + b[1..];
      }
    }
  }

  lemma {:induction false} StrLessAsym(a: string, b: string)
    requires StrLess(a, b)
    ensures !StrLess(b, a)
    decreases |a|
  {
    if |a| > 0 && a[0] == b[0] {
      StrLessAsym(a[1..], b[1..]);
    }
  }

  /** Not-greater is transitive, which is what sorting needs of the key. */
  lemma KeyLeTrans(a: SortKey, b: SortKey, c: SortKey)
    requires !KeyLess(b, a) && !KeyLess(c, b)
    ensures !KeyLess(c, a)
  {
    StrLessTotal(a.name, b.name);
    StrLessTotal(b.name, c.name);
    if KeyLess(c, a) {
      if c.group == a.group && a.group == b.group {
        StrLessTrans(c.name, a.name, b.name);
        assert false;
      }
    }
  }

  lemma KeyLessAsym(a: SortKey, b: SortKey)
    requires KeyLess(a, b)
    ensures !KeyLess(b, a)
  {
    if a.group == b.group {
      StrLessAsym(a.name, b.name);
    }
  }

  /** No entry is followed by one with a smaller key. */
  predicate Sorted(s: seq<Entry>)
  {
    forall i, j :: 0 <= i < j < |s| ==> !KeyLess(KeyOf(s[j]), KeyOf(s[i]))
  }

  /** The entries of `s` whose key is `k`, in order. */
  function WithKey(s: seq<Entry>, k: SortKey): seq<Entry>
  {
    if |s| == 0 then []
    else (if KeyOf(s[0]) == k then [s[0]] else []) + WithKey(s[1..], k)
  }

  /** Places `e` before the first entry whose key is not smaller. */
  function Insert(e: Entry, s: seq<Entry>): (r: seq<Entry>)
    ensures multiset(r) == multiset(s) + multiset{e}
    ensures forall y :: y in r <==> y == e || y in s
    ensures Sorted(s) ==> Sorted(r)
  {
    if |s| == 0 then [e]
    else if !KeyLess(KeyOf(s[0]), KeyOf(e)) then
      FrontSorted(e, s);
      [e] + s
    else
      assert s == [s[0]] + s[1..];
      var t := Insert(e, s[1..]);
      ConsSorted(s[0], e, s[1..], t);
      [s[0]] + t
  }

  lemma FrontSorted(e: Entry, s: seq<Entry>)
    requires |s| > 0 && !KeyLess(KeyOf(s[0]), KeyOf(e))
    ensures Sorted(s) ==> Sorted([e] + s)
  {
    if Sorted(s) {
      var r := [e] + s;
      forall i, j | 0 <= i < j < |r| ensures !KeyLess(KeyOf(r[j]), KeyOf(r[i])) {
        if i == 0 {
          if j > 1 {
            KeyLeTrans(KeyOf(e), KeyOf(s[0]), KeyOf(s[j - 1]));
          }
        } else {
          assert r[i] == s[i - 1] && r[j] == s[j - 1];
        }
      }
    }
  }

  lemma ConsSorted(h: Entry, e: Entry, rest: seq<Entry>, t: seq<Entry>)
    requires KeyLess(KeyOf(h), KeyOf(e))
    requires forall y :: y in t <==> y == e || y in rest
    requires Sorted([h] + rest) ==> Sorted(t)
    ensures Sorted([h] + rest) ==> Sorted([h] + t)
  {
    if Sorted([h] + rest) {
      var r := [h] + t;
      forall i, j | 0 <= i < j < |r| ensures !KeyLess(KeyOf(r[j]), KeyOf(r[i])) {
        if i == 0 {
          var y := r[j];
          assert y == t[j - 1] && y in t;
          if y == e {
            KeyLessAsym(KeyOf(h), KeyOf(e));
          } else {
            assert y in rest;
            var k :| 0 <= k < |rest| && rest[k] == y;
            var hr := [h] + rest;
            assert hr[0] == h && hr[k + 1] == y;
            assert !KeyLess(KeyOf(hr[k + 1]), KeyOf(hr[0]));
          }
        } else {
          assert r[i] == t[i - 1] && r[j] == t[j - 1];
          assert Sorted(t);
          assert !KeyLess(KeyOf(t[j - 1]), KeyOf(t[i - 1]));
        }
      }
    }
  }

  /** The listing order, as a stable insertion sort. */
  function SortListing(xs: seq<Entry>): (r: seq<Entry>)
    ensures Sorted(r)
    ensures multiset(r) == multiset(xs)
    ensures |r| == |xs|
  {
    if |xs| == 0 then []
    else
      assert xs == [xs[0]] + xs[1..];
      Insert(xs[0], SortListing(xs[1..]))
  }

  /** Inserting keeps every key class in order, with the new entry first in
      its own class. */
  lemma {:induction false} InsertWithKey(e: Entry, s: seq<Entry>, k: SortKey)
    ensures WithKey(Insert(e, s), k) == (if KeyOf(e) == k then [e] else []) + WithKey(s, k)
  {
    if |s| > 0 && KeyLess(KeyOf(s[0]), KeyOf(e)) {
      var t := Insert(e, s[1..]);
      assert Insert(e, s) == [s[0]] + t;
      InsertWithKey(e, s[1..], k);
      assert s == [s[0]] + s[1..];
      KeyLessDistinct(KeyOf(s[0]), KeyOf(e));
      PassOver(e, s[0], s[1..], t, k);
    } else {
      assert Insert(e, s) == [e] + s;
      WithKeyCons(e, s, k);
    }
  }

  /** An entry with another key than `e` can be put in front of both
      sides: the key classes stay in step. */
  lemma PassOver(e: Entry, h: Entry, rest: seq<Entry>, t: seq<Entry>, k: SortKey)
    requires KeyOf(h) != KeyOf(e)
    requires WithKey(t, k) == (if KeyOf(e) == k then [e] else []) + WithKey(rest, k)
    ensures WithKey([h] + t, k) == (if KeyOf(e) == k then [e] else []) + WithKey([h] + rest, k)
  {
    WithKeyCons(h, t, k);
    WithKeyCons(h, rest, k);
    if KeyOf(h) == k {
      assert WithKey([h] + t, k) == [h] + WithKey(rest, k);
    } else {
      assert WithKey([h] + t, k) == WithKey(t, k);
    }
  }

  /** Keys in strict order differ. */
  lemma KeyLessDistinct(a: SortKey, b: SortKey)
    requires KeyLess(a, b)
    ensures a != b
  {
    StrLessIrreflexive(a.name);
  }

  /** One step of `WithKey`. */
  lemma WithKeyCons(x: Entry, t: seq<Entry>, k: SortKey)
    ensures WithKey([x] + t, k) == (if KeyOf(x) == k then [x] else []) + WithKey(t, k)
  {
    assert ([x] + t)[1..] == t;
  }

  /** Stability: entries with equal keys come out in the order they went
      in. Together with `Sorted` and the multiset equality this fixes the
      listing completely. */
  lemma {:induction false} SortListingStable(xs: seq<Entry>, k: SortKey)
    ensures WithKey(SortListing(xs), k) == WithKey(xs, k)
  {
    if |xs| > 0 {
      SortListingStable(xs[1..], k);
      InsertWithKey(xs[0], SortListing(xs[1..]), k);
    }
  }

  /** In a sorted listing every directory precedes every file. */
  lemma DirsFirst(s: seq<Entry>)
    requires Sorted(s)
    ensures forall i, j :: 0 <= i < j < |s| && s[j].isDir ==> s[i].isDir
  {
  }

  /** Within one group, names are in lower-cased order. */
  lemma NamesOrdered(s: seq<Entry>, i: nat, j: nat)
    requires Sorted(s) && i < j < |s| && s[i].isDir == s[j].isDir
    ensures !StrLess(Lower(s[j].name), Lower(s[i].name))
  {
  }
}

=== FILE: moba_terminal.dfy ===
/** The emulated terminal of `mobaxterm/ui/moba_terminal.py`: output is
    filtered for the alternate-screen switches, fed to the emulator, and
    rendered on a timer; key presses become the bytes a terminal sends; a
    resize reports a grid size. The emulator (pyte) is abstract: what it
    was fed is recorded, and its display and cursor are inputs of the
    render. */
module MobaTerminal {
  import opened Base
  import opened Text
  import opened TerminalView

  const Esc: char := '\U{001B}'

  /** Patterns a left-to-right scan can look for: none is empty, and each
      starts with an escape and has no other. */
  predicate EscapePatterns(pats: seq<string>)
  {
    forall k :: 0 <= k < |pats| ==> |pats[k]| > 0 && pats[k][0] == Esc && !Contains(pats[k][1..], Esc)
  }

  type Patterns = pats: seq<string> | EscapePatterns(pats) witness []

  /** The private modes 1049, 47 and 1047, set (`h`) and reset (`l`), in
      the order the pattern's alternation tries them. */
  const EnterSequences: Patterns := [[Esc] + "[?1049h", [Esc] + "[?47h", [Esc] + "[?1047h"]
  const ExitSequences: Patterns := [[Esc] + "[?1049l", [Esc] + "[?47l", [Esc] + "[?1047l"]

  /** The first pattern `s` starts with, if any. */
  function MatchAt(s: string, pats: seq<string>): (r: Option<nat>)
    ensures r.Some? ==> r.value < |pats| && StartsWith(s, pats[r.value])
    ensures r.None? <==> forall k :: 0 <= k < |pats| ==> !StartsWith(s, pats[k])
  {
    if |pats| == 0 then None
    else if StartsWith(s, pats[0]) then Some(0)
    else match MatchAt(s, pats[1..])
      case Some(k) => Some(k + 1)
      case None => None
  }

  /** Some pattern occurs somewhere in `s`. */
  predicate OccursIn(s: string, pats: seq<string>)
  {
    exists i :: 0 <= i <= |s| && MatchAt(s[i..], pats).Some?
  }

  /** The text left by one `re.sub` pass, and how many matches it
      replaced (each one a call of the replacement's side effect). */
  datatype Filtered = Filtered(text: string, matches: nat)

  /** One `re.sub` pass that replaces every match with nothing: the scan
      removes a match where one starts and otherwise keeps the character
      and moves on; removed text is not scanned again. */
  function Remove(s: string, pats: seq<string>): (r: Filtered)
    requires EscapePatterns(pats)
    ensures |r.text| + r.matches <= |s|
    decreases |s|
  {
    if |s| == 0 then Filtered("", 0)
    else match MatchAt(s, pats)
      case Some(k) =>
        var rest := Remove(s[|pats[k]|..], pats);
        Filtered(rest.text, rest.matches + 1)
      case None =>
        var rest := Remove(s[1..], pats);
        Filtered([s[0]] + rest.text, rest.matches)
  }

  /** The pass matches at least once exactly when some pattern occurs. */
  lemma {:induction false} RemoveFindsAny(s: string, pats: seq<string>)
    requires EscapePatterns(pats)
    ensures Remove(s, pats).matches > 0 <==> OccursIn(s, pats)
    decreases |s|
  {
    if |s| == 0 {
      forall i | 0 <= i <= |s| ensures MatchAt(s[i..], pats).None? {
        forall k | 0 <= k < |pats| ensures !StartsWith(s[i..], pats[k]) {
          assert |pats[k]| > 0;
        }
      }
    } else {
      match MatchAt(s, pats)
      case Some(k) =>
        assert s[0..] == s;
      case None =>
        RemoveFindsAny(s[1..], pats);
        if OccursIn(s, pats) {
          var i :| 0 <= i <= |s| && MatchAt(s[i..], pats).Some?;
          assert i != 0 by { assert s[0..] == s; }
          assert s[1..][i - 1..] == s[i..];
        }
        if OccursIn(s[1..], pats) {
          var i :| 0 <= i <= |s[1..]| && MatchAt(s[1..][i..], pats).Some?;
          assert s[1..][i..] == s[i + 1..];
        }
    }
  }

  /** Text without an escape passes through a pass untouched. */
  lemma {:induction false} RemoveKeepsPlain(s: string, pats: seq<string>)
    requires EscapePatterns(pats) && !Contains(s, Esc)
    ensures Remove(s, pats) == Filtered(s, 0)
    decreases |s|
  {
    if |s| > 0 {
      NoMatchWithoutEsc(s, pats);
      NotContainsTail(s, Esc);
      RemoveKeepsPlain(s[1..], pats);
      assert [s[0]] + s[1..] == s;
    }
  }

  lemma NoMatchWithoutEsc(s: string, pats: seq<string>)
    requires EscapePatterns(pats) && |s| > 0 && s[0] != Esc
    ensures MatchAt(s, pats).None?
  {
    forall k | 0 <= k < |pats| ensures !StartsWith(s, pats[k]) {
      if |pats[k]| <= |s| {
        assert s[..|pats[k]|][0] == s[0] != pats[k][0];
      }
    }
  }

  /** A leading escape-free stretch is kept in place ahead of whatever the
      pass makes of the rest: the characters it keeps keep their order. */
  lemma {:induction false} RemoveKeepsPlainPrefix(a: string, s: string, pats: seq<string>)
    requires EscapePatterns(pats) && !Contains(a, Esc)
    ensures Remove(a + s, pats) == Filtered(a + Remove(s, pats).text, Remove(s, pats).matches)
    decreases |a|
  {
    if |a| > 0 {
      var t := a[1..];
      assert a + s == [a[0]] + (t + s);
      assert a[0] != Esc;
      NoMatchWithoutEsc([a[0]] + (t + s), pats);
      RemoveSkips(a[0], t + s, pats);
      NotContainsTail(a, Esc);
      RemoveKeepsPlainPrefix(t, s, pats);
      assert [a[0]] + (t + Remove(s, pats).text) == a + Remove(s, pats).text;
    } else {
      assert a + s == s;
    }
  }

  /** A pattern at the front is dropped and counted. */
  lemma RemoveDropsLeading(k: nat, s: string, pats: seq<string>)
    requires EscapePatterns(pats) && k < |pats|
    requires MatchAt(pats[k] + s, pats) == Some(k)
    ensures Remove(pats[k] + s, pats) == Filtered(Remove(s, pats).text, Remove(s, pats).matches + 1)
  {
    assert (pats[k] + s)[|pats[k]|..] == s;
  }

  /** Removing a match that sits behind an unmatched escape splices the
      escape onto the text after the match. */
  lemma RemoveSplices(k: nat, a: string, t: string, pats: seq<string>)
    requires EscapePatterns(pats) && k < |pats| && !Contains(a, Esc) && !Contains(t, Esc)
    requires MatchAt([Esc] + (a + (pats[k] + t)), pats).None? && MatchAt(pats[k] + t, pats) == Some(k)
    ensures Remove([Esc] + (a + (pats[k] + t)), pats) == Filtered([Esc] + (a + t), 1)
  {
    RemoveDropsBehindPlain(k, a, t, pats);
    RemoveSkips(Esc, a + (pats[k] + t), pats);
  }

  /** A match behind an escape-free stretch is dropped and counted. */
  lemma RemoveDropsBehindPlain(k: nat, a: string, t: string, pats: seq<string>)
    requires EscapePatterns(pats) && k < |pats| && !Contains(a, Esc) && !Contains(t, Esc)
    requires MatchAt(pats[k] + t, pats) == Some(k)
    ensures Remove(a + (pats[k] + t), pats) == Filtered(a + t, 1)
  {
    RemoveDropsLeading(k, t, pats);
    RemoveKeepsPlain(t, pats);
    RemoveKeepsPlainPrefix(a, pats[k] + t, pats);
  }

  /** Where no pattern starts, the first character is kept. */
  lemma RemoveSkips(c: char, u: string, pats: seq<string>)
    requires EscapePatterns(pats) && MatchAt([c] + u, pats).None?
    ensures Remove([c] + u, pats) == Filtered([c] + Remove(u, pats).text, Remove(u, pats).matches)
  {
    assert ([c] + u)[1..] == u;
  }

  /** The pass is not repeated: removing a match can bring together the
      pieces of another, which is left in the text. */
  lemma RemoveLeavesSplicedSequence()
    ensures Remove([Esc] + "[?1" + EnterSequences[1] + "049h", EnterSequences)
            == Filtered(EnterSequences[0], 1)
  {
    assert [Esc] + "[?1" + EnterSequences[1] + "049h" == [Esc] + ("[?1" + (EnterSequences[1] + "049h"));
    SpliceUnmatched();
    Enter47Leads();
    assert !Contains("[?1", Esc) && !Contains("049h", Esc);
    RemoveSplices(1, "[?1", "049h", EnterSequences);
    assert "[?1" + "049h" == "[?1049h";
    assert EnterSequences[0] == [Esc] + "[?1049h";
  }

  lemma SpliceUnmatched()
    ensures MatchAt([Esc] + ("[?1" + (EnterSequences[1] + "049h")), EnterSequences).None?
  {
    var s := [Esc] + ("[?1" + (EnterSequences[1] + "049h"));
    assert s[..8] != EnterSequences[0] by { assert s[4] != EnterSequences[0][4]; }
    assert s[..6] != EnterSequences[1] by { assert s[4] != EnterSequences[1][4]; }
    assert s[..8] != EnterSequences[2] by { assert s[4] != EnterSequences[2][4]; }
  }

  lemma Enter47Leads()
    ensures MatchAt(EnterSequences[1] + "049h", EnterSequences) == Some(1)
  {
    var t := EnterSequences[1] + "049h";
    assert t[..8] != EnterSequences[0] by { assert t[4] != EnterSequences[0][4]; }
    assert t[..6] == EnterSequences[1];
  }

  // ----- terminal state -----

  /** The widget's state: whether an emulator exists (pyte imported),
      whether the alternate screen is in use, the normal screen's document
      saved on entering it, the document's text, what each screen was fed
      (`true` for the alternate one), and the render throttle. */
  datatype Moba = Moba(emulator: bool, usingAlt: bool, snapshot: seq<string>, view: string,
                       fed: seq<(bool, string)>, throttle: Throttle)

  function NewMoba(emulator: bool): (m: Moba)
    ensures !m.usingAlt && m.snapshot == [] && m.view == "" && m.fed == [] && !m.throttle.pending
  {
    Moba(emulator, false, [], "", [], Throttle(false, 0))
  }

  /** `enter_alt`: outside the alternate screen, the document's lines are
      saved and the alternate screen is taken; inside it, nothing. */
  function EnterAlt(m: Moba): (r: Moba)
    ensures m.emulator && !m.usingAlt ==> r == m.(usingAlt := true, snapshot := Blocks(m.view))
    ensures !(m.emulator && !m.usingAlt) ==> r == m
  {
    if !m.usingAlt && m.emulator then m.(usingAlt := true, snapshot := Blocks(m.view)) else m
  }

  /** `exit_alt`: inside the alternate screen, the normal screen is taken
      back and the saved lines, without trailing blank ones, are shown. */
  function ExitAlt(m: Moba): (r: Moba)
    ensures m.emulator && m.usingAlt ==> r == m.(usingAlt := false, view := Show(TrimBlankTail(m.snapshot)))
    ensures !(m.emulator && m.usingAlt) ==> r == m
  {
    if m.usingAlt && m.emulator then m.(usingAlt := false, view := Show(TrimBlankTail(m.snapshot))) else m
  }

  /** A side effect run once per match. */
  function Times(f: Moba -> Moba, m: Moba, n: nat): Moba
    decreases n
  {
    if n == 0 then m else Times(f, f(m), n - 1)
  }

  /** Entering or leaving twice is the same as once, so `n` calls are one. */
  lemma {:induction false} EnterTimes(m: Moba, n: nat)
    ensures Times(EnterAlt, m, n) == if n == 0 then m else EnterAlt(m)
    decreases n
  {
    if n > 1 {
      EnterTimes(EnterAlt(m), n - 1);
    }
  }

  lemma {:induction false} ExitTimes(m: Moba, n: nat)
    ensures Times(ExitAlt, m, n) == if n == 0 then m else ExitAlt(m)
    decreases n
  {
    if n > 1 {
      ExitTimes(ExitAlt(m), n - 1);
    }
  }

  datatype Handled = Handled(m: Moba, text: string)

  /** `_handle_alt_screen_sequences`: one pass removes the enter sequences
      (entering the alternate screen at each), a second pass removes the
      exit sequences from what is left (leaving it at each). */
  function HandleAltScreen(m: Moba, s: string): (r: Handled)
    ensures var afterEnter := Remove(s, EnterSequences).text;
      && r.text == Remove(afterEnter, ExitSequences).text
      && (m.emulator ==> r.m.usingAlt == (if OccursIn(afterEnter, ExitSequences) then false
                                           else if OccursIn(s, EnterSequences) then true
                                           else m.usingAlt))
      && (!m.emulator ==> r.m == m)
    ensures r.m.emulator == m.emulator && r.m.fed == m.fed && r.m.throttle == m.throttle
  {
    var entered := Remove(s, EnterSequences);
    var m1 := Times(EnterAlt, m, entered.matches);
    var exited := Remove(entered.text, ExitSequences);
    var m2 := Times(ExitAlt, m1, exited.matches);
    EnterTimes(m, entered.matches);
    ExitTimes(m1, exited.matches);
    RemoveFindsAny(s, EnterSequences);
    RemoveFindsAny(entered.text, ExitSequences);
    Handled(m2, exited.text)
  }

  /** `feed`: without an emulator the text is appended to the document
      as it is; with one it is filtered, fed to the screen in use, and a
      render is scheduled unless one is pending. */
  function Feed(m: Moba, data: string): (r: Moba)
    ensures !m.emulator ==> r == m.(view := m.view + data)
    ensures m.emulator ==>
      && r.throttle == Fed(m.throttle)
      && r.fed == m.fed + [(r.usingAlt, HandleAltScreen(m, data).text)]
      && r.usingAlt == HandleAltScreen(m, data).m.usingAlt
  {
    if !m.emulator then m.(view := m.view + data)
    else
      var h := HandleAltScreen(m, data);
      h.m.(fed := h.m.fed + [(h.m.usingAlt, h.text)], throttle := Fed(h.m.throttle))
  }

  /** Plain output leaves the screen mode alone and reaches the emulator
      unchanged. */
  lemma FeedPlain(m: Moba, data: string)
    requires m.emulator && !Contains(data, Esc)
    ensures Feed(m, data).usingAlt == m.usingAlt
    ensures Feed(m, data).fed == m.fed + [(m.usingAlt, data)]
    ensures Feed(m, data).view == m.view
  {
    RemoveKeepsPlain(data, EnterSequences);
    RemoveKeepsPlain(data, ExitSequences);
    RemoveFindsAny(data, EnterSequences);
    RemoveFindsAny(data, ExitSequences);
  }

  /** Entering and leaving the alternate screen in one chunk puts back the
      document as it was, when it did not end in blank lines. */
  lemma EnterThenExitRestores(m: Moba)
    requires m.emulator && !m.usingAlt
    requires !IsBlank(Blocks(m.view)[|Blocks(m.view)| - 1])
    ensures Feed(m, EnterSequences[0] + ExitSequences[0]).view == m.view
    ensures !Feed(m, EnterSequences[0] + ExitSequences[0]).usingAlt
  {
    EnterExitPasses();
    var h := HandleAltScreen(m, EnterSequences[0] + ExitSequences[0]);
    assert h.m == Times(ExitAlt, Times(EnterAlt, m, 1), 1);
    EnterExitView(m);
  }

  /** The chunk holding one enter and one exit sequence matches once in
      each pass and leaves no text. */
  lemma EnterExitPasses()
    ensures Remove(EnterSequences[0] + ExitSequences[0], EnterSequences) == Filtered(ExitSequences[0], 1)
    ensures Remove(ExitSequences[0], ExitSequences) == Filtered("", 1)
  {
    var s := EnterSequences[0] + ExitSequences[0];
    assert MatchAt(s, EnterSequences) == Some(0) by {
      assert s[..8] == EnterSequences[0];
    }
    RemoveDropsLeading(0, ExitSequences[0], EnterSequences);
    ExitPassesEnter();
    assert MatchAt(ExitSequences[0], ExitSequences) == Some(0);
    assert ExitSequences[0] + "" == ExitSequences[0];
    RemoveDropsLeading(0, "", ExitSequences);
  }

  /** An exit sequence is not touched by the enter pass. */
  lemma ExitPassesEnter()
    ensures Remove(ExitSequences[0], EnterSequences) == Filtered(ExitSequences[0], 0)
  {
    var x := ExitSequences[0];
    assert MatchAt(x, EnterSequences).None? by {
      assert x[..8] != EnterSequences[0] by { assert x[7] != EnterSequences[0][7]; }
      assert x[..6] != EnterSequences[1] by { assert x[3] != EnterSequences[1][3]; }
      assert x[..8] != EnterSequences[2] by { assert x[6] != EnterSequences[2][6]; }
    }
    assert !Contains(x[1..], Esc);
    RemoveKeepsPlain(x[1..], EnterSequences);
    assert [x[0]] + x[1..] == x;
  }

  /** Saving the document's lines and showing them again, without trailing
      blank ones, gives back a document that did not end in blank lines. */
  lemma EnterExitView(m: Moba)
    requires m.emulator && !m.usingAlt
    requires !IsBlank(Blocks(m.view)[|Blocks(m.view)| - 1])
    ensures ExitAlt(EnterAlt(m)).view == m.view && !ExitAlt(EnterAlt(m)).usingAlt
  {
    var blocks := Blocks(m.view);
    TrimBlankTailUnique(blocks, |blocks|);
    assert blocks[..|blocks|] == blocks;
    ShowOfBlocks(m.view);
  }

  datatype RenderOut = RenderOut(m: Moba, caret: Caret)

  /** `_render`: the pending flag is cleared; on the alternate screen the
      display is padded to the screen's height, on the normal one its
      trailing blank lines are dropped; the lines are shown and the caret
      placed at the emulator's cursor, clamped. */
  function Render(m: Moba, display: seq<string>, height: int, x: int, y: int): (r: RenderOut)
    ensures !r.m.throttle.pending && r.m.throttle.starts == m.throttle.starts
    ensures m.usingAlt ==> r.m.view == Show(PadTo(display, height))
    ensures !m.usingAlt ==> r.m.view == Show(TrimBlankTail(display))
    ensures r.caret == PlaceCaret(r.m.view, x, y)
    ensures r.m.usingAlt == m.usingAlt && r.m.fed == m.fed && r.m.snapshot == m.snapshot
  {
    var lines := if m.usingAlt then PadTo(display, height) else TrimBlankTail(display);
    var text := Show(lines);
    RenderOut(m.(view := text, throttle := Rendered(m.throttle)), PlaceCaret(text, x, y))
  }

  /** The rendered document holds exactly the lines chosen: on the
      alternate screen at least `height` of them, the display first; on the
      normal one the display without its blank tail. */
  lemma RenderShowsLines(m: Moba, display: seq<string>, height: int, x: int, y: int)
    requires forall k :: 0 <= k < |display| ==> OneLine(display[k])
    ensures m.usingAlt && height >= 1 ==>
      var blocks := Blocks(Render(m, display, height, x, y).m.view);
      |blocks| >= height && |blocks| >= |display| && blocks[..|display|] == display
    ensures !m.usingAlt && TrimBlankTail(display) != [] ==>
      Blocks(Render(m, display, height, x, y).m.view) == TrimBlankTail(display)
  {
    if m.usingAlt && height >= 1 {
      var padded := PadTo(display, height);
      forall k | 0 <= k < |padded| ensures OneLine(padded[k]) {
        if k < |display| {
          assert padded[k] == padded[..|display|][k];
        } else {
          assert padded[k] == "";
        }
      }
      BlocksOfShow(padded);
    }
    if !m.usingAlt && TrimBlankTail(display) != [] {
      var t := TrimBlankTail(display);
      forall k | 0 <= k < |t| ensures OneLine(t[k]) {
        assert t[k] == display[k];
      }
      BlocksOfShow(t);
    }
  }

  // ----- keys -----

  datatype Key = KeyV | KeyX | KeyC | KeyD | KeyL | Escape | Return | Enter | Backspace | Tab
               | Up | Down | Right | Left | OtherKey

  /** A key press: the key, the Ctrl and Shift modifiers, and the text the
      press produces. */
  datatype KeyPress = KeyPress(key: Key, ctrl: bool, shift: bool, text: string)

  /** What the filter does with a key press: paste the clipboard, copy the
      selection, send bytes to the remote end, or leave the press to the
      editor. */
  datatype KeyOutcome = PasteClipboard | CopySelection | SendBytes(data: string) | NotHandled

  /** `eventFilter` on a key press: the checks in the source's order. */
  function OnKey(k: KeyPress): (r: KeyOutcome)
    ensures r.SendBytes? ==> r.data != ""
  {
    if k.ctrl && k.shift && k.key == KeyV then PasteClipboard
    else if k.ctrl && k.key == KeyX then CopySelection
    else if k.key == Escape then SendBytes([Esc])
    else if k.ctrl && k.key == KeyC then SendBytes("\U{0003}")
    else if k.ctrl && k.key == KeyD then SendBytes("\U{0004}")
    else if k.ctrl && k.key == KeyL then SendBytes("\U{000C}")
    else if k.key == Return || k.key == Enter then SendBytes("\r")
    else if k.key == Backspace then SendBytes("\U{007F}")
    else if k.key == Tab then SendBytes("\t")
    else if k.key == Up then SendBytes([Esc] + "[A")
    else if k.key == Down then SendBytes([Esc] + "[B")
    else if k.key == Right then SendBytes([Esc] + "[C")
    else if k.key == Left then SendBytes([Esc] + "[D")
    else if k.text != "" then SendBytes(k.text)
    else NotHandled
  }

  /** The key table: the bytes each sending key sends, for the keys that
      send whatever the modifiers, and for the Ctrl chords when Ctrl is
      held. */
  function KeyBytes(key: Key, ctrl: bool): Option<string>
  {
    match key
    case Escape => Some([Esc])
    case KeyC => if ctrl then Some("\U{0003}") else None
    case KeyD => if ctrl then Some("\U{0004}") else None
    case KeyL => if ctrl then Some("\U{000C}") else None
    case Return => Some("\r")
    case Enter => Some("\r")
    case Backspace => Some("\U{007F}")
    case Tab => Some("\t")
    case Up => Some([Esc] + "[A")
    case Down => Some([Esc] + "[B")
    case Right => Some([Esc] + "[C")
    case Left => Some([Esc] + "[D")
    case _ => None
  }

  /** Away from the paste and copy chords, a key press with a table entry
      sends that entry's bytes. */
  lemma OnKeyFollowsTable(k: KeyPress)
    requires !(k.ctrl && k.shift && k.key == KeyV) && !(k.ctrl && k.key == KeyX)
    requires KeyBytes(k.key, k.ctrl).Some?
    ensures OnKey(k) == SendBytes(KeyBytes(k.key, k.ctrl).value)
  {
  }

  /** A key press without a table entry sends the text it produces, and is
      left to the editor exactly when it produces none. */
  lemma OnKeyFallsBackToText(k: KeyPress)
    requires !(k.ctrl && k.shift && k.key == KeyV) && !(k.ctrl && k.key == KeyX)
    requires KeyBytes(k.key, k.ctrl).None?
    ensures k.text != "" ==> OnKey(k) == SendBytes(k.text)
    ensures k.text == "" <==> OnKey(k) == NotHandled
  {
  }

  /** Ctrl+C, Ctrl+D and Ctrl+L send the control code of their letter, the
      letter's code less 64, whatever Shift and the text say. */
  lemma ControlLetters(shift: bool, text: string)
    ensures OnKey(KeyPress(KeyC, true, shift, text)) == SendBytes([('C' as int - 64) as char])
    ensures OnKey(KeyPress(KeyD, true, shift, text)) == SendBytes([('D' as int - 64) as char])
    ensures OnKey(KeyPress(KeyL, true, shift, text)) == SendBytes([('L' as int - 64) as char])
  {
  }

  /** The paste chord: the clipboard's text is sent when it is not empty. */
  function Paste(clipboard: string): (r: Option<string>)
    ensures r.Some? <==> clipboard != ""
    ensures r.Some? ==> r.value == clipboard
  {
    if clipboard != "" then Some(clipboard) else None
  }

  // ----- resize -----

  /** `_emit_resize`: nothing without a resize callback; otherwise the
      viewport and the character cell, each at least 1, give the columns
      and rows, at least 20 and 5. */
  function EmitResize(hasResizer: bool, width: int, height: int, cellWidth: int, lineSpacing: int)
    : (r: Option<(int, int)>)
    ensures r.Some? <==> hasResizer
    ensures r.Some? ==> r.value.0 >= 20 && r.value.1 >= 5
    ensures r.Some? && r.value.0 > 20 ==>
      r.value.0 * Max(1, cellWidth) <= Max(1, width) < (r.value.0 + 1) * Max(1, cellWidth)
    ensures r.Some? && r.value.1 > 5 ==>
      r.value.1 * Max(1, lineSpacing) <= Max(1, height) < (r.value.1 + 1) * Max(1, lineSpacing)
  {
    if !hasResizer then None
    else
      var w := Max(1, width);
      var h := Max(1, height);
      var cw := Max(1, cellWidth);
      var ch := Max(1, lineSpacing);
      Some((Max(20, w / cw), Max(5, h / ch)))
  }
}

=== FILE: mock_ssh_server.dfy ===
/** The mock SSH server of `electron-poc/mock_ssh_server.js`: its
    authentication rule, the terminal size it tracks, the shell it picks
    and the arguments it gives it, and the line editor of its fallback
    shell, which reads a chunk of input one character at a time. Sockets,
    child processes and timers are not modelled: a command handed on to a
    shell is recorded, and the server's writes are collected in order. */
module MockSshServer {
  import opened Base
  import opened Text

  // ----- authentication -----

  /** An authentication attempt. A password attempt may carry no password;
      JavaScript's `String` turns that into `"undefined"`. */
  datatype AuthAttempt = PasswordAttempt(password: Option<string>) | PublicKeyAttempt | OtherAttempt(kind: string)

  function JsString(o: Option<string>): string
  {
    match o
    case Some(s) => s
    case None => "undefined"
  }

  /** Any user with the password `test`, or any public key. */
  function Accepts(a: AuthAttempt): (ok: bool)
    ensures a.PasswordAttempt? ==> (ok <==> a.password == Some("test"))
    ensures a.PublicKeyAttempt? ==> ok
    ensures a.OtherAttempt? ==> !ok
  {
    match a
    case PasswordAttempt(p) => JsString(p) == "test"
    case PublicKeyAttempt => true
    case OtherAttempt(_) => false
  }

  // ----- terminal size -----

  datatype TermSize = TermSize(cols: int, rows: int)

  const DefaultSize := TermSize(80, 24)

  /** The size fields of a `pty` or `window-change` request; a missing
      field is `None`. The request itself may carry no info. */
  datatype SizeInfo = SizeInfo(cols: Option<int>, rows: Option<int>)

  /** A JavaScript number is truthy when it is not zero. */
  predicate TruthyNumber(o: Option<int>) { o.Some? && o.value != 0 }

  function FieldOr(info: Option<SizeInfo>, cols: bool, fallback: int): (r: int)
    ensures info.Some? && TruthyNumber(if cols then info.value.cols else info.value.rows) ==>
      r == (if cols then info.value.cols else info.value.rows).value
    ensures !(info.Some? && TruthyNumber(if cols then info.value.cols else info.value.rows)) ==> r == fallback
  {
    if info.None? then fallback
    else
      var f := if cols then info.value.cols else info.value.rows;
      if TruthyNumber(f) then f.value else fallback
  }

  /** A `pty` request: each given, non-zero field is taken, and 80 by 24
      fills in the others, whatever the size was before. */
  function OnPty(info: Option<SizeInfo>): (r: TermSize)
    ensures r.cols != 0 && r.rows != 0
    ensures info.None? ==> r == DefaultSize
  {
    TermSize(FieldOr(info, true, DefaultSize.cols), FieldOr(info, false, DefaultSize.rows))
  }

  /** A `window-change` request: each given, non-zero field is taken, and
      the others keep their previous value. */
  function OnWindowChange(t: TermSize, info: Option<SizeInfo>): (r: TermSize)
    ensures info.None? ==> r == t
    ensures t.cols != 0 && t.rows != 0 ==> r.cols != 0 && r.rows != 0
  {
    TermSize(FieldOr(info, true, t.cols), FieldOr(info, false, t.rows))
  }

  /** A window change repeating the `pty` request changes nothing, and a
      window change with full info forgets the previous size. */
  lemma SizeLaws(t: TermSize, info: Option<SizeInfo>, c: int, r: int)
    requires c != 0 && r != 0
    ensures OnWindowChange(OnPty(info), info) == OnPty(info)
    ensures OnWindowChange(t, Some(SizeInfo(Some(c), Some(r)))) == TermSize(c, r)
    ensures OnPty(Some(SizeInfo(Some(c), Some(r)))) == TermSize(c, r)
  {
  }

  // ----- choosing a shell -----

  /** The environment variables the server reads. */
  datatype Env = Env(shell: Option<string>, bash: Option<string>, comspec: Option<string>)

  /** JavaScript's `x || fallback` on an environment variable. */
  function EnvOr(o: Option<string>, fallback: string): (r: string)
    ensures Truthy(o) ==> r == o.value
    ensures !Truthy(o) ==> r == fallback
  {
    if Truthy(o) then o.value else fallback
  }

  /** The shells tried, in order. */
  function ShellCandidates(isWin: bool, env: Env): (r: seq<string>)
    ensures |r| == 5
    ensures isWin ==> r[0] == EnvOr(env.bash, "bash") && r[4] == EnvOr(env.comspec, "cmd.exe")
    ensures !isWin ==> r[0] == EnvOr(env.shell, "bash") && r[4] == "/bin/sh"
  {
    if isWin then
      [EnvOr(env.bash, "bash"), "C:/Program Files/Git/bin/bash.exe",
       "C:/Program Files (x86)/Git/bin/bash.exe", "powershell.exe", EnvOr(env.comspec, "cmd.exe")]
    else [EnvOr(env.shell, "bash"), "bash", "/bin/bash", "/usr/bin/bash", "/bin/sh"]
  }

  predicate OccursAt(s: string, t: string, i: int)
  {
    0 <= i <= |s| - |t| && s[i..i + |t|] == t
  }

  /** JavaScript's `includes`. */
  predicate HasSubstring(s: string, t: string)
  {
    exists i :: 0 <= i <= |s| && OccursAt(s, t, i)
  }

  /** `spawnArgsFor`: on Windows, `-NoLogo` for PowerShell, nothing for
      `cmd`, `-l` otherwise; elsewhere always `-l` (both branches of the
      source give it). */
  function SpawnArgsFor(exe: string, isWin: bool): (r: seq<string>)
    ensures !isWin ==> r == ["-l"]
    ensures isWin && HasSubstring(Lower(exe), "powershell") ==> r == ["-NoLogo"]
    ensures isWin && !HasSubstring(Lower(exe), "powershell") ==>
      (r == [] <==> EndsWith(Lower(exe), "cmd.exe") || Lower(exe) == "cmd")
    ensures r == [] || r == ["-l"] || r == ["-NoLogo"]
  {
    var lower := Lower(exe);
    if isWin then
      if HasSubstring(lower, "powershell") then ["-NoLogo"]
      else if EndsWith(lower, "cmd.exe") || lower == "cmd" then []
      else ["-l"]
    else ["-l"]
  }

  lemma SpawnArgsExamples()
    ensures SpawnArgsFor("powershell.exe", true) == ["-NoLogo"]
    ensures SpawnArgsFor("C:/Windows/System32/CMD.EXE", true) == []
    ensures SpawnArgsFor("/bin/sh", false) == ["-l"]
  {
    assert OccursAt(Lower("powershell.exe"), "powershell", 0);
    LowerCmdPath();
    CmdPathNotPowerShell();
  }

  lemma LowerCmdPath()
    ensures Lower("C:/Windows/System32/CMD.EXE") == "c:/windows/system32/cmd.exe"
  {
  }

  lemma CmdPathNotPowerShell()
    ensures var cmd := "c:/windows/system32/cmd.exe";
      !HasSubstring(cmd, "powershell") && EndsWith(cmd, "cmd.exe")
  {
    var cmd := "c:/windows/system32/cmd.exe";
    assert cmd[|cmd| - 7..] == "cmd.exe";
    forall i | 0 <= i <= |cmd| ensures !OccursAt(cmd, "powershell", i) {
      if i <= |cmd| - 10 {
        assert cmd[i..i + 10][0] == cmd[i];
      }
    }
  }

  /** The shell a PTY is spawned with: the first candidate that spawns, or
      none, which starts the line-by-line fallback. `spawns` is the outcome
      of spawning each executable. */
  function ChooseShell(hasPty: bool, candidates: seq<string>, spawns: string -> bool): (r: Option<string>)
    ensures r.Some? ==> hasPty && r.value in candidates && spawns(r.value)
    ensures r.None? <==> !hasPty || forall k :: 0 <= k < |candidates| ==> !spawns(candidates[k])
    ensures r.Some? ==> exists k :: 0 <= k < |candidates| && candidates[k] == r.value &&
                                     forall j :: 0 <= j < k ==> !spawns(candidates[j])
  {
    if !hasPty || |candidates| == 0 then None
    else if spawns(candidates[0]) then Some(candidates[0])
    else
      var rest := ChooseShell(hasPty, candidates[1..], spawns);
      if rest.Some? then
        var k :| 0 <= k < |candidates[1..]| && candidates[1..][k] == rest.value
          && forall j :: 0 <= j < k ==> !spawns(candidates[1..][j]);
        assert candidates[k + 1] == rest.value;
        assert forall j :: 1 <= j < k + 1 ==> candidates[j] == candidates[1..][j - 1];
        rest
      else rest
  }

  // ----- runCommand -----

  /** What `runCommand` does with a line: prompt again, end the session,
      or run the trimmed line with a shell. */
  datatype CommandAction = Reprompt | EndSession | RunShell(exe: string, args: seq<string>)

  predicate ExitWord(s: string)
  {
    s == "exit" || s == "logout" || s == "quit"
  }

  /** How a command line is run: with `cmd` on Windows, with the login
      shell elsewhere; the command is the last argument. */
  function ShellInvocation(command: string, isWin: bool, env: Env): (r: CommandAction)
    ensures r.RunShell? && |r.args| > 0 && r.args[|r.args| - 1] == command
    ensures isWin ==> r.exe == EnvOr(env.comspec, "cmd.exe") && r.args[..|r.args| - 1] == ["/d", "/s", "/c"]
    ensures !isWin ==> r.exe == EnvOr(env.shell, "/bin/sh") && r.args[..|r.args| - 1] == ["-lc"]
  {
    if isWin then RunShell(EnvOr(env.comspec, "cmd.exe"), ["/d", "/s", "/c", command])
    else RunShell(EnvOr(env.shell, "/bin/sh"), ["-lc", command])
  }

  /** `runCommand`: a blank line prompts again, an exit word in any case
      ends the session, and anything else runs, trimmed, with a shell. */
  function RunCommand(line: string, isWin: bool, env: Env): (r: CommandAction)
    ensures r == Reprompt <==> IsBlank(line)
    ensures r == EndSession <==> !IsBlank(line) && ExitWord(Lower(Strip(line)))
    ensures r.RunShell? ==> Strip(line) != "" && r == ShellInvocation(Strip(line), isWin, env)
  {
    StripEmptyIffBlank(line);
    var trimmed := Strip(line);
    if trimmed == "" then Reprompt
    else if ExitWord(Lower(trimmed)) then EndSession
    else ShellInvocation(trimmed, isWin, env)
  }

  /** The exit words are matched after trimming and without regard to
      case: `EXIT` and `Quit` are exit words once lowered, and a word like
      them ends the session bare or padded with spaces. */
  lemma LowerExitWords()
    ensures ExitWord(Lower("EXIT")) && ExitWord(Lower("Quit"))
  {
    assert Lower("EXIT") == "exit" && Lower("Quit") == "quit";
  }

  lemma ExitAnyCase(w: string, isWin: bool, env: Env)
    requires |w| > 0 && !IsSpace(w[0]) && !IsSpace(w[|w| - 1]) && ExitWord(Lower(w))
    ensures RunCommand(w, isWin, env) == EndSession
    ensures RunCommand(" " + w + " ", isWin, env) == EndSession
  {
    StripNoop(w);
    StripPadded(w);
  }

  // ----- the fallback line editor -----

  const Prompt := "$ "
  const CtrlC: char := '\U{0003}'
  const CtrlD: char := '\U{0004}'

  predicate Printable(c: char) { ' ' <= c <= '~' }

  predicate IsErase(c: char) { c == '\U{0008}' || c == '\U{007F}' }

  predicate AllPrintable(s: string) { forall k :: 0 <= k < |s| ==> Printable(s[k]) }

  /** The editor: the line typed so far, everything written to the client,
      the lines handed to `runCommand`, what `runCommand` did with each,
      and whether the stream has been ended. */
  datatype Editor = Editor(buffer: string, out: string, lines: seq<string>, actions: seq<CommandAction>,
                           ended: bool)

  /** The fallback shell as it starts: a banner, then the prompt. */
  function NewEditor(): (e: Editor)
    ensures e.buffer == "" && e.lines == [] && !e.ended && EndsWith(e.out, Prompt)
  {
    var banner := "\r\n[mock-ssh] No PTY available. Running simple shell (commands executed per line).\r\n";
    var out := banner + Prompt;
    assert out[|out| - |Prompt|..] == Prompt;
    Editor("", out, [], [], false)
  }

  /** A line terminator: the buffer is handed to `runCommand` and cleared,
      and a new line is written, then whatever `runCommand` writes at once:
      a prompt for a blank line. An exit word ends the stream. */
  function Submit(e: Editor, isWin: bool, env: Env): (r: Editor)
    ensures r.buffer == "" && r.lines == e.lines + [e.buffer]
    ensures r.actions == e.actions + [RunCommand(e.buffer, isWin, env)]
    ensures r.out == e.out + "\r\n" + (if IsBlank(e.buffer) then Prompt else "")
    ensures r.ended <==> e.ended || RunCommand(e.buffer, isWin, env) == EndSession
  {
    var action := RunCommand(e.buffer, isWin, env);
    Editor("", e.out + "\r\n" + (if action == Reprompt then Prompt else ""), e.lines + [e.buffer],
           e.actions + [action], e.ended || action == EndSession)
  }

  /** One character other than a line terminator. */
  function OnChar(e: Editor, c: char): (r: Editor)
    requires c != '\r' && c != '\n'
    ensures c == CtrlC ==> r == e.(buffer := "", out := e.out + "^C\r\n" + Prompt)
    ensures c == CtrlD ==> r == e.(out := e.out + "^D\r\n", ended := true)
    ensures IsErase(c) ==> r == e.(buffer := if e.buffer == "" then "" else e.buffer[..|e.buffer| - 1],
                                   out := e.out + "\U{0008} \U{0008}")
    ensures Printable(c) ==> r == e.(buffer := e.buffer + [c], out := e.out + [c])
    ensures c != CtrlC && c != CtrlD && !IsErase(c) && !Printable(c) ==> r == e
    ensures AllPrintable(e.buffer) ==> AllPrintable(r.buffer)
  {
    if c == CtrlC then e.(buffer := "", out := e.out + "^C\r\n" + Prompt)
    else if c == CtrlD then e.(out := e.out + "^D\r\n", ended := true)
    else if IsErase(c) then
      e.(buffer := if e.buffer == "" then "" else e.buffer[..|e.buffer| - 1], out := e.out + "\U{0008} \U{0008}")
    else if Printable(c) then e.(buffer := e.buffer + [c], out := e.out + [c])
    else e
  }

  /** The `data` handler on one chunk: a CR immediately followed by LF in
      the same chunk is one terminator. The loop does not stop at an end of
      stream; writes after it are attempted all the same. */
  function OnData(e: Editor, s: string, isWin: bool, env: Env): (r: Editor)
    ensures |r.lines| >= |e.lines| && r.lines[..|e.lines|] == e.lines
    decreases |s|
  {
    if |s| == 0 then e
    else if s[0] == '\r' || s[0] == '\n' then
      var skip := if s[0] == '\r' && |s| > 1 && s[1] == '\n' then 2 else 1;
      var next := Submit(e, isWin, env);
      var r := OnData(next, s[skip..], isWin, env);
      PrefixOfPrefix(e.lines, next.lines, r.lines);
      r
    else OnData(OnChar(e, s[0]), s[1..], isWin, env)
  }

  /** A prefix of a prefix is a prefix. */
  lemma PrefixOfPrefix(a: seq<string>, b: seq<string>, c: seq<string>)
    requires |a| <= |b| && b[..|a|] == a
    requires |b| <= |c| && c[..|b|] == b
    ensures |a| <= |c| && c[..|a|] == a
  {
    assert c[..|a|] == c[..|b|][..|a|];
  }

  /** One step of the `data` handler on a line terminator. */
  lemma OnDataLineEnd(e: Editor, s: string, isWin: bool, env: Env)
    requires |s| > 0 && (s[0] == '\r' || s[0] == '\n')
    ensures var skip := if s[0] == '\r' && |s| > 1 && s[1] == '\n' then 2 else 1;
      OnData(e, s, isWin, env) == OnData(Submit(e, isWin, env), s[skip..], isWin, env)
  {
  }

  /** CR LF in one chunk is one terminator. */
  lemma CrLfOneChunk(e: Editor, isWin: bool, env: Env)
    ensures OnData(e, "\r\n", isWin, env) == Submit(e, isWin, env)
  {
    OnDataLineEnd(e, "\r\n", isWin, env);
    assert "\r\n"[2..] == "";
  }

  /** Split across two chunks, CR LF counts twice: the second terminator
      hands an empty line on. */
  lemma CrLfSplitAcrossChunks(e: Editor, isWin: bool, env: Env)
    ensures OnData(OnData(e, "\r", isWin, env), "\n", isWin, env).lines == e.lines + [e.buffer, ""]
  {
    var e1 := OnData(e, "\r", isWin, env);
    assert e1 == Submit(e, isWin, env) by {
      OnDataLineEnd(e, "\r", isWin, env);
      assert "\r"[1..] == "";
    }
    assert OnData(e1, "\n", isWin, env) == Submit(e1, isWin, env) by {
      OnDataLineEnd(e1, "\n", isWin, env);
      assert "\n"[1..] == "";
    }
    assert e.lines + [e.buffer] + [""] == e.lines + [e.buffer, ""];
  }

  /** Typed printable text is buffered and echoed as it is. */
  lemma {:induction false} PrintableEchoed(e: Editor, s: string, isWin: bool, env: Env)
    requires AllPrintable(s)
    ensures OnData(e, s, isWin, env) == e.(buffer := e.buffer + s, out := e.out + s)
    decreases |s|
  {
    if |s| > 0 {
      assert Printable(s[0]);
      var next := OnChar(e, s[0]);
      assert AllPrintable(s[1..]) by {
        forall k | 0 <= k < |s[1..]| ensures Printable(s[1..][k]) {
          assert s[1..][k] == s[k + 1];
        }
      }
      PrintableEchoed(next, s[1..], isWin, env);
      assert e.buffer + [s[0]] + s[1..] == e.buffer + s;
      assert e.out + [s[0]] + s[1..] == e.out + s;
    }
  }

  /** One step of the `data` handler on a line feed or a printable
      character. */
  lemma OnDataStep(e: Editor, s: string, isWin: bool, env: Env)
    requires |s| > 0
    ensures s[0] == '\n' ==> OnData(e, s, isWin, env) == OnData(Submit(e, isWin, env), s[1..], isWin, env)
    ensures Printable(s[0]) ==>
      OnData(e, s, isWin, env) == OnData(e.(buffer := e.buffer + [s[0]], out := e.out + [s[0]]), s[1..], isWin, env)
  {
  }

  /** The pieces of a line followed by a line feed and more text. */
  lemma SplitPieces(b: string, rest: string)
    requires !Contains(b, '\n')
    ensures var pieces := SplitOn(b + "\n" + rest, '\n');
      var tail := SplitOn(rest, '\n');
      pieces[..|pieces| - 1] == [b] + tail[..|tail| - 1] && pieces[|pieces| - 1] == tail[|tail| - 1]
  {
    assert b + "\n" + rest == b + ['\n'] + rest;
    SplitAfterPiece(b, '\n', rest);
  }

  predicate TypedText(s: string)
  {
    forall k :: 0 <= k < |s| ==> Printable(s[k]) || s[k] == '\n'
  }

  /** Lines `lines0 + ...` and a buffer that are the pieces of `buffer0 + s`
      split at line feeds, all but the last handed on, the last kept. */
  predicate PiecesOf(lines0: seq<string>, buffer0: string, s: string, r: Editor)
  {
    var pieces := SplitOn(buffer0 + s, '\n');
    r.lines == lines0 + pieces[..|pieces| - 1] && r.buffer == pieces[|pieces| - 1]
  }

  /** The lines handed on, and the buffer left, are the pieces of the old
      buffer and the input split at line feeds. */
  predicate LinesArePieces(e: Editor, s: string, isWin: bool, env: Env)
  {
    PiecesOf(e.lines, e.buffer, s, OnData(e, s, isWin, env))
  }

  /** A line feed hands the buffer on as one more line. */
  lemma LineFeedCase(lines0: seq<string>, b: string, s: string, r: Editor)
    requires |s| > 0 && s[0] == '\n' && !Contains(b, '\n')
    requires PiecesOf(lines0 + [b], "", s[1..], r)
    ensures PiecesOf(lines0, b, s, r)
  {
    assert "" + s[1..] == s[1..];
    assert b + s == b + "\n" + s[1..];
    SplitPieces(b, s[1..]);
  }

  /** A printable character joins the buffer. */
  lemma PrintableCase(lines0: seq<string>, b: string, s: string, r: Editor)
    requires |s| > 0
    requires PiecesOf(lines0, b + [s[0]], s[1..], r)
    ensures PiecesOf(lines0, b, s, r)
  {
    assert b + [s[0]] + s[1..] == b + s;
  }

  /** A reference for input that is only printable text and line feeds:
      the lines handed on are the pieces of the buffer and the input split
      at line feeds, all but the last, which stays in the buffer. */
  lemma {:induction false} LinesAreSplitPieces(e: Editor, s: string, isWin: bool, env: Env)
    requires AllPrintable(e.buffer) && TypedText(s)
    ensures LinesArePieces(e, s, isWin, env)
    decreases |s|
  {
    var b := e.buffer;
    assert !Contains(b, '\n') by {
      forall k | 0 <= k < |b| ensures b[k] != '\n' {
        assert Printable(b[k]);
      }
    }
    if |s| == 0 {
      assert b + s == b;
      SplitNoSep(b, '\n');
    } else {
      var tail := s[1..];
      assert TypedText(tail) by {
        forall k | 0 <= k < |tail| ensures Printable(tail[k]) || tail[k] == '\n' {
          assert tail[k] == s[k + 1];
        }
      }
      if s[0] == '\n' {
        var next := Submit(e, isWin, env);
        OnDataStep(e, s, isWin, env);
        LinesAreSplitPieces(next, tail, isWin, env);
        LineFeedCase(e.lines, b, s, OnData(e, s, isWin, env));
      } else {
        var next := e.(buffer := b + [s[0]], out := e.out + [s[0]]);
        assert AllPrintable(next.buffer);
        OnDataStep(e, s, isWin, env);
        LinesAreSplitPieces(next, tail, isWin, env);
        PrintableCase(e.lines, b, s, OnData(e, s, isWin, env));
      }
    }
  }

  /** Ctrl+C throws the typed line away; Ctrl+D ends the stream and keeps
      it; erasing on an empty line still writes the erase sequence. */
  lemma ControlKeys(e: Editor, isWin: bool, env: Env)
    ensures OnData(e, [CtrlC], isWin, env).buffer == "" && OnData(e, [CtrlC], isWin, env).lines == e.lines
    ensures OnData(e, [CtrlD], isWin, env).ended && OnData(e, [CtrlD], isWin, env).buffer == e.buffer
    ensures OnData(e.(buffer := ""), "\U{007F}", isWin, env) == e.(buffer := "", out := e.out + "\U{0008} \U{0008}")
  {
    assert [CtrlC][1..] == [] && [CtrlD][1..] == [] && "\U{007F}"[1..] == "";
  }
}

=== FILE: numbers.dfy ===
/** Decimal rendering (Python `str(n)` / an f-string of an int) and decimal
    parsing (Python `int(text)`, on ASCII digits) of integers. */
module Numbers {
  import opened Base
  import opened Text

  predicate IsDigit(c: char) { '0' <= c <= '9' }

  function DigitChar(d: nat): (c: char)
    requires d < 10
    ensures IsDigit(c)
  {
    ('0' as int + d) as char
  }

  function DigitValue(c: char): nat
    requires IsDigit(c)
  {
    c as int - '0' as int
  }

  function NatDigits(n: nat): (r: string)
    ensures |r| >= 1
    ensures forall i :: 0 <= i < |r| ==> IsDigit(r[i])
  {
    if n < 10 then [DigitChar(n)] else NatDigits(n / 10) + [DigitChar(n % 10)]
  }

  /** Python `str(n)` for an int. */
  function DecimalString(n: int): (r: string)
    ensures |r| >= 1 && IsDigit(r[|r| - 1])
    ensures IsDigit(r[0]) || r[0] == '-'
  {
    if n < 0 then "-" + NatDigits(-n) else NatDigits(n)
  }

  predicate DigitsOrUnderscores(s: string)
  {
    forall i :: 0 <= i < |s| ==> IsDigit(s[i]) || s[i] == '_'
  }

  /** The digit grammar `int()` accepts: digits, with single underscores
      allowed between two digits. */
  predicate WellFormedDigits(s: string)
  {
    && |s| >= 1
    && DigitsOrUnderscores(s)
    && IsDigit(s[0]) && IsDigit(s[|s| - 1])
    && forall i :: 0 <= i < |s| - 1 ==> !(s[i] == '_' && s[i + 1] == '_')
  }

  /** The value of the digits of `s`, underscores skipped. */
  function DigitsValue(s: string): nat
    requires DigitsOrUnderscores(s)
  {
    if |s| == 0 then 0
    else if s[|s| - 1] == '_' then DigitsValue(s[..|s| - 1])
    else 10 * DigitsValue(s[..|s| - 1]) + DigitValue(s[|s| - 1])
  }

  /** Python `int(text)` on ASCII digits: surrounding whitespace is
      ignored, then `ParseSigned`; anything else is a `ValueError`
      (`None`). Blank text never parses; text that parses is, once
      stripped, an optional sign and digits ending in a digit. */
  function ParseInt(text: string): (r: Option<int>)
    ensures r.Some? ==> !IsBlank(text)
    ensures r.Some? ==> var t := Strip(text);
      |t| >= 1 && IsDigit(t[|t| - 1]) && (IsDigit(t[0]) || t[0] == '+' || t[0] == '-')
  {
    StripEmptyIffBlank(text);
    ParseSigned(Strip(text))
  }

  /** One optional sign followed by the digit grammar. */
  function ParseSigned(t: string): (r: Option<int>)
    ensures r.Some? ==> |t| >= 1 && IsDigit(t[|t| - 1]) && (IsDigit(t[0]) || t[0] == '+' || t[0] == '-')
  {
    var body := if |t| > 0 && (t[0] == '+' || t[0] == '-') then t[1..] else t;
    if WellFormedDigits(body) then
      var v := DigitsValue(body) as int;
      Some(if |t| > 0 && t[0] == '-' then 0 - v else v)
    else None
  }

  lemma {:induction false} NatDigitsValue(n: nat)
    ensures DigitsValue(NatDigits(n)) == n
  {
    var r := NatDigits(n);
    if n >= 10 {
      NatDigitsValue(n / 10);
      assert r[..|r| - 1] == NatDigits(n / 10);
    }
  }

  /** A run of digits is in the digit grammar. */
  lemma DigitsWellFormed(d: string)
    requires |d| >= 1 && forall i :: 0 <= i < |d| ==> IsDigit(d[i])
    ensures WellFormedDigits(d)
  {
  }

  /** The digits of a natural number parse to it, and with a minus sign
      in front to its negation. */
  lemma ParseNatDigits(m: nat)
    ensures ParseSigned(NatDigits(m)) == Some(m)
    ensures ParseSigned("-" + NatDigits(m)) == Some(0 - m)
  {
    var d := NatDigits(m);
    NatDigitsValue(m);
    DigitsWellFormed(d);
    assert d[0] != '+' && d[0] != '-';
    var t := "-" + d;
    assert t[0] == '-' && t[1..] == d;
  }

  /** A decimal rendering has no surrounding whitespace to strip. */
  lemma StripDecimal(n: int)
    ensures Strip(DecimalString(n)) == DecimalString(n)
  {
    var s := DecimalString(n);
    assert !IsSpace(s[0]) && !IsSpace(s[|s| - 1]);
    StripNoop(s);
  }

  /** The sign and digits of a decimal rendering parse back to the integer. */
  lemma ParseSignedDecimal(n: int)
    ensures ParseSigned(DecimalString(n)) == Some(n)
  {
    if n < 0 {
      ParseNatDigits(-n);
    } else {
      ParseNatDigits(n);
    }
  }

  /** Parsing the decimal rendering of any integer gives the integer back. */
  lemma ParseDecimalRoundTrip(n: int)
    ensures ParseInt(DecimalString(n)) == Some(n)
  {
    StripDecimal(n);
    ParseSignedDecimal(n);
  }

  /** Different integers render differently. */
  lemma DecimalInjective(m1: int, m2: int)
    ensures DecimalString(m1) == DecimalString(m2) <==> m1 == m2
  {
    ParseSignedDecimal(m1);
    ParseSignedDecimal(m2);
  }

  /** Text that parses is never blank. */
  lemma ParseIntNotBlank(text: string)
    requires ParseInt(text).Some?
    ensures !IsBlank(text)
  {
    StripEmptyIffBlank(text);
  }
}

=== FILE: posix_path.dfy ===
/** The parts of Python's `posixpath` the SFTP code uses: `dirname`, `join`
    of two paths, `normpath`, and the `dirname(p.rstrip('/'))` parent step. */
module PosixPath {
  import opened Text

  predicate IsAbsolute(p: string) { |p| > 0 && p[0] == '/' }

  predicate AllSlashes(s: string) { forall k :: 0 <= k < |s| ==> s[k] == '/' }

  /** One past the last `/` of `p`, or 0 when there is none
      (`p.rfind('/') + 1`). */
  function AfterLastSlash(p: string): (i: nat)
    ensures i <= |p|
    ensures i > 0 ==> p[i - 1] == '/'
    ensures forall k :: i <= k < |p| ==> p[k] != '/'
    decreases |p|
  {
    if |p| == 0 then 0
    else if p[|p| - 1] == '/' then |p|
    else AfterLastSlash(p[..|p| - 1])
  }

  /** `posixpath.dirname`: everything up to the last `/`, with trailing
      slashes removed unless the head is nothing but slashes. */
  function Dirname(p: string): (r: string)
    ensures |r| <= |p| && r == p[..|r|]
  {
    var head := p[..AfterLastSlash(p)];
    if |head| > 0 && !AllSlashes(head) then RStripChar(head, '/') else head
  }

  /** `posixpath.join(a, b)` for two components. */
  function JoinPath(a: string, b: string): (r: string)
    ensures StartsWith(b, "/") ==> r == b
    ensures !StartsWith(b, "/") ==> StartsWith(r, a) && EndsWith(r, b)
    ensures !StartsWith(b, "/") && a != "" ==>
      r[..|r| - |b|] == (if EndsWith(a, "/") then a else a + "/")
  {
    if StartsWith(b, "/") then b
    else if a == "" || EndsWith(a, "/") then a + b
    else a + "/" + b
  }

  /** `os.path.dirname(p.rstrip('/'))`: the parent the SFTP code climbs to. */
  function Parent(p: string): (r: string)
    ensures |r| <= |p| && r == p[..|r|]
    ensures |r| > 0 && !AllSlashes(r) ==> r[|r| - 1] != '/'
  {
    Dirname(RStripChar(p, '/'))
  }

  /** The parent of anything but `''` and `'/'` is strictly shorter, so
      climbing parents terminates. */
  lemma ParentShorter(p: string)
    requires p != "" && p != "/"
    ensures |Parent(p)| < |p|
  {
    var q := RStripChar(p, '/');
    if |q| > 0 {
      assert AfterLastSlash(q) < |q|;
    }
  }

  /** The parent of an absolute path is absolute, or empty when the path is
      nothing but slashes. */
  lemma ParentOfAbsolute(p: string)
    requires IsAbsolute(p)
    ensures var r := Parent(p); IsAbsolute(r) || (r == "" && AllSlashes(p))
  {
    var q := RStripChar(p, '/');
    if |q| == 0 {
      assert forall k :: 0 <= k < |p| ==> p[k] == '/';
    } else {
      assert q[0] == '/';
      var i := AfterLastSlash(q);
      assert i >= 1;
      var head := q[..i];
      assert head[0] == '/';
      if !AllSlashes(head) {
        var r := RStripChar(head, '/');
        assert r[0] == head[0];
      }
    }
  }

  // ----- normpath -----

  /** How many leading slashes `normpath` keeps: POSIX gives exactly two
      leading slashes a meaning of their own, three or more collapse to one. */
  function InitialSlashes(p: string): (n: nat)
    ensures n <= 2
  {
    if !StartsWith(p, "/") then 0
    else if StartsWith(p, "//") && !StartsWith(p, "///") then 2
    else 1
  }

  function Slashes(n: nat): (s: string)
    requires n <= 2
    ensures |s| == n && AllSlashes(s)
  {
    if n == 0 then "" else if n == 1 then "/" else "//"
  }

  /** One step of `normpath`'s component loop. */
  function NormStep(acc: seq<string>, c: string, initial: nat): seq<string>
  {
    if c == "" || c == "." then acc
    else if c != ".." || (initial == 0 && |acc| == 0) || (|acc| > 0 && acc[|acc| - 1] == "..") then acc + [c]
    else if |acc| > 0 then acc[..|acc| - 1]
    else acc
  }

  function NormComps(comps: seq<string>, acc: seq<string>, initial: nat): seq<string>
    decreases |comps|
  {
    if |comps| == 0 then acc else NormComps(comps[1..], NormStep(acc, comps[0], initial), initial)
  }

  /** `posixpath.normpath`: never empty, and it keeps the path's count of
      leading slashes (none, one, or exactly two), so it is absolute
      exactly when its argument is. */
  function NormPath(p: string): (r: string)
    ensures r != ""
    ensures InitialSlashes(r) == InitialSlashes(p)
    ensures IsAbsolute(r) <==> IsAbsolute(p)
  {
    AbsoluteIffSlashes(p);
    if p == "" then
      AbsoluteIffSlashes(".");
      "."
    else
      var initial := InitialSlashes(p);
      var r := Slashes(initial) + Join(NormComps(SplitOn(p, '/'), [], initial), "/");
      NormKeepsSlashes(p);
      if r == "" then
        AbsoluteIffSlashes(".");
        "."
      else
        AbsoluteIffSlashes(r);
        r
  }

  /** A path is absolute exactly when it has leading slashes to keep. */
  lemma AbsoluteIffSlashes(p: string)
    ensures IsAbsolute(p) <==> InitialSlashes(p) >= 1
  {
    if |p| > 0 {
      assert StartsWith(p, "/") <==> p[0] == '/';
    }
  }

  /** The assembled normal form keeps the leading slashes of its input,
      and is empty only when there were none. */
  lemma NormKeepsSlashes(p: string)
    ensures var initial := InitialSlashes(p);
      var r := Slashes(initial) + Join(NormComps(SplitOn(p, '/'), [], initial), "/");
      (r == "" ==> initial == 0) && (r != "" ==> InitialSlashes(r) == initial)
  {
    var initial := InitialSlashes(p);
    var cs := NormComps(SplitOn(p, '/'), [], initial);
    NormCompsNormal(SplitOn(p, '/'), [], initial);
    if Slashes(initial) + Join(cs, "/") != "" {
      NormalPrefix(initial, cs);
    }
  }

  /** The shape of `normpath`'s component list: no empty, `.` or
      slash-carrying components; `..` only as a leading run, and not at all
      under a leading slash. */
  ghost predicate NormalComps(cs: seq<string>, initial: nat)
  {
    && (forall i :: 0 <= i < |cs| ==> cs[i] != "" && cs[i] != "." && !Contains(cs[i], '/'))
    && (forall i, j :: 0 <= i < j < |cs| && cs[j] == ".." ==> cs[i] == "..")
    && (initial > 0 ==> forall i :: 0 <= i < |cs| ==> cs[i] != "..")
  }

  lemma NormStepKeepsNormal(acc: seq<string>, c: string, initial: nat)
    requires NormalComps(acc, initial)
    requires !Contains(c, '/')
    ensures NormalComps(NormStep(acc, c, initial), initial)
  {
    if c == ".." && |acc| > 0 && acc[|acc| - 1] != ".." {
      var r := NormStep(acc, c, initial);
      assert r == acc[..|acc| - 1];
    }
  }

  lemma {:induction false} NormCompsNormal(comps: seq<string>, acc: seq<string>, initial: nat)
    requires NormalComps(acc, initial)
    requires forall i :: 0 <= i < |comps| ==> !Contains(comps[i], '/')
    ensures NormalComps(NormComps(comps, acc, initial), initial)
    decreases |comps|
  {
    if |comps| > 0 {
      NormStepKeepsNormal(acc, comps[0], initial);
      NormCompsNormal(comps[1..], NormStep(acc, comps[0], initial), initial);
    }
  }

  /** Already-normal components pass through the loop unchanged. */
  lemma {:induction false} NormCompsFixed(comps: seq<string>, acc: seq<string>, initial: nat)
    requires NormalComps(acc + comps, initial)
    ensures NormComps(comps, acc, initial) == acc + comps
    decreases |comps|
  {
    if |comps| > 0 {
      var c := comps[0];
      assert (acc + comps)[|acc|] == c;
      if c == ".." {
        if |acc| > 0 {
          assert (acc + comps)[|acc| - 1] == acc[|acc| - 1];
        }
      }
      assert NormStep(acc, c, initial) == acc + [c];
      assert acc + [c] + comps[1..] == acc + comps;
      NormCompsFixed(comps[1..], acc + [c], initial);
    }
  }

  lemma {:induction false} NormCompsSkipEmpty(n: nat, comps: seq<string>, initial: nat)
    ensures NormComps(seq(n, _ => "") + comps, [], initial) == NormComps(comps, [], initial)
    decreases n
  {
    if n > 0 {
      var e := seq(n, _ => "");
      var all := e + comps;
      assert all[0] == "";
      assert all[1..] == seq(n - 1, _ => "") + comps;
      assert NormStep([], all[0], initial) == [];
      assert NormComps(all, [], initial) == NormComps(all[1..], [], initial);
      NormCompsSkipEmpty(n - 1, comps, initial);
    } else {
      assert seq(n, _ => "") + comps == comps;
    }
  }

  lemma SplitLeadingSlashes(n: nat, rest: string)
    requires n <= 2
    ensures SplitOn(Slashes(n) + rest, '/') == seq(n, _ => "") + SplitOn(rest, '/')
  {
    if n == 1 {
      SplitSlashes(1, rest);
      assert seq(1, _ => "") == [""];
    } else if n == 2 {
      SplitSlashes(2, rest);
      assert seq(2, _ => "") == ["", ""];
    } else {
      assert Slashes(n) + rest == rest;
    }
  }

  /** Each leading slash starts an empty piece. */
  lemma SplitSlashes(n: nat, rest: string)
    requires 1 <= n <= 2
    ensures n == 1 ==> SplitOn(Slashes(n) + rest, '/') == [""] + SplitOn(rest, '/')
    ensures n == 2 ==> SplitOn(Slashes(n) + rest, '/') == ["", ""] + SplitOn(rest, '/')
  {
    SplitOnCons('/', rest, '/');
    if n == 1 {
      assert Slashes(n) + rest == ['/'] + rest;
    } else {
      assert Slashes(n) + rest == ['/'] + (['/'] + rest);
      SplitOnCons('/', ['/'] + rest, '/');
    }
  }

  lemma JoinHead(cs: seq<string>)
    requires |cs| > 0
    ensures StartsWith(Join(cs, "/"), cs[0])
  {
  }

  /** A normal path keeps its count of leading slashes. */
  lemma NormalPrefix(initial: nat, cs: seq<string>)
    requires initial <= 2 && NormalComps(cs, initial)
    requires Slashes(initial) + Join(cs, "/") != ""
    ensures InitialSlashes(Slashes(initial) + Join(cs, "/")) == initial
  {
    var body := Join(cs, "/");
    var r := Slashes(initial) + body;
    if |cs| > 0 {
      JoinHead(cs);
      assert body[0] == cs[0][0];
      assert cs[0][0] != '/' by {
        assert !Contains(cs[0], '/');
      }
    }
    assert r[..initial] == Slashes(initial);
    if initial == 0 {
      assert |cs| > 0;
    } else if initial == 1 {
      if |cs| > 0 { assert r[1] == body[0]; }
    } else {
      if |cs| > 0 { assert r[2] == body[0]; }
    }
  }

  /** A normal path's components come back unchanged from the loop. */
  lemma NormalComponents(initial: nat, cs: seq<string>)
    requires initial <= 2 && NormalComps(cs, initial)
    ensures NormComps(SplitOn(Slashes(initial) + Join(cs, "/"), '/'), [], initial) == cs
  {
    var body := Join(cs, "/");
    SplitLeadingSlashes(initial, body);
    NormCompsSkipEmpty(initial, SplitOn(body, '/'), initial);
    if |cs| > 0 {
      SplitJoin(cs, '/');
      NormCompsFixed(cs, [], initial);
      assert [] + cs == cs;
    } else {
      assert SplitOn(body, '/') == [""];
    }
  }

  /** `.` is its own normal form. */
  lemma NormPathDot()
    ensures NormPath(".") == "."
  {
    assert "."[1..] == "";
    assert SplitOn("", '/') == [""];
    assert ['.'] + "" == ".";
    assert SplitOn(".", '/') == ["."];
  }

  /** Normalising is idempotent: a normalised path is its own normal form. */
  lemma NormPathIdempotent(p: string)
    ensures NormPath(NormPath(p)) == NormPath(p)
  {
    if p == "" {
      NormPathDot();
    } else {
      var initial := InitialSlashes(p);
      var split := SplitOn(p, '/');
      var cs := NormComps(split, [], initial);
      NormCompsNormal(split, [], initial);
      var r := Slashes(initial) + Join(cs, "/");
      if r != "" {
        assert NormPath(p) == r;
        NormalPrefix(initial, cs);
        NormalComponents(initial, cs);
      } else {
        assert NormPath(p) == ".";
        NormPathDot();
      }
    }
  }

  /** `normpath` of an absolute path is absolute and free of `.`, `..` and
      empty components. */
  lemma NormPathAbsolute(p: string)
    requires IsAbsolute(p)
    ensures IsAbsolute(NormPath(p))
    ensures var initial := InitialSlashes(p);
      initial >= 1 && NormalComps(NormComps(SplitOn(p, '/'), [], initial), initial)
  {
    NormCompsNormal(SplitOn(p, '/'), [], InitialSlashes(p));
  }
}

=== FILE: session.dfy ===
/** The saved-session record (`mobaxterm/models/session.py`): construction
    with folder normalisation, the display name, and the dictionary form
    used for JSON storage. */
module SessionModel {
  import opened Base
  import opened Text
  import opened Numbers

  /** One saved connection. `kind` is the Python field `type` ("SSH" or
      "SFTP" in practice, any string in principle). Fields can be assigned
      after construction, so a value of this type need not have passed
      through `NewSession`. */
  datatype Session = Session(
    kind: string,
    host: string,
    port: int,
    username: Option<string>,
    authMethod: string,
    privateKeyPath: Option<string>,
    privateKeyPassphrase: Option<string>,
    terminalSettings: bool,
    networkSettings: bool,
    folder: Option<string>,
    bookmarkSettings: bool)

  predicate LeadingSlash(folder: Option<string>) { Truthy(folder) && folder.value[0] == '/' }

  /** `__post_init__`: a folder that starts with `/` loses that one `/`. */
  function NormalizeFolder(folder: Option<string>): (r: Option<string>)
    ensures LeadingSlash(folder) ==> r == Some(folder.value[1..])
    ensures !LeadingSlash(folder) ==> r == folder
  {
    if Truthy(folder) && StartsWith(folder.value, "/") then Some(folder.value[1..]) else folder
  }

  /** The dataclass constructor: fields stored as given, then
      `__post_init__` normalises the folder. */
  function NewSession(kind: string, host: string, port: int, username: Option<string>,
                      authMethod: string, privateKeyPath: Option<string>,
                      privateKeyPassphrase: Option<string>, terminalSettings: bool,
                      networkSettings: bool, folder: Option<string>, bookmarkSettings: bool): (s: Session)
    ensures s.kind == kind && s.host == host && s.port == port && s.username == username
    ensures s.authMethod == authMethod && s.privateKeyPath == privateKeyPath
    ensures s.privateKeyPassphrase == privateKeyPassphrase
    ensures s.terminalSettings == terminalSettings && s.networkSettings == networkSettings
    ensures s.bookmarkSettings == bookmarkSettings
    ensures LeadingSlash(folder) ==> s.folder == Some(folder.value[1..])
    ensures !LeadingSlash(folder) ==> s.folder == folder
  {
    Session(kind, host, port, username, authMethod, privateKeyPath, privateKeyPassphrase,
            terminalSettings, networkSettings, NormalizeFolder(folder), bookmarkSettings)
  }

  /** Exactly one slash is removed: `"//x"` becomes `"/x"`, so construction
      is not idempotent on such folders. */
  lemma NormalizeStripsOnlyOne()
    ensures NormalizeFolder(Some("//x")) == Some("/x")
    ensures NormalizeFolder(Some("x")) == Some("x")
    ensures NormalizeFolder(Some("")) == Some("")
  {
    assert "//x"[1..] == "/x";
  }

  /** Python's f-string rendering of an optional string. */
  function PyStr(o: Option<string>): string
  {
    match o
    case Some(v) => v
    case None => "None"
  }

  /** `display_name()`. */
  function DisplayName(s: Session): (r: string)
    ensures s.kind == "SSH" && Truthy(s.username) ==>
      r == "SSH - " + s.host + ":" + DecimalString(s.port) + " (" + s.username.value + ")"
    ensures s.kind == "SSH" && !Truthy(s.username) ==>
      r == "SSH - " + s.host + ":" + DecimalString(s.port)
  {
    if s.kind == "SSH" then
      var usernamePart := if Truthy(s.username) then "(" + s.username.value + ")" else "";
      var padded := "SSH - " + s.host + ":" + DecimalString(s.port) + " " + usernamePart;
      DisplayNameStrip(s.host, DecimalString(s.port), usernamePart);
      Strip(padded)
    else
      "SFTP - " + s.host + ":" + DecimalString(s.port) + " (" + PyStr(s.username) + ")"
  }

  /** `.strip()` of the padded SSH name removes only the trailing space
      left by an empty username part. */
  lemma DisplayNameStrip(host: string, port: string, usernamePart: string)
    requires |port| > 0 && IsDigit(port[|port| - 1])
    requires usernamePart == "" || usernamePart[|usernamePart| - 1] == ')'
    ensures usernamePart != "" ==>
      Strip("SSH - " + host + ":" + port + " " + usernamePart) == "SSH - " + host + ":" + port + " " + usernamePart
    ensures usernamePart == "" ==>
      Strip("SSH - " + host + ":" + port + " " + usernamePart) == "SSH - " + host + ":" + port
  {
    var core := "SSH - " + host + ":" + port;
    var padded := core + " " + usernamePart;
    assert core[0] == 'S' && core[|core| - 1] == port[|port| - 1];
    if usernamePart == "" {
      assert padded == core + " ";
      StripTrailingSpace(core);
    } else {
      assert padded[0] == 'S' && padded[|padded| - 1] == ')';
      StripNoop(padded);
    }
  }

  /** For any other type the name always carries a parenthesised username,
      `(None)` when there is none. */
  lemma DisplayNameSftp(s: Session)
    requires s.kind != "SSH"
    ensures s.username.None? ==> DisplayName(s) == "SFTP - " + s.host + ":" + DecimalString(s.port) + " (None)"
    ensures s.username.Some? ==> DisplayName(s) == "SFTP - " + s.host + ":" + DecimalString(s.port) + " (" + s.username.value + ")"
  {
  }

  // ----- dictionary form -----

  /** A JSON value as the session dictionary holds it. */
  datatype Value = VStr(str: string) | VInt(num: int) | VBool(flag: bool) | VNone

  type Dict = map<string, Value>

  function OptStr(o: Option<string>): Value
  {
    match o
    case Some(v) => VStr(v)
    case None => VNone
  }

  /** The keys `to_dict` writes; there is no `password`. */
  const SessionKeys: set<string> := {
    "type", "host", "port", "username", "auth_method", "private_key_path",
    "private_key_passphrase", "terminal_settings", "network_settings",
    "bookmark_settings", "folder" }

  /** `to_dict()`. */
  function ToDict(s: Session): (d: Dict)
    ensures d.Keys == SessionKeys
    ensures "password" !in d
  {
    map[
      "type" := VStr(s.kind),
      "host" := VStr(s.host),
      "port" := VInt(s.port),
      "username" := OptStr(s.username),
      "auth_method" := VStr(s.authMethod),
      "private_key_path" := OptStr(s.privateKeyPath),
      "private_key_passphrase" := OptStr(s.privateKeyPassphrase),
      "terminal_settings" := VBool(s.terminalSettings),
      "network_settings" := VBool(s.networkSettings),
      "bookmark_settings" := VBool(s.bookmarkSettings),
      "folder" := OptStr(s.folder)]
  }

  /** Why `from_dict` cannot build a session: a required key is absent
      (Python `KeyError`), or a value has a type the field does not hold. */
  datatype DictError = MissingKey(key: string) | IllTyped(key: string)

  function AsStr(d: Dict, k: string, default: string): Result<string, DictError>
  {
    if k !in d then Ok(default)
    else match d[k]
      case VStr(v) => Ok(v)
      case _ => Err(IllTyped(k))
  }

  function AsInt(d: Dict, k: string): Result<int, DictError>
  {
    if k !in d then Err(MissingKey(k))
    else match d[k]
      case VInt(v) => Ok(v)
      case _ => Err(IllTyped(k))
  }

  function AsBool(d: Dict, k: string): Result<bool, DictError>
  {
    if k !in d then Ok(false)
    else match d[k]
      case VBool(v) => Ok(v)
      case _ => Err(IllTyped(k))
  }

  function AsOptStr(d: Dict, k: string): Result<Option<string>, DictError>
  {
    if k !in d then Ok(None)
    else match d[k]
      case VStr(v) => Ok(Some(v))
      case VNone => Ok(None)
      case _ => Err(IllTyped(k))
  }

  /** `from_dict(data)`: the four required keys are looked up first, in
      argument order; the optional ones default to `'password'`, `False`
      and `None`; the constructor then normalises the folder. */
  function FromDict(d: Dict): (r: Result<Session, DictError>)
    ensures "type" !in d ==> r == Err(MissingKey("type"))
    ensures "type" in d && "host" !in d ==> r == Err(MissingKey("host"))
    ensures "type" in d && "host" in d && "port" !in d ==> r == Err(MissingKey("port"))
    ensures "type" in d && "host" in d && "port" in d && "username" !in d ==> r == Err(MissingKey("username"))
    ensures r.Ok? ==> "auth_method" !in d ==> r.value.authMethod == "password"
    ensures r.Ok? ==> "terminal_settings" !in d ==> !r.value.terminalSettings
    ensures r.Ok? ==> "network_settings" !in d ==> !r.value.networkSettings
    ensures r.Ok? ==> "bookmark_settings" !in d ==> !r.value.bookmarkSettings
    ensures r.Ok? ==> "private_key_path" !in d ==> r.value.privateKeyPath.None?
    ensures r.Ok? ==> "private_key_passphrase" !in d ==> r.value.privateKeyPassphrase.None?
    ensures r.Ok? ==> "folder" !in d ==> r.value.folder.None?
    ensures r.Ok? ==> d["type"] == VStr(r.value.kind) && d["host"] == VStr(r.value.host)
    ensures r.Ok? ==> d["port"] == VInt(r.value.port)
  {
    if "type" !in d then Err(MissingKey("type"))
    else if "host" !in d then Err(MissingKey("host"))
    else if "port" !in d then Err(MissingKey("port"))
    else if "username" !in d then Err(MissingKey("username"))
    else
      var kind :- AsStr(d, "type", "");
      var host :- AsStr(d, "host", "");
      var port :- AsInt(d, "port");
      var username :- AsOptStr(d, "username");
      var authMethod :- AsStr(d, "auth_method", "password");
      var keyPath :- AsOptStr(d, "private_key_path");
      var passphrase :- AsOptStr(d, "private_key_passphrase");
      var terminal :- AsBool(d, "terminal_settings");
      var network :- AsBool(d, "network_settings");
      var bookmark :- AsBool(d, "bookmark_settings");
      var folder :- AsOptStr(d, "folder");
      Ok(NewSession(kind, host, port, username, authMethod, keyPath, passphrase,
                    terminal, network, folder, bookmark))
  }

  /** What each key of `to_dict` holds. */
  lemma ToDictEntries(s: Session)
    ensures var d := ToDict(s);
      && d["type"] == VStr(s.kind) && d["host"] == VStr(s.host) && d["port"] == VInt(s.port)
      && d["username"] == OptStr(s.username) && d["auth_method"] == VStr(s.authMethod)
      && d["private_key_path"] == OptStr(s.privateKeyPath)
      && d["private_key_passphrase"] == OptStr(s.privateKeyPassphrase)
      && d["terminal_settings"] == VBool(s.terminalSettings)
      && d["network_settings"] == VBool(s.networkSettings)
      && d["bookmark_settings"] == VBool(s.bookmarkSettings)
      && d["folder"] == OptStr(s.folder)
  {
  }

  lemma OptStrBack(d: Dict, k: string, o: Option<string>)
    requires k in d && d[k] == OptStr(o)
    ensures AsOptStr(d, k) == Ok(o)
  {
  }

  /** Storing and reloading a session gives it back exactly when its folder
      does not start with `/`; such a folder (set by assignment after
      construction) loses its first slash on reload. */
  lemma DictRoundTrip(s: Session)
    ensures FromDict(ToDict(s)) == Ok(s) <==> !LeadingSlash(s.folder)
    ensures LeadingSlash(s.folder) ==> FromDict(ToDict(s)) == Ok(s.(folder := Some(s.folder.value[1..])))
  {
    var d := ToDict(s);
    ToDictEntries(s);
    OptStrBack(d, "username", s.username);
    OptStrBack(d, "private_key_path", s.privateKeyPath);
    OptStrBack(d, "private_key_passphrase", s.privateKeyPassphrase);
    OptStrBack(d, "folder", s.folder);
    var r := NewSession(s.kind, s.host, s.port, s.username, s.authMethod,
      s.privateKeyPath, s.privateKeyPassphrase, s.terminalSettings, s.networkSettings,
      s.folder, s.bookmarkSettings);
    assert FromDict(d) == Ok(r);
    if LeadingSlash(s.folder) {
      assert |s.folder.value[1..]| != |s.folder.value|;
    }
  }
}

=== FILE: session_dialog.dfy ===
/** The session editor of `mobaxterm/ui/session_dialog.py`: the state of
    its SSH and SFTP pages, the slots that keep dependent widgets in step,
    and the two conversions between the pages and a `Session` record.

    Both conversions, as written, name a `password` field that `Session`
    does not declare: `load_session_data` reads `session.password` and the
    SFTP branch of `get_session_data` passes `password=` to the
    constructor. The as-written members return the exception those lines
    raise; the `Fixed` members leave the password out, and the round trip
    is proved about them. */
module SessionDialog {
  import opened Base
  import opened SessionModel
  import SessionManager

  /** The port spin boxes' range and starting value. */
  const MinPort := 1
  const MaxPort := 65535
  const DefaultPort := 22

  /** The data of the last folder-combo item, which opens a prompt. */
  const NewFolderData := "new"

  datatype Tab = SshTab | SftpTab

  /** "Specify username" and the input it enables. */
  datatype UsernameBox = UsernameBox(checked: bool, text: string, enabled: bool)

  /** "Custom port" and the spin box it enables. */
  datatype PortBox = PortBox(checked: bool, value: int, enabled: bool)

  /** The auth combo's current data, and the key path and passphrase inputs
      with whether they (and the browse button) are enabled. */
  datatype AuthBox = AuthBox(auth: string, keyPath: string, passphrase: string, keyEnabled: bool)

  /** The SSH page. `folder` is the folder combo's current data, `None` for
      "(No folder)". */
  datatype SshPage = SshPage(
    host: string, username: UsernameBox, password: string, port: PortBox,
    folder: Option<string>, auth: AuthBox, terminal: bool, network: bool, bookmark: bool)

  datatype SftpPage = SftpPage(host: string, username: string, password: string, port: int,
                               folder: Option<string>, bookmark: bool)

  /** The dialog: the page shown, both pages, and the folders both folder
      combos list between "(No folder)" and "+ Create new folder...". */
  datatype Dialog = Dialog(tab: Tab, ssh: SshPage, sftp: SftpPage, folders: seq<string>)

  /** The exception a conversion raises. */
  datatype DialogError = AttributeError(attribute: string) | TypeError(keyword: string)

  // ----- the invariant the slots keep -----

  predicate UsernameConsistent(b: UsernameBox)
  {
    b.enabled == b.checked && (!b.checked ==> b.text == "")
  }

  predicate PortConsistent(b: PortBox)
  {
    b.enabled == b.checked && (!b.checked ==> b.value == DefaultPort) && MinPort <= b.value <= MaxPort
  }

  /** The combo offers only `password` and `key`. */
  predicate KnownAuth(auth: string)
  {
    auth == "password" || auth == "key"
  }

  predicate AuthConsistent(b: AuthBox)
  {
    KnownAuth(b.auth) && b.keyEnabled == (b.auth == "key")
  }

  /** Every dependent widget agrees with the widget it depends on, and both
      ports are in the spin boxes' range. */
  predicate Consistent(d: Dialog)
  {
    && UsernameConsistent(d.ssh.username)
    && PortConsistent(d.ssh.port)
    && AuthConsistent(d.ssh.auth)
    && MinPort <= d.sftp.port <= MaxPort
  }

  /** `QSpinBox.setValue` with the range 1..65535: out-of-range values are
      clamped. */
  function SpinValue(v: int): (r: int)
    ensures MinPort <= r <= MaxPort
    ensures MinPort <= v <= MaxPort ==> r == v
    ensures v < MinPort ==> r == MinPort
    ensures v > MaxPort ==> r == MaxPort
  {
    Clamp(v, MinPort, MaxPort)
  }

  /** The dialog as `initUI` builds it: the SSH page shown, the username
      and port boxes unchecked with their inputs disabled, port 22, no
      folder, password authentication with the key inputs disabled. */
  function NewDialog(folders: seq<string>): (d: Dialog)
    ensures Consistent(d) && d.folders == folders
    ensures d.tab == SshTab && d.ssh.folder == None && d.sftp.folder == None
    ensures d.ssh.port.value == DefaultPort && d.sftp.port == DefaultPort
    ensures !d.ssh.auth.keyEnabled && !d.ssh.username.enabled && !d.ssh.port.enabled
  {
    Dialog(SshTab,
           SshPage("", UsernameBox(false, "", false), "", PortBox(false, DefaultPort, false), None,
                   AuthBox("password", "", "", false), false, false, false),
           SftpPage("", "", "", DefaultPort, None, false),
           folders)
  }

  /** The `parent` a dialog is given, as far as `initUI` looks at it: none,
      a widget without a `session_manager` attribute, or the main window,
      whose `session_manager` is a `SessionManager`. */
  datatype Parent = NoParent | PlainParent | ManagerParent(manager: SessionManager.Manager)

  /** Opening the dialog as written: when the parent has a session manager,
      both folder combos ask it for `get_all_folders()`, which
      `SessionManager` does not define, so construction raises before any
      form exists; otherwise the combos list no folders. */
  function OpenDialog(parent: Parent): (r: Result<Dialog, DialogError>)
    ensures r.Err? <==> parent.ManagerParent?
    ensures r.Err? ==> r.error == AttributeError("get_all_folders")
    ensures r.Ok? ==> Consistent(r.value) && r.value.folders == [] && r.value.tab == SshTab
  {
    match parent
    case ManagerParent(_) => Err(AttributeError("get_all_folders"))
    case _ => Ok(NewDialog([]))
  }

  /** Opening the dialog with the folder listing the combos evidently
      expect: `folders` is what the session manager would answer, and a
      parent without one gives no folders. */
  function OpenDialogFixed(parent: Parent, folders: seq<string>): (r: Dialog)
    ensures Consistent(r) && r.tab == SshTab && r.ssh.folder == None && r.sftp.folder == None
    ensures r.folders == (if parent.ManagerParent? then folders else [])
  {
    NewDialog(if parent.ManagerParent? then folders else [])
  }

  /** The main window opens every dialog with itself as parent, so as
      written each opening fails, while the corrected opening gives a
      usable form listing the folders; with any other parent the two
      agree. */
  lemma MainWindowDialogFails(parent: Parent, folders: seq<string>)
    ensures parent.ManagerParent? ==>
      && OpenDialog(parent) == Err(AttributeError("get_all_folders"))
      && OpenDialogFixed(parent, folders).folders == folders
    ensures !parent.ManagerParent? ==> OpenDialog(parent) == Ok(OpenDialogFixed(parent, folders))
  {
  }

  // ----- slots of the SSH page -----

  /** "Specify username" changes state: the input follows the box, and
      unchecking clears it. */
  function ToggleUsername(b: UsernameBox, checked: bool): (r: UsernameBox)
    ensures r.checked == checked && r.enabled == checked
    ensures r.text == (if checked then b.text else "")
    ensures UsernameConsistent(r)
  {
    UsernameBox(checked, if checked then b.text else "", checked)
  }

  /** Typing a username: only possible while the input is enabled. */
  function EditUsername(b: UsernameBox, text: string): (r: UsernameBox)
    ensures b.enabled ==> r == b.(text := text)
    ensures !b.enabled ==> r == b
    ensures UsernameConsistent(b) ==> UsernameConsistent(r)
  {
    if b.enabled then b.(text := text) else b
  }

  /** "Custom port" changes state: the spin box follows the box, and
      unchecking puts it back to 22. */
  function TogglePort(b: PortBox, checked: bool): (r: PortBox)
    ensures r.checked == checked && r.enabled == checked
    ensures r.value == (if checked then b.value else DefaultPort)
    ensures PortConsistent(b) ==> PortConsistent(r)
  {
    PortBox(checked, if checked then b.value else DefaultPort, checked)
  }

  /** Typing a port: only possible while the spin box is enabled, and
      clamped to its range. */
  function EditPort(b: PortBox, v: int): (r: PortBox)
    ensures b.enabled ==> r == b.(value := SpinValue(v))
    ensures !b.enabled ==> r == b
    ensures PortConsistent(b) ==> PortConsistent(r)
  {
    if b.enabled then b.(value := SpinValue(v)) else b
  }

  /** A new authentication method is chosen: the key path, browse button
      and passphrase are enabled exactly for `key`. */
  function ChooseAuthMethod(b: AuthBox, useKey: bool): (r: AuthBox)
    ensures r.auth == (if useKey then "key" else "password")
    ensures r.keyEnabled <==> useKey
    ensures r.keyPath == b.keyPath && r.passphrase == b.passphrase
    ensures AuthConsistent(r)
  {
    AuthBox(if useKey then "key" else "password", b.keyPath, b.passphrase, useKey)
  }

  /** A slot applied to the dialog's SSH page keeps the dialog consistent
      and changes nothing but its own box. */
  lemma SlotsKeepConsistent(d: Dialog, checked: bool, text: string, v: int, useKey: bool)
    requires Consistent(d)
    ensures Consistent(d.(ssh := d.ssh.(username := ToggleUsername(d.ssh.username, checked))))
    ensures Consistent(d.(ssh := d.ssh.(username := EditUsername(d.ssh.username, text))))
    ensures Consistent(d.(ssh := d.ssh.(port := TogglePort(d.ssh.port, checked))))
    ensures Consistent(d.(ssh := d.ssh.(port := EditPort(d.ssh.port, v))))
    ensures Consistent(d.(ssh := d.ssh.(auth := ChooseAuthMethod(d.ssh.auth, useKey))))
    ensures Consistent(d.(sftp := d.sftp.(port := SpinValue(v))))
  {
  }

  // ----- get_session_data -----

  /** The key path or passphrase `get_session_data` stores: the text, when
      the method is `key` and the text is not empty. */
  function KeyField(auth: string, text: string): (r: Option<string>)
    ensures r.Some? <==> auth == "key" && text != ""
    ensures r.Some? ==> r.value == text
  {
    if auth == "key" && text != "" then Some(text) else None
  }

  /** The SSH branch of `get_session_data`: the port only when "Custom
      port" is checked, the username only when "Specify username" is, the
      key fields only for key authentication. The record is constructed
      with no folder and the folder combo's data is assigned afterwards, so
      it is stored without the leading-slash normalisation. */
  function SshSession(p: SshPage): (s: Session)
    ensures s.kind == "SSH" && s.host == p.host
    ensures s.port == (if p.port.checked then p.port.value else DefaultPort)
    ensures s.username == (if p.username.checked then Some(p.username.text) else None)
    ensures s.authMethod == p.auth.auth
    ensures s.privateKeyPath == KeyField(p.auth.auth, p.auth.keyPath)
    ensures s.privateKeyPassphrase == KeyField(p.auth.auth, p.auth.passphrase)
    ensures s.terminalSettings == p.terminal && s.networkSettings == p.network
    ensures s.bookmarkSettings == p.bookmark && s.folder == p.folder
  {
    NewSession("SSH", p.host, if p.port.checked then p.port.value else DefaultPort,
               if p.username.checked then Some(p.username.text) else None,
               p.auth.auth, KeyField(p.auth.auth, p.auth.keyPath), KeyField(p.auth.auth, p.auth.passphrase),
               p.terminal, p.network, None, p.bookmark).(folder := p.folder)
  }

  /** The fields the SFTP page does not set keep the record's defaults. */
  predicate SftpDefaults(s: Session)
  {
    s.authMethod == "password" && s.privateKeyPath == None && s.privateKeyPassphrase == None
    && !s.terminalSettings && !s.networkSettings
  }

  /** `get_session_data` as written: the SSH page gives its record; the
      SFTP page passes `password=`, which the `Session` constructor rejects
      with a `TypeError`. */
  function GetSessionData(d: Dialog): (r: Result<Session, DialogError>)
    ensures r.Ok? <==> d.tab == SshTab
    ensures r.Ok? ==> r.value == SshSession(d.ssh)
    ensures r.Err? ==> r.error == TypeError("password")
  {
    match d.tab
    case SshTab => Ok(SshSession(d.ssh))
    case SftpTab => Err(TypeError("password"))
  }

  /** `get_session_data` without the password keyword: the SFTP page gives
      a record with its host, port, username (never `None`), bookmark flag
      and folder, and defaults elsewhere. */
  function GetSessionDataFixed(d: Dialog): (r: Session)
    ensures d.tab == SshTab ==> r == SshSession(d.ssh)
    ensures d.tab == SftpTab ==>
      && r.kind == "SFTP" && r.host == d.sftp.host && r.port == d.sftp.port
      && r.username == Some(d.sftp.username) && r.folder == d.sftp.folder
      && r.bookmarkSettings == d.sftp.bookmark && SftpDefaults(r)
  {
    match d.tab
    case SshTab => SshSession(d.ssh)
    case SftpTab =>
      NewSession("SFTP", d.sftp.host, d.sftp.port, Some(d.sftp.username), "password", None, None,
                 false, false, None, d.sftp.bookmark).(folder := d.sftp.folder)
  }

  /** Every record a consistent dialog gives has a port in range and an
      authentication method the combo offers, and the two versions agree
      wherever the as-written one succeeds. */
  lemma GetSessionInRange(d: Dialog)
    requires Consistent(d)
    ensures MinPort <= GetSessionDataFixed(d).port <= MaxPort
    ensures KnownAuth(GetSessionDataFixed(d).authMethod)
    ensures GetSessionData(d).Ok? ==> GetSessionData(d).value == GetSessionDataFixed(d)
  {
  }

  // ----- load_session_data -----

  /** `findData` on a folder combo followed by `setCurrentIndex` when it
      finds something: the combo's items carry `None`, each folder, and
      `new`. An empty folder is not looked up. */
  function SelectFolder(current: Option<string>, folders: seq<string>, folder: Option<string>): (r: Option<string>)
    ensures Truthy(folder) && (folder.value in folders || folder.value == NewFolderData) ==> r == folder
    ensures !(Truthy(folder) && (folder.value in folders || folder.value == NewFolderData)) ==> r == current
  {
    if Truthy(folder) && (folder.value in folders || folder.value == NewFolderData) then folder else current
  }

  /** A non-empty username checks "Specify username", which enables the
      input, and fills it. */
  function LoadUsername(b: UsernameBox, username: Option<string>): (r: UsernameBox)
    ensures Truthy(username) ==> r == UsernameBox(true, username.value, true)
    ensures !Truthy(username) ==> r == b
    ensures UsernameConsistent(b) ==> UsernameConsistent(r)
  {
    if Truthy(username) then ToggleUsername(b, true).(text := username.value, enabled := true) else b
  }

  /** A port other than 22 checks "Custom port" and is set, clamped. */
  function LoadPort(b: PortBox, port: int): (r: PortBox)
    ensures port != DefaultPort ==> r == PortBox(true, SpinValue(port), true)
    ensures port == DefaultPort ==> r == b
    ensures PortConsistent(b) ==> PortConsistent(r)
  {
    if port != DefaultPort then TogglePort(b, true).(value := SpinValue(port), enabled := true) else b
  }

  /** The authentication method when the combo offers it, and a non-empty
      key path and passphrase, which are filled whatever the method. */
  function LoadAuth(b: AuthBox, s: Session): (r: AuthBox)
    ensures KnownAuth(s.authMethod) ==> r.auth == s.authMethod
    ensures !KnownAuth(s.authMethod) ==> r.auth == b.auth && r.keyEnabled == b.keyEnabled
    ensures r.keyPath == (if Truthy(s.privateKeyPath) then s.privateKeyPath.value else b.keyPath)
    ensures r.passphrase == (if Truthy(s.privateKeyPassphrase) then s.privateKeyPassphrase.value else b.passphrase)
    ensures AuthConsistent(b) ==> AuthConsistent(r)
  {
    var chosen := if KnownAuth(s.authMethod) then ChooseAuthMethod(b, s.authMethod == "key") else b;
    chosen.(keyPath := if Truthy(s.privateKeyPath) then s.privateKeyPath.value else b.keyPath,
            passphrase := if Truthy(s.privateKeyPassphrase) then s.privateKeyPassphrase.value else b.passphrase)
  }

  /** The SSH branch of `load_session_data` without the line that reads
      `session.password`: the host, username, port, folder, option boxes
      and authentication fields. */
  function LoadSshPage(p: SshPage, folders: seq<string>, s: Session): (r: SshPage)
    ensures r.host == s.host && r.password == p.password
    ensures r.username == LoadUsername(p.username, s.username)
    ensures r.port == LoadPort(p.port, s.port)
    ensures r.folder == SelectFolder(p.folder, folders, s.folder)
    ensures r.auth == LoadAuth(p.auth, s)
    ensures r.terminal == s.terminalSettings && r.network == s.networkSettings
    ensures r.bookmark == s.bookmarkSettings
  {
    SshPage(s.host, LoadUsername(p.username, s.username), p.password, LoadPort(p.port, s.port),
            SelectFolder(p.folder, folders, s.folder), LoadAuth(p.auth, s),
            s.terminalSettings, s.networkSettings, s.bookmarkSettings)
  }

  /** The SFTP branch, taken for every type other than `SSH`, without the
      password line: the host, the username (or the empty string), the
      clamped port, the folder and the bookmark box. */
  function LoadSftpPage(p: SftpPage, folders: seq<string>, s: Session): (r: SftpPage)
    ensures r.host == s.host && r.password == p.password
    ensures r.username == (if s.username.Some? then s.username.value else "")
    ensures r.port == SpinValue(s.port)
    ensures r.folder == SelectFolder(p.folder, folders, s.folder)
    ensures r.bookmark == s.bookmarkSettings
  {
    SftpPage(s.host, if s.username.Some? then s.username.value else "", p.password, SpinValue(s.port),
             SelectFolder(p.folder, folders, s.folder), s.bookmarkSettings)
  }

  /** `load_session_data` as written: both branches reach `session.password`
      after switching tab, so every session raises `AttributeError`, and a
      dialog opened to edit a session fails in its constructor. */
  function LoadSessionData(d: Dialog, s: Session): (r: Result<Dialog, DialogError>)
    ensures r == Err(AttributeError("password"))
  {
    Err(AttributeError("password"))
  }

  /** `load_session_data` without the password lines: an `SSH` session
      fills the SSH page and shows it, anything else fills the SFTP page
      and shows that; the other page is untouched. */
  function LoadSessionDataFixed(d: Dialog, s: Session): (r: Dialog)
    ensures r.folders == d.folders
    ensures r.tab == (if s.kind == "SSH" then SshTab else SftpTab)
    ensures s.kind == "SSH" ==> r.ssh == LoadSshPage(d.ssh, d.folders, s) && r.sftp == d.sftp
    ensures s.kind != "SSH" ==> r.sftp == LoadSftpPage(d.sftp, d.folders, s) && r.ssh == d.ssh
    ensures Consistent(d) ==> Consistent(r)
  {
    if s.kind == "SSH" then d.(tab := SshTab, ssh := LoadSshPage(d.ssh, d.folders, s))
    else d.(tab := SftpTab, sftp := LoadSftpPage(d.sftp, d.folders, s))
  }

  // ----- round trip -----

  /** A folder the dialog can show: none, or a listed folder other than the
      data of the "+ Create new folder..." item. */
  predicate ShowableFolder(folder: Option<string>, folders: seq<string>)
  {
    folder == None || (Truthy(folder) && folder.value in folders && folder.value != NewFolderData)
  }

  /** The sessions the dialog can show and give back unchanged. */
  predicate Representable(s: Session, folders: seq<string>)
  {
    && MinPort <= s.port <= MaxPort
    && ShowableFolder(s.folder, folders)
    && (s.kind == "SSH" ==>
          && (s.username == None || Truthy(s.username))
          && KnownAuth(s.authMethod)
          && (s.privateKeyPath == None || (s.authMethod == "key" && Truthy(s.privateKeyPath)))
          && (s.privateKeyPassphrase == None || (s.authMethod == "key" && Truthy(s.privateKeyPassphrase))))
    && (s.kind != "SSH" ==> s.kind == "SFTP" && s.username.Some? && SftpDefaults(s))
  }

  /** Opening a new dialog on a representable session and reading it back
      gives the same session. */
  lemma LoadThenGet(folders: seq<string>, s: Session)
    requires Representable(s, folders)
    ensures GetSessionDataFixed(LoadSessionDataFixed(NewDialog(folders), s)) == s
  {
    var d := NewDialog(folders);
    var r := LoadSessionDataFixed(d, s);
    if s.kind == "SSH" {
      assert r.ssh.folder == s.folder;
      assert r.ssh.auth.auth == s.authMethod;
    } else {
      assert r.sftp.folder == s.folder;
    }
  }

  /** The other direction: a consistent dialog showing the SSH page whose
      username is non-empty, whose custom port is not 22, whose folder is showable and whose key fields
      are empty unless key authentication is chosen gives a session that
      loads back into the same page, its unused password input aside. */
  lemma GetThenLoad(d: Dialog)
    requires Consistent(d) && d.tab == SshTab
    requires d.ssh.username.checked ==> d.ssh.username.text != ""
    requires d.ssh.port.checked ==> d.ssh.port.value != DefaultPort
    requires ShowableFolder(d.ssh.folder, d.folders)
    requires d.ssh.auth.auth == "password" ==> d.ssh.auth.keyPath == "" && d.ssh.auth.passphrase == ""
    ensures LoadSessionDataFixed(NewDialog(d.folders), GetSessionDataFixed(d)).ssh
            == d.ssh.(password := "")
  {
    var s := GetSessionDataFixed(d);
    var r := LoadSessionDataFixed(NewDialog(d.folders), s);
    assert r.ssh.folder == d.ssh.folder;
    assert r.ssh.username == d.ssh.username;
    assert r.ssh.port == d.ssh.port;
    assert r.ssh.auth == d.ssh.auth;
  }
}

=== FILE: session_manager.dfy ===
/** The session catalog (`mobaxterm/core/session_manager.py`): a list of
    sessions addressed by index. Saving to and loading from the JSON file is
    not part of this model. */
module SessionManager {
  import opened Base
  import opened SessionModel

  datatype Manager = Manager(sessions: seq<Session>)

  predicate InRange(m: Manager, index: int) { 0 <= index < |m.sessions| }

  /** `get_session(index)`: the session at an in-range index, `None` for
      any other index, negative ones included. */
  function GetSession(m: Manager, index: int): (r: Option<Session>)
    ensures r.Some? <==> InRange(m, index)
    ensures r.Some? ==> r.value == m.sessions[index]
  {
    if 0 <= index < |m.sessions| then Some(m.sessions[index]) else None
  }

  /** `add_session(s)`: appends and returns the new session's index. */
  function AddSession(m: Manager, s: Session): (r: (Manager, int))
    ensures r.1 == |m.sessions|
    ensures |r.0.sessions| == |m.sessions| + 1
    ensures GetSession(r.0, r.1) == Some(s)
    ensures forall i :: InRange(m, i) ==> GetSession(r.0, i) == GetSession(m, i)
  {
    (Manager(m.sessions + [s]), |m.sessions|)
  }

  /** `update_session(index, s)`: replaces exactly the element at an
      in-range index; otherwise reports failure and changes nothing. */
  function UpdateSession(m: Manager, index: int, s: Session): (r: (Manager, bool))
    ensures r.1 <==> InRange(m, index)
    ensures !r.1 ==> r.0 == m
    ensures r.1 ==> |r.0.sessions| == |m.sessions| && r.0.sessions[index] == s
    ensures r.1 ==> forall i :: 0 <= i < |m.sessions| && i != index ==> r.0.sessions[i] == m.sessions[i]
  {
    if 0 <= index < |m.sessions| then (Manager(m.sessions[index := s]), true) else (m, false)
  }

  /** `delete_session(index)`: removes the element at an in-range index and
      shifts the later ones down; otherwise reports failure and changes
      nothing. */
  function DeleteSession(m: Manager, index: int): (r: (Manager, bool))
    ensures r.1 <==> InRange(m, index)
    ensures !r.1 ==> r.0 == m
    ensures r.1 ==> |r.0.sessions| == |m.sessions| - 1
    ensures r.1 ==> forall i :: 0 <= i < index ==> r.0.sessions[i] == m.sessions[i]
    ensures r.1 ==> forall i :: index <= i < |r.0.sessions| ==> r.0.sessions[i] == m.sessions[i + 1]
  {
    if 0 <= index < |m.sessions| then (Manager(m.sessions[..index] + m.sessions[index + 1..]), true)
    else (m, false)
  }

  /** `get_all_sessions()`: a copy holding the same sessions in the same
      order; being a value, later changes to the catalog cannot reach it. */
  function GetAllSessions(m: Manager): (r: seq<Session>)
    ensures |r| == |m.sessions|
    ensures forall i :: 0 <= i < |r| ==> GetSession(m, i) == Some(r[i])
  {
    m.sessions
  }

  /** `clear_sessions()`: afterwards no index finds a session. */
  function ClearSessions(m: Manager): (r: Manager)
    ensures |r.sessions| == 0
    ensures forall i :: GetSession(r, i).None?
  {
    Manager([])
  }

  /** Deleting the session just added restores the catalog. */
  lemma AddThenDelete(m: Manager, s: Session)
    ensures var (m1, idx) := AddSession(m, s); DeleteSession(m1, idx) == (m, true)
  {
    var (m1, idx) := AddSession(m, s);
    assert m1.sessions[..idx] + m1.sessions[idx + 1..] == m.sessions;
  }
}

=== FILE: sftp_client.dfy ===
/** The path and listing logic of `mobaxterm/core/sftp_client.py`
    (`SFTPClient`): turning attributes into entries, what `list_dir` lists,
    how `change_dir` and `up_dir` pick the new directory, the directories
    `_ensure_remote_dir` creates, and the transfer counters. Every answer of
    the server (`normalize`, `stat`, `listdir`, `listdir_attr`, `put`, `get`)
    is an input. */
module SftpClient {
  import opened Base
  import opened Text
  import opened PosixPath
  import opened Listing

  /** What `listdir_attr` reports of one entry: each attribute may be
      missing (`None` here). */
  datatype Attr = Attr(filename: Option<string>, mode: Option<nat>, size: Option<int>, mtime: Option<int>)

  /** `stat.S_ISDIR`: the file-type bits `mode & 0o170000` equal `0o040000`. */
  predicate IsDirMode(mode: nat)
  {
    (mode / 0x1000) % 0x10 == 4
  }

  /** `_format_entry`: `S_ISDIR(attr.st_mode)` raises on a missing mode;
      a missing name, size or modification time becomes `''`, 0 or 0. */
  function FormatEntry(a: Attr): (r: Option<Entry>)
    ensures r.Some? <==> a.mode.Some?
    ensures r.Some? ==> r.value.isDir == IsDirMode(a.mode.value) && r.value.mode == Some(a.mode.value as int)
    ensures r.Some? ==> r.value.name == a.filename.GetOr("")
    ensures r.Some? ==> r.value.size == a.size.GetOr(0) && r.value.mtime == a.mtime.GetOr(0)
  {
    match a.mode
    case None => None
    case Some(m) => Some(Entry(a.filename.GetOr(""), IsDirMode(m), a.size.GetOr(0), a.mtime.GetOr(0), Some(m)))
  }

  /** The list comprehension over `_format_entry`: one failure fails the
      whole listing. */
  function FormatAll(attrs: seq<Attr>): (r: Option<seq<Entry>>)
    ensures r.Some? <==> forall i :: 0 <= i < |attrs| ==> attrs[i].mode.Some?
    ensures r.Some? ==> |r.value| == |attrs|
    ensures r.Some? ==> forall i :: 0 <= i < |attrs| ==> Some(r.value[i]) == FormatEntry(attrs[i])
  {
    if |attrs| == 0 then Some([])
    else match (FormatEntry(attrs[0]), FormatAll(attrs[1..]))
      case (Some(e), Some(rest)) =>
        assert forall i :: 0 < i < |attrs| ==> attrs[i] == attrs[1..][i - 1];
        Some([e] + rest)
      case (None, _) => None
      case (_, None) =>
        assert forall i :: 0 <= i < |attrs[1..]| ==> attrs[1..][i] == attrs[i + 1];
        None
  }

  /** The client's state: the connection flag, whether an SFTP channel
      exists, and the current directory. */
  datatype Client = Client(connected: bool, hasSftp: bool, currentPath: Option<string>)

  /** Python's `a or b` on optional strings. */
  function Or(a: Option<string>, b: string): (r: string)
    ensures Truthy(a) ==> r == a.value
    ensures !Truthy(a) ==> r == b
  {
    if a.Some? && a.value != "" then a.value else b
  }

  /** What one `list_dir` call did: nothing (not connected), emitted a
      listing of `target`, or reported that `target` could not be listed. */
  datatype ListOutcome = Ignored | Listed(target: string, entries: seq<Entry>) | ListFailed(target: string)

  /** `list_dir(path)`: the target is `path`, else the current directory,
      else `/`; the server's listing (`None` when `listdir_attr` raised) is
      formatted and sorted directories first. */
  function ListDir(c: Client, path: Option<string>, listing: Option<seq<Attr>>): (r: ListOutcome)
    ensures !(c.connected && c.hasSftp) <==> r == Ignored
    ensures r.Listed? || r.ListFailed? ==> r.target == Or(path, Or(c.currentPath, "/")) && r.target != ""
    ensures r.Listed? <==> c.connected && c.hasSftp && listing.Some? && FormatAll(listing.value).Some?
    ensures r.Listed? ==> Sorted(r.entries) && multiset(r.entries) == multiset(FormatAll(listing.value).value)
  {
    if !c.connected || !c.hasSftp then Ignored
    else
      var target := Or(path, Or(c.currentPath, "/"));
      match listing
      case None => ListFailed(target)
      case Some(attrs) =>
        match FormatAll(attrs)
        case None => ListFailed(target)
        case Some(entries) => Listed(target, SortListing(entries))
  }

  /** A remote listing puts every directory before every file and keeps
      every entry the server reported. */
  lemma ListDirOrder(c: Client, path: Option<string>, listing: Option<seq<Attr>>)
    requires ListDir(c, path, listing).Listed?
    ensures var es := ListDir(c, path, listing).entries;
      (forall i, j :: 0 <= i < j < |es| && es[j].isDir ==> es[i].isDir)
      && |es| == |listing.value|
      && (forall i :: 0 <= i < |listing.value| ==> FormatEntry(listing.value[i]).value in es)
  {
    var es := ListDir(c, path, listing).entries;
    var formatted := FormatAll(listing.value).value;
    DirsFirst(es);
    assert |es| == |multiset(es)| == |multiset(formatted)| == |formatted|;
    forall i | 0 <= i < |listing.value| ensures FormatEntry(listing.value[i]).value in es {
      assert formatted[i] in multiset(formatted);
    }
  }

  // ----- change_dir -----

  /** The absolute candidate `change_dir` computes before asking the
      server: an empty request means the current directory (or `/`); a
      relative one is joined to the current directory (or `/`); the result
      is `normpath`-ed. */
  function Candidate(current: Option<string>, newPath: string): (r: string)
    ensures NormPath(r) == r
    ensures (!Truthy(current) || IsAbsolute(current.value)) ==> IsAbsolute(r)
  {
    var p := if newPath == "" then Or(current, "/") else newPath;
    var base := Or(current, "/");
    var joined := if !StartsWith(p, "/") then JoinPath(base, p) else p;
    NormPathIdempotent(joined);
    JoinAbsolute(base, p);
    NormalizedAbsolute(joined);
    NormPath(joined)
  }

  lemma JoinAbsolute(base: string, p: string)
    ensures IsAbsolute(base) && !StartsWith(p, "/") ==> IsAbsolute(JoinPath(base, p))
  {
    if IsAbsolute(base) && !StartsWith(p, "/") {
      assert JoinPath(base, p)[0] == base[0];
    }
  }

  lemma NormalizedAbsolute(p: string)
    ensures IsAbsolute(p) ==> IsAbsolute(NormPath(p))
  {
    if IsAbsolute(p) {
      NormPathAbsolute(p);
    }
  }

  /** What `stat` said about the resolved path: its mode (`None` when the
      attributes carry none, which makes `S_ISDIR` raise), or that it
      raised. */
  datatype StatOutcome = StatMode(mode: Option<nat>) | StatRaised

  /** The server's answers during one `change_dir`: `normalize` (`None`
      when it raised), `stat`, whether the fallback `listdir` succeeds, and
      the listing the final `list_dir` receives. */
  datatype Server = Server(normalized: Option<string>, stat: StatOutcome, listdirOk: bool,
                           listing: Option<seq<Attr>>)

  /** The outcome of `change_dir`: the new client state, whether the
      "Cannot change directory" warning was shown, and the listing. */
  datatype Change = Change(client: Client, warned: bool, listed: ListOutcome)

  /** The directory `change_dir` settles on, or `None` when neither `stat`
      nor `listdir` accepts the path. A path that stats as a file is
      replaced by its directory (or `/`). */
  function Resolve(candidate: string, srv: Server): (r: Option<string>)
    ensures var norm := srv.normalized.GetOr(candidate);
      match srv.stat
      case StatMode(Some(m)) =>
        r.Some? && (IsDirMode(m) ==> r.value == norm)
        && (!IsDirMode(m) ==> (r.value == "/" || (|r.value| <= |norm| && r.value == norm[..|r.value|]))
                              && (IsAbsolute(norm) ==> IsAbsolute(r.value)))
      case _ => r.Some? <==> srv.listdirOk
    ensures r.Some? && srv.stat != StatMode(None) && srv.stat != StatRaised && !IsDirMode(srv.stat.mode.value) ==>
      r.value != ""
  {
    var norm := srv.normalized.GetOr(candidate);
    match srv.stat
    case StatMode(Some(m)) =>
      if IsDirMode(m) then Some(norm)
      else
        DirnameAbsolute(norm);
        var d := Dirname(norm);
        Some(if d == "" then "/" else d)
    case _ => if srv.listdirOk then Some(norm) else None
  }

  /** The directory of an absolute path is absolute. */
  lemma DirnameAbsolute(p: string)
    ensures IsAbsolute(p) ==> IsAbsolute(Dirname(p))
  {
    if IsAbsolute(p) {
      var i := AfterLastSlash(p);
      assert i >= 1;
      var head := p[..i];
      assert head[0] == '/';
      if !AllSlashes(head) {
        assert RStripChar(head, '/')[0] == head[0];
      }
    }
  }

  /** `change_dir(new_path)`. */
  function ChangeDir(c: Client, newPath: string, srv: Server): (r: Change)
    ensures !(c.connected && c.hasSftp) ==> r == Change(c, false, Ignored)
    ensures r.client.connected == c.connected && r.client.hasSftp == c.hasSftp
    ensures r.warned <==> c.connected && c.hasSftp && Resolve(Candidate(c.currentPath, newPath), srv).None?
    ensures r.warned ==> r.client == c && r.listed == Ignored
    ensures c.connected && c.hasSftp && !r.warned ==>
      var dir := Resolve(Candidate(c.currentPath, newPath), srv).value;
      r.client.currentPath == Some(dir) && r.listed == ListDir(r.client, Some(dir), srv.listing)
  {
    if !c.connected || !c.hasSftp then Change(c, false, Ignored)
    else
      var candidate := Candidate(c.currentPath, newPath);
      match Resolve(candidate, srv)
      case None => Change(c, true, Ignored)
      case Some(dir) =>
        var c' := c.(currentPath := Some(dir));
        Change(c', false, ListDir(c', Some(dir), srv.listing))
  }

  /** With an absolute current directory and a server whose `normalize`
      either raises or answers an absolute path, `change_dir` only ever
      moves to an absolute directory. */
  lemma ChangeDirStaysAbsolute(c: Client, newPath: string, srv: Server)
    requires c.connected && c.hasSftp
    requires !Truthy(c.currentPath) || IsAbsolute(c.currentPath.value)
    requires srv.normalized.None? || IsAbsolute(srv.normalized.value)
    ensures var r := ChangeDir(c, newPath, srv);
      !r.warned ==> IsAbsolute(r.client.currentPath.value)
  {
  }

  // ----- up_dir -----

  /** `os.path.dirname(path.rstrip('/')) or '/'`. */
  function UpTarget(p: string): string
  {
    var d := Parent(p);
    if d == "" then "/" else d
  }

  /** Going up from an absolute directory stays absolute and gets strictly
      shorter, except at `/`, where it stays put. */
  lemma UpTargetClimbs(p: string)
    requires IsAbsolute(p)
    ensures IsAbsolute(UpTarget(p))
    ensures p != "/" ==> |UpTarget(p)| < |p|
    ensures p == "/" ==> UpTarget(p) == "/"
  {
    ParentOfAbsolute(p);
    if p != "/" {
      ParentShorter(p);
    } else {
      assert RStripChar(p, '/') == "";
    }
  }

  /** `up_dir`: nothing without a current directory; otherwise a
      `change_dir` to its parent. */
  function UpDir(c: Client, srv: Server): (r: Change)
    ensures !Truthy(c.currentPath) ==> r == Change(c, false, Ignored)
    ensures Truthy(c.currentPath) ==> r == ChangeDir(c, UpTarget(c.currentPath.value), srv)
  {
    if !Truthy(c.currentPath) then Change(c, false, Ignored)
    else ChangeDir(c, UpTarget(c.currentPath.value), srv)
  }

  // ----- _ensure_remote_dir -----

  /** The `parts` list `_ensure_remote_dir` collects: the path, its parent,
      its grandparent, and so on, stopping at `''` or `/`. */
  function AncestorChain(p: string): (r: seq<string>)
    ensures p != "" && p != "/" ==> |r| > 0 && r[0] == p
    ensures p == "" || p == "/" ==> r == []
    decreases |p|
  {
    if p == "" || p == "/" then []
    else
      ParentShorter(p);
      [p] + AncestorChain(Parent(p))
  }

  /** The chain never holds `''` or `/`, each entry is the parent of the
      one before it and strictly shorter, so the loop ends, and it ends
      where the parent is `''` or `/`. */
  lemma {:induction false} AncestorChainShape(p: string)
    ensures var r := AncestorChain(p);
      && (forall i :: 0 <= i < |r| ==> r[i] != "" && r[i] != "/")
      && (forall i :: 0 < i < |r| ==> r[i] == Parent(r[i - 1]) && |r[i]| < |r[i - 1]|)
      && (|r| > 0 ==> Parent(r[|r| - 1]) == "" || Parent(r[|r| - 1]) == "/")
    decreases |p|
  {
    if p != "" && p != "/" {
      ParentShorter(p);
      AncestorChainShape(Parent(p));
      var t := AncestorChain(Parent(p));
      var r := AncestorChain(p);
      assert r == [p] + t;
      forall i | 0 < i < |r| ensures r[i] == Parent(r[i - 1]) && |r[i]| < |r[i - 1]| {
        assert r[i] == t[i - 1];
        if i > 1 {
          assert r[i - 1] == t[i - 2];
        }
      }
    }
  }

  lemma ChainStep(p: string, q: string)
    requires p != "" && p != "/" && q == Parent(p)
    ensures AncestorChain(p) == [p] + AncestorChain(q) && |q| < |p|
  {
    ParentShorter(p);
  }

  /** One `p = os.path.dirname(p.rstrip('/'))` step of the loop. */
  method Climb(p: string) returns (q: string)
    requires p != "" && p != "/"
    ensures q == Parent(p)
    ensures AncestorChain(p) == [p] + AncestorChain(q) && |q| < |p|
  {
    q := Parent(p);
    ChainStep(p, q);
  }

  /** The loop of `_ensure_remote_dir` as written: it collects the same
      chain. */
  method CollectParts(path: string) returns (parts: seq<string>)
    ensures parts == AncestorChain(path)
  {
    parts := [];
    var p := path;
    while p != "" && p != "/"
      invariant parts + AncestorChain(p) == AncestorChain(path)
      decreases |p|
    {
      var q := Climb(p);
      assert (parts + [p]) + AncestorChain(q) == parts + ([p] + AncestorChain(q));
      parts := parts + [p];
      p := q;
    }
    assert parts + [] == parts;
  }

  function Reverse<T>(s: seq<T>): (r: seq<T>)
    ensures |r| == |s|
    ensures forall i :: 0 <= i < |s| ==> r[i] == s[|s| - 1 - i]
  {
    if |s| == 0 then [] else Reverse(s[1..]) + [s[0]]
  }

  /** The directories `_ensure_remote_dir` visits, in order: shallowest
      first, each the parent of the next, ending with the path itself. */
  function MkdirOrder(path: string): (r: seq<string>)
    ensures forall i :: 0 <= i < |r| ==> r[i] != "" && r[i] != "/"
    ensures forall i :: 0 < i < |r| ==> r[i - 1] == Parent(r[i]) && |r[i - 1]| < |r[i]|
    ensures path != "" && path != "/" ==> |r| > 0 && r[|r| - 1] == path
  {
    var chain := AncestorChain(path);
    AncestorChainShape(path);
    ReversedChain(chain);
    Reverse(chain)
  }

  /** Reversing a child-to-parent chain gives a parent-to-child one. */
  lemma ReversedChain(chain: seq<string>)
    requires forall i :: 0 < i < |chain| ==> chain[i] == Parent(chain[i - 1]) && |chain[i]| < |chain[i - 1]|
    ensures var r := Reverse(chain);
      forall i :: 0 < i < |r| ==> r[i - 1] == Parent(r[i]) && |r[i - 1]| < |r[i]|
  {
    var r := Reverse(chain);
    forall i | 0 < i < |r| ensures r[i - 1] == Parent(r[i]) && |r[i - 1]| < |r[i]| {
      var k := |chain| - 1 - i;
      assert r[i] == chain[k];
      assert r[i - 1] == chain[k + 1];
    }
  }

  // ----- transfers -----

  /** The closing message of a batch: all items went through, or some
      failed. */
  datatype Summary = AllDone(count: nat, dir: string) | SomeFailed(count: nat, failed: nat, dir: string)

  function CountOk(oks: seq<bool>): nat
  {
    if |oks| == 0 then 0 else (if oks[0] then 1 else 0) + CountOk(oks[1..])
  }

  lemma CountOkAppend(a: seq<bool>, b: bool)
    ensures CountOk(a + [b]) == CountOk(a) + (if b then 1 else 0)
  {
    if |a| > 0 {
      assert (a + [b])[1..] == a[1..] + [b];
      CountOkAppend(a[1..], b);
    }
  }

  /** The counting loop shared by `upload_files` and `download_files`:
      each item either goes through or fails, and one failure does not
      stop the batch. */
  method CountTransfers(oks: seq<bool>) returns (done: nat, failed: nat)
    ensures done + failed == |oks|
    ensures done == CountOk(oks)
  {
    done, failed := 0, 0;
    var i := 0;
    while i < |oks|
      invariant 0 <= i <= |oks|
      invariant done + failed == i
      invariant done == CountOk(oks[..i])
    {
      CountOkAppend(oks[..i], oks[i]);
      assert oks[..i + 1] == oks[..i] + [oks[i]];
      if oks[i] {
        done := done + 1;
      } else {
        failed := failed + 1;
      }
      i := i + 1;
    }
    assert oks[..i] == oks;
  }

  /** The directory uploads go to: the normalised request (or current
      directory, or `/`) when `normalize` answers, and otherwise the current
      directory (or `/`), whatever was requested. */
  function UploadDir(c: Client, remoteDir: Option<string>, normalized: Option<string>): string
  {
    if normalized.Some? then normalized.value else Or(c.currentPath, "/")
  }

  function Summarise(done: nat, failed: nat, dir: string): (s: Summary)
    ensures s.AllDone? <==> failed == 0
  {
    if failed == 0 then AllDone(done, dir) else SomeFailed(done, failed, dir)
  }

  /** `upload_files`: nothing when not connected; otherwise each item is
      tried, the target directory is listed again, and the summary reports
      the counts. `None` means the call returned at once. */
  method UploadFiles(c: Client, oks: seq<bool>, remoteDir: Option<string>, normalized: Option<string>)
    returns (summary: Option<Summary>)
    ensures !(c.connected && c.hasSftp) <==> summary.None?
    ensures summary.Some? ==> summary.value.dir == UploadDir(c, remoteDir, normalized)
    ensures summary.Some? ==> (summary.value.AllDone? <==> CountOk(oks) == |oks|)
    ensures summary.Some? && summary.value.AllDone? ==> summary.value.count == |oks|
    ensures summary.Some? && summary.value.SomeFailed? ==>
      summary.value.count == CountOk(oks) && summary.value.count + summary.value.failed == |oks|
  {
    if !c.connected || !c.hasSftp {
      return None;
    }
    var dir := UploadDir(c, remoteDir, normalized);
    var done, failed := CountTransfers(oks);
    summary := Some(Summarise(done, failed, dir));
  }

  /** `download_files`: like an upload, reported against the local
      directory. */
  method DownloadFiles(c: Client, oks: seq<bool>, localDir: string) returns (summary: Option<Summary>)
    ensures !(c.connected && c.hasSftp) <==> summary.None?
    ensures summary.Some? ==> summary.value.dir == localDir
    ensures summary.Some? ==> (summary.value.AllDone? <==> CountOk(oks) == |oks|)
    ensures summary.Some? ==> summary.value.count == CountOk(oks)
    ensures summary.Some? && summary.value.SomeFailed? ==> summary.value.count + summary.value.failed == |oks|
  {
    if !c.connected || !c.hasSftp {
      return None;
    }
    var done, failed := CountTransfers(oks);
    summary := Some(Summarise(done, failed, localDir));
  }

  /** `disconnect`: whatever closing does, the client is no longer
      connected, so later calls are ignored. */
  function Disconnect(c: Client): (r: Client)
    ensures !r.connected
    ensures ListDir(r, None, None) == Ignored
  {
    c.(connected := false)
  }
}

=== FILE: sftp_tab.dfy ===
/** The two-pane SFTP tab of `mobaxterm/ui/sftp_tab.py`: the local pane
    lists a local directory itself, the remote pane shows what the SFTP
    client reports, and the navigation handlers turn clicks and typed paths
    into a new local directory or a request to the SFTP client. The widgets
    are reduced to what they hold: a pane is its path, whether it shows the
    `..` row, and its entries. */
module SftpTab {
  import opened Base
  import opened Text
  import opened PosixPath
  import opened Listing
  import opened SftpClient

  /** What `os.stat` reports about one local name. */
  datatype Stat = Stat(isDir: bool, size: int, mtime: int)

  /** A pane: its directory, whether the `..` row is shown, and the entry
      rows in the order they are added. */
  datatype Pane = Pane(path: string, up: bool, entries: seq<Entry>)

  /** The data a row carries: its name and whether it is a directory. The
      `..` row carries the name `..`. */
  datatype ItemData = ItemData(name: string, isDir: bool)

  /** What a remote double-click asks of the SFTP client. */
  datatype Request = NoRequest | UpRequest | ChangeRequest(path: string)

  /** A directory path the `..` row belongs to: anything but `/` and `''`. */
  predicate ShowsUp(path: string) { path != "/" && path != "" }

  // ----- local pane -----

  /** Name `i` of the listing was stat-ed, and `e` is the entry it gives. */
  predicate StatedAt(names: seq<(string, Option<Stat>)>, i: int, e: Entry)
  {
    0 <= i < |names| && names[i].0 == e.name && e.mode == None
    && names[i].1 == Some(Stat(e.isDir, e.size, e.mtime))
  }

  predicate Stated(names: seq<(string, Option<Stat>)>, e: Entry)
  {
    exists i :: 0 <= i < |names| && StatedAt(names, i, e)
  }

  /** The entries of `_list_local` before sorting: every name whose stat
      succeeds, in the order `os.listdir` gave them; a name whose stat
      raises is skipped. */
  function Kept(names: seq<(string, Option<Stat>)>): (r: seq<Entry>)
    ensures |r| <= |names|
    ensures forall e :: e in r <==> Stated(names, e)
  {
    if |names| == 0 then []
    else
      var rest := Kept(names[1..]);
      var head := match names[0].1
        case None => []
        case Some(st) => [Entry(names[0].0, st.isDir, st.size, st.mtime, None)];
      assert forall e :: Stated(names[1..], e) ==> Stated(names, e) by {
        forall e | Stated(names[1..], e) ensures Stated(names, e) {
          var i :| 0 <= i < |names[1..]| && StatedAt(names[1..], i, e);
          assert names[1..][i] == names[i + 1];
          assert StatedAt(names, i + 1, e);
        }
      }
      assert forall e :: Stated(names, e) ==> e in head || e in rest by {
        forall e | Stated(names, e) ensures e in head || e in rest {
          var i :| 0 <= i < |names| && StatedAt(names, i, e);
          if i > 0 {
            assert names[1..][i - 1] == names[i];
            assert StatedAt(names[1..], i - 1, e);
          } else {
            assert e == Entry(names[0].0, e.isDir, e.size, e.mtime, None);
            assert head == [e];
          }
        }
      }
      assert forall e :: e in head ==> StatedAt(names, 0, e);
      head + rest
  }

  /** `_list_local`: nothing when the directory cannot be listed, otherwise
      the entries that could be stat-ed, directories first, each group by
      lower-cased name. */
  function ListLocal(listing: Option<seq<(string, Option<Stat>)>>): (r: seq<Entry>)
    ensures listing.None? ==> r == []
    ensures Sorted(r)
    ensures listing.Some? ==> multiset(r) == multiset(Kept(listing.value))
    ensures listing.Some? ==> forall e :: e in r <==> Stated(listing.value, e)
  {
    match listing
    case None => []
    case Some(names) =>
      var r := SortListing(Kept(names));
      assert forall e :: e in r <==> e in multiset(r);
      assert forall e :: e in Kept(names) <==> e in multiset(Kept(names));
      r
  }

  /** `_populate_local`: the pane shows the directory, the `..` row unless
      it is `/` or empty, and the listing. */
  function PopulateLocal(path: string, listing: Option<seq<(string, Option<Stat>)>>): (p: Pane)
    ensures p.path == path
    ensures p.up <==> ShowsUp(path)
    ensures p.entries == ListLocal(listing)
  {
    Pane(path, ShowsUp(path), ListLocal(listing))
  }

  /** `on_local_up`: the parent of the directory, or `/` when the parent is
      empty. The separator is `/`, as on a POSIX system. */
  function LocalUp(path: string): (r: string)
    ensures r != ""
    ensures IsAbsolute(path) ==> IsAbsolute(r)
    ensures IsAbsolute(path) && path != "/" ==> |r| < |path|
  {
    if IsAbsolute(path) then
      UpTargetClimbs(path);
      UpTarget(path)
    else UpTarget(path)
  }

  /** `on_local_path_enter`: the stripped text becomes the directory when
      it names a directory; otherwise nothing changes. `isDir` is the file
      system's answer to `os.path.isdir`. */
  function LocalPathEnter(text: string, isDir: string -> bool): (r: Option<string>)
    ensures r.Some? <==> isDir(Strip(text))
    ensures r.Some? ==> r.value == Strip(text)
  {
    var path := Strip(text);
    if isDir(path) then Some(path) else None
  }

  /** `on_local_item_double_clicked`: the new local directory, or `None`
      when the row has no data or is a file. The `..` row goes up; a
      directory is joined to the current directory. */
  function LocalDoubleClick(path: string, data: Option<ItemData>): (r: Option<string>)
    ensures data.None? ==> r.None?
    ensures data.Some? && data.value.name == ".." ==> r == Some(LocalUp(path))
    ensures data.Some? && data.value.name != ".." ==>
      (r.Some? <==> data.value.isDir) && (r.Some? ==> r.value == JoinPath(path, data.value.name))
  {
    match data
    case None => None
    case Some(d) =>
      if d.name == ".." then Some(LocalUp(path))
      else if d.isDir then Some(JoinPath(path, d.name))
      else None
  }

  // ----- remote pane -----

  /** `set_remote_listing`: an empty or missing path shows `/`; a missing
      listing shows no entries. The entries keep the order the SFTP client
      sent. */
  function SetRemoteListing(path: Option<string>, entries: Option<seq<Entry>>): (p: Pane)
    ensures p.path != ""
    ensures Truthy(path) ==> p.path == path.value
    ensures !Truthy(path) ==> p.path == "/" && !p.up
    ensures p.up <==> ShowsUp(p.path)
    ensures p.entries == (if entries.Some? then entries.value else [])
  {
    var shown := Or(path, "/");
    Pane(shown, ShowsUp(shown), if entries.Some? then entries.value else [])
  }

  /** `on_remote_path_enter`: the stripped text is sent as a change of
      directory unless it is blank. */
  function RemotePathEnter(text: string): (r: Option<string>)
    ensures r.Some? <==> !IsBlank(text)
    ensures r.Some? ==> r.value == Strip(text) && r.value != ""
  {
    StripEmptyIffBlank(text);
    var path := Strip(text);
    if path != "" then Some(path) else None
  }

  /** The path a double-clicked remote directory is entered by: the name
      appended to the current path, with a `/` between unless the path
      already ends in one. */
  function ChildPath(path: string, name: string): (r: string)
    ensures StartsWith(r, path)
    ensures EndsWith(r, name)
    ensures |r| == |path| + |name| + (if EndsWith(path, "/") then 0 else 1)
  {
    if EndsWith(path, "/") then path + name else path + "/" + name
  }

  /** `on_remote_item_double_clicked`: nothing for a row without data or a
      file, the up request for the `..` row, and a change to the child path
      for a directory. */
  function RemoteDoubleClick(path: string, data: Option<ItemData>): (r: Request)
    ensures r == NoRequest <==> data.None? || (data.value.name != ".." && !data.value.isDir)
    ensures r == UpRequest <==> data.Some? && data.value.name == ".."
    ensures r.ChangeRequest? ==> r.path == ChildPath(path, data.value.name)
  {
    match data
    case None => NoRequest
    case Some(d) =>
      if d.name == ".." then UpRequest
      else if d.isDir then ChangeRequest(ChildPath(path, d.name))
      else NoRequest
  }

  // ----- going down and back up -----

  /** A directory path as the panes show it: not empty, and either nothing
      but slashes or not ending in one. Every `normpath` result other than
      `''` is of this shape. */
  predicate DirPath(p: string)
  {
    p != "" && (AllSlashes(p) || p[|p| - 1] != '/')
  }

  /** A name a listing can hold: not empty and without a `/`. */
  predicate PlainName(name: string)
  {
    name != "" && !Contains(name, '/')
  }

  lemma {:induction false} AfterLastSlashPlain(a: string, name: string)
    requires |a| > 0 && a[|a| - 1] == '/'
    requires !Contains(name, '/')
    ensures AfterLastSlash(a + name) == |a|
    decreases |name|
  {
    if |name| == 0 {
      assert a + name == a;
    } else {
      var shorter := name[..|name| - 1];
      assert (a + name)[..|a + name| - 1] == a + shorter;
      assert (a + name)[|a + name| - 1] == name[|name| - 1];
      assert !Contains(shorter, '/') by {
        forall k | 0 <= k < |shorter| ensures shorter[k] != '/' {
          assert shorter[k] == name[k];
        }
      }
      AfterLastSlashPlain(a, shorter);
    }
  }

  /** Double-clicking a directory and then going up returns to where the
      click was made: the parent of `ChildPath(path, name)` is `path`. */
  lemma {:induction false} UpUndoesChild(path: string, name: string)
    requires DirPath(path) && PlainName(name)
    ensures UpTarget(ChildPath(path, name)) == path
  {
    var child := ChildPath(path, name);
    assert child[|child| - 1] == name[|name| - 1];
    assert RStripChar(child, '/') == child;
    var a := if EndsWith(path, "/") then path else path + "/";
    assert child == a + name;
    AfterLastSlashPlain(a, name);
    assert child[..AfterLastSlash(child)] == a;
    if EndsWith(path, "/") {
      assert path[|path| - 1] == '/';
      assert AllSlashes(path);
      assert Dirname(child) == path;
    } else {
      assert path[|path| - 1] != '/';
      assert !AllSlashes(a);
      assert a[..|a| - 1] == path;
      assert RStripChar(a, '/') == RStripChar(path, '/') == path;
      assert Dirname(child) == path;
    }
  }

  /** The same for the local pane, whose double-click joins with
      `os.path.join` and whose up button climbs with `LocalUp`. */
  lemma LocalUpUndoesChild(path: string, name: string)
    requires DirPath(path) && PlainName(name) && name != ".."
    ensures LocalDoubleClick(path, Some(ItemData(name, true))) == Some(JoinPath(path, name))
    ensures LocalUp(JoinPath(path, name)) == path
  {
    assert !StartsWith(name, "/") by {
      assert name[0] != '/';
    }
    assert JoinPath(path, name) == ChildPath(path, name);
    UpUndoesChild(path, name);
  }
}

=== FILE: ssh_client.dfy ===
/** The shell client of `mobaxterm/core/ssh_client.py`: the line buffering
    `read_output` applies to what the shell sends, `send_command`, and
    `disconnect`. The shell channel is an input: each wait of the read loop
    meets a chunk of decoded text, nothing ready, an exception, or the
    connected flag cleared. */
module SshClient {
  import opened Base
  import opened Text

  /** The client's flags: `is_connected`, and whether `client` and `shell`
      exist. */
  datatype Client = Client(connected: bool, hasClient: bool, hasShell: bool)

  /** What one step of the buffer did: the pieces taken off the buffer with
      their terminators, the lines emitted for them, and the new buffer. */
  datatype StepOut = StepOut(raw: seq<string>, emitted: seq<string>, buffer: string)

  /** A buffer is split only once it holds a `\n` or a `\r`. */
  predicate Triggers(s: string) { Contains(s, '\n') || Contains(s, '\r') }

  /** Each emitted line is its piece with surrounding whitespace stripped. */
  function Emit(raw: seq<string>): (e: seq<string>)
    ensures |e| == |raw|
    ensures forall k :: 0 <= k < |raw| ==> e[k] == Strip(raw[k])
  {
    seq(|raw|, k requires 0 <= k < |raw| => Strip(raw[k]))
  }

  // ----- str.splitlines(True) -----

  /** The characters `str.splitlines` breaks at. */
  const LineBoundaries: set<char> :=
    {'\n', '\r', '\U{000B}', '\U{000C}', '\U{001C}', '\U{001D}', '\U{001E}',
     '\U{0085}', '\U{2028}', '\U{2029}'}

  predicate IsLineBoundary(c: char) { c in LineBoundaries }

  predicate HasLineBoundary(s: string)
  {
    exists i :: 0 <= i < |s| && IsLineBoundary(s[i])
  }

  /** A piece `splitlines(True)` can produce: not empty, and no boundary
      before its last character except the `\r` of a final `\r\n`. */
  predicate LinePiece(p: string)
  {
    |p| > 0
    && forall j {:trigger p[j]} :: 0 <= j < |p| - 1 ==>
         !IsLineBoundary(p[j]) || (j == |p| - 2 && p[j] == '\r' && p[j + 1] == '\n')
  }

  /** A piece that ends with its terminator. */
  predicate Complete(p: string)
  {
    |p| > 0 && IsLineBoundary(p[|p| - 1])
  }

  /** The end (exclusive) of the line starting at `i`, its terminator
      included; `\r\n` is one terminator. */
  function LineEnd(s: string, i: nat): (e: nat)
    requires i < |s|
    ensures i < e <= |s|
    decreases |s| - i
  {
    if s[i] == '\r' && i + 1 < |s| && s[i + 1] == '\n' then i + 2
    else if IsLineBoundary(s[i]) || i + 1 == |s| then i + 1
    else LineEnd(s, i + 1)
  }

  lemma {:induction false} LineEndPiece(s: string, i: nat)
    requires i < |s|
    ensures LinePiece(s[i..LineEnd(s, i)])
    ensures LineEnd(s, i) < |s| ==> Complete(s[i..LineEnd(s, i)])
    decreases |s| - i
  {
    var e := LineEnd(s, i);
    var p := s[i..e];
    if s[i] == '\r' && i + 1 < |s| && s[i + 1] == '\n' {
      assert p == ['\r', '\n'];
    } else if IsLineBoundary(s[i]) || i + 1 == |s| {
      assert |p| == 1;
    } else {
      LineEndPiece(s, i + 1);
      var q := s[i + 1..e];
      assert p == [s[i]] + q;
      forall j | 0 <= j < |p| - 1
        ensures !IsLineBoundary(p[j]) || (j == |p| - 2 && p[j] == '\r' && p[j + 1] == '\n')
      {
        if j > 0 {
          assert p[j] == q[j - 1] && p[j + 1] == q[j];
        }
      }
      assert p[|p| - 1] == q[|q| - 1];
    }
  }

  /** Python `s.splitlines(True)`. */
  function SplitLinesKeepEnds(s: string): (r: seq<string>)
    ensures Flatten(r) == s
    ensures |s| == 0 <==> |r| == 0
    decreases |s|
  {
    if |s| == 0 then []
    else
      var e := LineEnd(s, 0);
      assert s[..e] + s[e..] == s;
      [s[..e]] + SplitLinesKeepEnds(s[e..])
  }

  /** Every piece is a line piece, and every piece but the last is
      complete. */
  predicate Shaped(r: seq<string>)
  {
    forall k :: 0 <= k < |r| ==> LinePiece(r[k]) && (k < |r| - 1 ==> Complete(r[k]))
  }

  lemma {:induction false} SplitLinesShape(s: string)
    ensures Shaped(SplitLinesKeepEnds(s))
    decreases |s|
  {
    if |s| > 0 {
      var e := LineEnd(s, 0);
      var r := SplitLinesKeepEnds(s);
      var rest := SplitLinesKeepEnds(s[e..]);
      assert r == [s[..e]] + rest;
      LineEndPiece(s, 0);
      assert s[0..e] == s[..e];
      SplitLinesShape(s[e..]);
      forall k | 0 <= k < |r| ensures LinePiece(r[k]) && (k < |r| - 1 ==> Complete(r[k])) {
        if k > 0 {
          assert r[k] == rest[k - 1];
          assert LinePiece(rest[k - 1]) && (k - 1 < |rest| - 1 ==> Complete(rest[k - 1]));
        } else {
          assert r[0] == s[0..e];
          if k < |r| - 1 {
            assert |rest| > 0;
            assert e < |s|;
          }
        }
      }
    }
  }

  /** An incomplete line piece holds no boundary at all. */
  lemma IncompleteHasNoBoundary(p: string)
    requires LinePiece(p) && !Complete(p)
    ensures !HasLineBoundary(p)
  {
    var n := |p| - 1;
    assert !IsLineBoundary(p[n]);
    assert p[n] != '\n';
    forall j | 0 <= j < |p| ensures !IsLineBoundary(p[j]) {
      if j < n {
        assert p[j] == p[j];
      }
    }
  }

  /** Every piece is complete. */
  predicate Terminated(raw: seq<string>)
  {
    forall k :: 0 <= k < |raw| ==> Complete(raw[k])
  }

  /** All pieces of `splitlines(True)` but the last. */
  function Leading(s: string): seq<string>
    requires |s| > 0
  {
    var lines := SplitLinesKeepEnds(s);
    lines[..|lines| - 1]
  }

  /** The last piece of `splitlines(True)`. */
  function LastPiece(s: string): string
    requires |s| > 0
  {
    var lines := SplitLinesKeepEnds(s);
    lines[|lines| - 1]
  }

  /** The leading pieces are complete lines, and they and the last piece
      make up the text. */
  lemma SplitLast(s: string)
    requires |s| > 0
    ensures SplitLinesKeepEnds(s) == Leading(s) + [LastPiece(s)]
    ensures LinePiece(LastPiece(s)) && Terminated(Leading(s))
    ensures Flatten(Leading(s)) + LastPiece(s) == s
  {
    var lines := SplitLinesKeepEnds(s);
    assert lines == Leading(s) + [LastPiece(s)];
    SplitLastFlatten(Leading(s), LastPiece(s));
    SplitLastShape(s);
  }

  lemma SplitLastFlatten(raw: seq<string>, last: string)
    ensures Flatten(raw + [last]) == Flatten(raw) + last
  {
    FlattenAppend(raw, [last]);
    assert Flatten([last]) == last + Flatten<char>([]);
  }

  lemma SplitLastShape(s: string)
    requires |s| > 0
    ensures LinePiece(LastPiece(s)) && Terminated(Leading(s))
  {
    var lines := SplitLinesKeepEnds(s);
    SplitLinesShape(s);
    assert Shaped(lines);
    var raw := Leading(s);
    forall k | 0 <= k < |raw| ensures Complete(raw[k]) {
      assert raw[k] == lines[k];
    }
  }

  /** The step `read_output` takes for one non-empty chunk, as written:
      append it, and once the buffer holds `\n` or `\r`, split it with
      `splitlines(True)`, emit every piece but the last and keep the last,
      whether or not it is a complete line. An empty chunk changes
      nothing. */
  function ReadStep(buffer: string, data: string): (r: StepOut)
    ensures Flatten(r.raw) + r.buffer == buffer + data
    ensures r.emitted == Emit(r.raw)
    ensures Terminated(r.raw)
    ensures data == "" ==> r.raw == [] && r.buffer == buffer
    ensures data != "" && !Triggers(buffer + data) ==> r.raw == [] && r.buffer == buffer + data
    ensures data != "" && Triggers(buffer + data) ==>
      r.buffer != "" && r.raw + [r.buffer] == SplitLinesKeepEnds(buffer + data)
  {
    if data == "" then StepOut([], [], buffer)
    else
      var s := buffer + data;
      if !Triggers(s) then StepOut([], [], s)
      else
        SplitLast(s);
        var raw := Leading(s);
        var last := LastPiece(s);
        StepOut(raw, Emit(raw), last)
  }

  /** The step with only an unfinished line kept back: a last piece is
      emitted too when it ends a line, unless it ends in a lone `\r`, which
      may be the first half of a `\r\n` the next chunk completes. */
  function ReadStepFixed(buffer: string, data: string): (r: StepOut)
    ensures Flatten(r.raw) + r.buffer == buffer + data
    ensures r.emitted == Emit(r.raw)
    ensures Terminated(r.raw)
    ensures data == "" ==> r.raw == [] && r.buffer == buffer
    ensures data != "" && !Triggers(buffer + data) ==> r.raw == [] && r.buffer == buffer + data
    ensures data != "" && Triggers(buffer + data) ==> Settled(r.buffer)
  {
    if data == "" then StepOut([], [], buffer)
    else
      var s := buffer + data;
      if !Triggers(s) then StepOut([], [], s)
      else
        SplitLast(s);
        var raw := Leading(s);
        var last := LastPiece(s);
        if Complete(last) && last[|last| - 1] != '\r' then
          TerminatedAppend(raw, last);
          FlattenAppend(raw, [last]);
          assert Flatten([last]) == last + Flatten<char>([]);
          StepOut(raw + [last], Emit(raw + [last]), "")
        else
          LastSettled(last);
          StepOut(raw, Emit(raw), last)
  }

  /** No complete line waits in the buffer: it holds no `\n`, and a `\r`
      only as its last character. */
  predicate Settled(b: string)
  {
    !Contains(b, '\n') && forall k :: 0 <= k < |b| - 1 ==> b[k] != '\r'
  }

  lemma TerminatedAppend(raw: seq<string>, last: string)
    requires Terminated(raw) && Complete(last)
    ensures Terminated(raw + [last])
  {
    var t := raw + [last];
    assert forall k :: 0 <= k < |raw| ==> t[k] == raw[k];
  }

  /** A last piece that is kept back settles the buffer. */
  lemma LastSettled(last: string)
    requires LinePiece(last)
    requires !Complete(last) || last[|last| - 1] == '\r'
    ensures Settled(last)
  {
    var n := |last| - 1;
    assert !IsLineBoundary(last[n]) || last[n] == '\r';
    assert last[n] != '\n';
    assert forall j :: 0 <= j < n ==> !IsLineBoundary(last[j]);
    assert forall j :: 0 <= j <= n ==> last[j] != '\n';
  }

  /** Text with no line boundary in it. */
  predicate PlainText(t: string)
  {
    forall i :: 0 <= i < |t| ==> !IsLineBoundary(t[i])
  }

  /** From a position before the final `\n` of a text whose only boundary
      is that `\n`, the line runs to the end. */
  lemma {:induction false} LineEndAtNewline(s: string, i: nat)
    requires i < |s| && s[|s| - 1] == '\n'
    requires forall j :: i <= j < |s| - 1 ==> !IsLineBoundary(s[j])
    ensures LineEnd(s, i) == |s|
    decreases |s| - i
  {
    if i + 1 < |s| {
      assert !IsLineBoundary(s[i]);
      LineEndAtNewline(s, i + 1);
    }
  }

  /** A plain text and a `\n` make one piece. */
  lemma SingleLine(t: string)
    requires PlainText(t)
    ensures SplitLinesKeepEnds(t + "\n") == [t + "\n"]
  {
    var s := t + "\n";
    assert forall j :: 0 <= j < |t| ==> s[j] == t[j];
    LineEndAtNewline(s, 0);
    assert s[..|s|] == s;
    assert s[|s|..] == [];
  }

  /** As written, a complete line arriving into an empty buffer, such as
      `ls\n`, is held back: nothing is emitted and the whole line waits
      for the next chunk, which may never come. */
  lemma ReadStepWithholdsLine(t: string)
    requires PlainText(t)
    ensures ReadStep("", t + "\n") == StepOut([], [], t + "\n")
  {
    var s := t + "\n";
    assert "" + s == s;
    SingleLine(t);
    assert Triggers(s) by { assert s[|t|] == '\n'; }
  }

  /** When the last piece ends a line, and not with a lone `\r`, the
      corrected step emits every piece and empties the buffer. */
  lemma ReadStepFixedCompletes(buffer: string, data: string)
    requires data != "" && Triggers(buffer + data)
    requires var last := LastPiece(buffer + data); Complete(last) && last[|last| - 1] != '\r'
    ensures var lines := SplitLinesKeepEnds(buffer + data);
      ReadStepFixed(buffer, data) == StepOut(lines, Emit(lines), "")
  {
    SplitLast(buffer + data);
  }

  /** A plain line ended by `\n` in an empty buffer is a single complete
      piece that does not end in `\r`. */
  lemma PlainLineInEmptyBuffer(t: string)
    requires PlainText(t)
    ensures var s := t + "\n";
      && Triggers("" + s) && SplitLinesKeepEnds("" + s) == [s]
      && Complete(LastPiece("" + s)) && LastPiece("" + s)[|LastPiece("" + s)| - 1] != '\r'
  {
    var s := t + "\n";
    assert "" + s == s;
    SingleLine(t);
    assert Triggers(s) by { assert s[|t|] == '\n'; }
    assert LastPiece(s) == s;
  }

  /** The corrected step emits such a line at once. */
  lemma ReadStepFixedEmitsLine(t: string)
    requires PlainText(t)
    ensures ReadStepFixed("", t + "\n") == StepOut([t + "\n"], [Strip(t + "\n")], "")
  {
    PlainLineInEmptyBuffer(t);
    ReadStepFixedCompletes("", t + "\n");
    assert Emit([t + "\n"]) == [Strip(t + "\n")];
  }

  // ----- read loop -----

  /** What one pass of the read loop meets: a chunk of decoded text (empty
      when `recv` returned nothing), no data ready, an exception, which is
      swallowed, or `is_connected` found false, which ends the loop. */
  datatype ReadEvent = Received(data: string) | NotReady | Raised | Stopped

  /** The text the loop receives before it stops. */
  function ReceivedText(events: seq<ReadEvent>): string
  {
    if |events| == 0 || events[0] == Stopped then ""
    else (if events[0].Received? then events[0].data else "") + ReceivedText(events[1..])
  }

  /** The text an event carries: a chunk's data, or nothing. */
  function DataOf(ev: ReadEvent): string
  {
    if ev.Received? then ev.data else ""
  }

  /** One step's pieces followed by the rest of the loop's. */
  function Join(step: StepOut, rest: StepOut): StepOut
  {
    StepOut(step.raw + rest.raw, Emit(step.raw + rest.raw), rest.buffer)
  }

  /** Which line step the read loop runs: `read_output` as written, or
      with the correction that emits a complete last line at once. */
  datatype StepRule = AsWritten | Corrected

  /** One pass of the loop's line handling under either rule. */
  function Step(rule: StepRule, buffer: string, data: string): (r: StepOut)
    ensures Flatten(r.raw) + r.buffer == buffer + data
    ensures r.emitted == Emit(r.raw)
    ensures Terminated(r.raw)
  {
    if rule == AsWritten then ReadStep(buffer, data) else ReadStepFixed(buffer, data)
  }

  /** `read_output` over a run of events, with either step: every received
      character is emitted in some line or still buffered, and only
      complete lines are emitted. */
  function ReadLoop(rule: StepRule, buffer: string, events: seq<ReadEvent>): (r: StepOut)
    ensures Flatten(r.raw) + r.buffer == buffer + ReceivedText(events)
    ensures r.emitted == Emit(r.raw)
    ensures Terminated(r.raw)
    decreases |events|
  {
    if |events| == 0 || events[0] == Stopped then StepOut([], [], buffer)
    else
      var step := Step(rule, buffer, DataOf(events[0]));
      var rest := ReadLoop(rule, step.buffer, events[1..]);
      LoopJoin(buffer, DataOf(events[0]), ReceivedText(events[1..]), step, rest);
      Join(step, rest)
  }

  /** One pass of the loop on a live event. */
  lemma ReadLoopUnfold(rule: StepRule, buffer: string, events: seq<ReadEvent>)
    requires |events| > 0 && events[0] != Stopped
    ensures var step := Step(rule, buffer, DataOf(events[0]));
      ReadLoop(rule, buffer, events) == Join(step, ReadLoop(rule, step.buffer, events[1..]))
  {
  }

  /** A session whose only output is one line: the loop as written shows
      nothing and keeps the line buffered, the corrected loop shows it. */
  lemma OneLineSession(t: string)
    requires PlainText(t)
    ensures ReadLoop(AsWritten, "", [Received(t + "\n")]) == StepOut([], [], t + "\n")
    ensures ReadLoop(Corrected, "", [Received(t + "\n")]) == StepOut([t + "\n"], [Strip(t + "\n")], "")
  {
    var events := [Received(t + "\n")];
    ReadStepWithholdsLine(t);
    ReadStepFixedEmitsLine(t);
    ReadLoopUnfold(AsWritten, "", events);
    ReadLoopUnfold(Corrected, "", events);
    assert events[1..] == [];
    assert [t + "\n"] + [] == [t + "\n"];
  }

  /** One step followed by the rest of the loop loses nothing and emits
      only complete lines. */
  lemma LoopJoin(buffer: string, data: string, later: string, step: StepOut, rest: StepOut)
    requires Flatten(step.raw) + step.buffer == buffer + data && Terminated(step.raw)
    requires Flatten(rest.raw) + rest.buffer == step.buffer + later && Terminated(rest.raw)
    ensures Flatten(step.raw + rest.raw) + rest.buffer == buffer + (data + later)
    ensures Terminated(step.raw + rest.raw)
  {
    FlattenAppend(step.raw, rest.raw);
    calc {
      Flatten(step.raw + rest.raw) + rest.buffer;
      Flatten(step.raw) + (Flatten(rest.raw) + rest.buffer);
      Flatten(step.raw) + (step.buffer + later);
      (Flatten(step.raw) + step.buffer) + later;
      (buffer + data) + later;
    }
    var t := step.raw + rest.raw;
    forall k | 0 <= k < |t| ensures Complete(t[k]) {
      if k < |step.raw| {
        assert t[k] == step.raw[k];
      } else {
        assert t[k] == rest.raw[k - |step.raw|];
      }
    }
  }

  /** Nothing after the loop stops is read. */
  lemma {:induction false} ReadLoopStops(rule: StepRule, buffer: string, before: seq<ReadEvent>, after: seq<ReadEvent>)
    requires forall k :: 0 <= k < |before| ==> before[k] != Stopped
    ensures ReadLoop(rule, buffer, before + [Stopped] + after) == ReadLoop(rule, buffer, before)
    decreases |before|
  {
    var all := before + [Stopped] + after;
    if |before| == 0 {
      assert all == [Stopped] + after;
      assert all[0] == Stopped;
    } else {
      assert all[0] == before[0];
      assert all[1..] == before[1..] + [Stopped] + after;
      var step := Step(rule, buffer, DataOf(before[0]));
      ReadLoopUnfold(rule, buffer, all);
      ReadLoopUnfold(rule, buffer, before);
      ReadLoopStops(rule, step.buffer, before[1..], after);
    }
  }

  // ----- commands and disconnecting -----

  /** What `send_command` did: nothing, sent the text, or reported that
      sending raised. */
  datatype Send = NotSent | Sent(text: string) | SendError

  /** `send_command`: the command and a newline go to the shell only when
      connected and a shell exists. `sendOk` is whether the channel's
      `send` returns. */
  function SendCommand(c: Client, command: string, sendOk: bool): (r: Send)
    ensures r.Sent? <==> c.connected && c.hasShell && sendOk
    ensures r.Sent? ==> r.text == command + "\n" && r.text[..|command|] == command
    ensures r == NotSent <==> !(c.connected && c.hasShell)
  {
    if !(c.connected && c.hasShell) then NotSent
    else if sendOk then Sent(command + "\n")
    else SendError
  }

  /** `disconnect`: clears the connected flag, which ends the read loop;
      closes the SSH client when one exists; reports `Disconnected`. */
  function Disconnect(c: Client): (r: (Client, bool, string))
    ensures !r.0.connected && r.0.hasClient == c.hasClient && r.0.hasShell == c.hasShell
    ensures r.1 <==> c.hasClient
    ensures r.2 == "Disconnected"
    ensures SendCommand(r.0, "", true) == NotSent
  {
    (c.(connected := false), c.hasClient, "Disconnected")
  }
}

=== FILE: terminal2.dfy ===
/** The simpler emulated terminal of `mobaxterm/ui/terminal2.py`: output
    goes to the emulator unfiltered and is rendered on a timer, always
    padded to the screen's height. */
module Terminal2 {
  import opened Base
  import opened Text
  import opened TerminalView

  /** Whether an emulator exists (pyte imported), the document's text,
      what the emulator was fed, and the render throttle. */
  datatype Term = Term(emulator: bool, view: string, fed: seq<string>, throttle: Throttle)

  function NewTerm(emulator: bool): (t: Term)
    ensures t.view == "" && t.fed == [] && !t.throttle.pending && t.throttle.starts == 0
  {
    Term(emulator, "", [], Throttle(false, 0))
  }

  /** `feed`: without an emulator the text is appended to the document
      unchanged; with one it goes to the emulator and a render is scheduled
      unless one is pending. */
  function Feed(t: Term, data: string): (r: Term)
    ensures !t.emulator ==> r == t.(view := t.view + data)
    ensures t.emulator ==> r == t.(fed := t.fed + [data], throttle := Fed(t.throttle))
    ensures r.throttle.pending <==> t.throttle.pending || t.emulator
  {
    if !t.emulator then t.(view := t.view + data)
    else t.(fed := t.fed + [data], throttle := Fed(t.throttle))
  }

  datatype RenderOut = RenderOut(t: Term, caret: Caret)

  /** `_render`: the pending flag is cleared, the display is padded to the
      screen's height and shown, and the caret placed at the emulator's
      cursor, clamped. */
  function Render(t: Term, display: seq<string>, height: int, x: int, y: int): (r: RenderOut)
    ensures !r.t.throttle.pending && r.t.throttle.starts == t.throttle.starts
    ensures r.t.view == Show(PadTo(display, height))
    ensures r.t.fed == t.fed && r.t.emulator == t.emulator
    ensures r.caret == PlaceCaret(r.t.view, x, y)
  {
    var text := Show(PadTo(display, height));
    RenderOut(t.(view := text, throttle := Rendered(t.throttle)), PlaceCaret(text, x, y))
  }

  /** The rendered document starts with the display's lines, keeps every
      one of them, and has at least `height` blocks. */
  lemma RenderPadsNeverTruncates(t: Term, display: seq<string>, height: int, x: int, y: int)
    requires forall k :: 0 <= k < |display| ==> OneLine(display[k])
    requires |display| >= 1 || height >= 1
    ensures var blocks := Blocks(Render(t, display, height, x, y).t.view);
      |blocks| == Max(|display|, height) && blocks[..|display|] == display
      && forall k :: |display| <= k < |blocks| ==> blocks[k] == ""
  {
    var padded := PadTo(display, height);
    forall k | 0 <= k < |padded| ensures OneLine(padded[k]) {
      if k < |display| {
        assert padded[k] == padded[..|display|][k];
      } else {
        assert padded[k] == "";
      }
    }
    BlocksOfShow(padded);
  }

  /** Without an emulator the document is everything fed, in order. */
  lemma {:induction false} RawFeedAppends(t: Term, chunks: seq<string>)
    requires !t.emulator
    ensures FeedAll(t, chunks).view == t.view + Flatten(chunks)
    ensures FeedAll(t, chunks).throttle == t.throttle
    decreases |chunks|
  {
    if |chunks| > 0 {
      RawFeedAppends(Feed(t, chunks[0]), chunks[1..]);
      assert t.view + chunks[0] + Flatten(chunks[1..]) == t.view + (chunks[0] + Flatten(chunks[1..]));
    }
  }

  function FeedAll(t: Term, chunks: seq<string>): (r: Term)
    ensures r.emulator == t.emulator
    decreases |chunks|
  {
    if |chunks| == 0 then t else FeedAll(Feed(t, chunks[0]), chunks[1..])
  }

  /** With an emulator, a burst of chunks reaches it in order and starts
      the timer at most once. */
  lemma {:induction false} BurstFeedsInOrder(t: Term, chunks: seq<string>)
    requires t.emulator
    ensures FeedAll(t, chunks).fed == t.fed + chunks
    ensures FeedAll(t, chunks).throttle.starts
            == t.throttle.starts + (if |chunks| > 0 && !t.throttle.pending then 1 else 0)
    ensures |chunks| > 0 ==> FeedAll(t, chunks).throttle.pending
    decreases |chunks|
  {
    if |chunks| > 0 {
      BurstFeedsInOrder(Feed(t, chunks[0]), chunks[1..]);
      assert t.fed + [chunks[0]] + chunks[1..] == t.fed + chunks;
    }
  }
}

=== FILE: terminal_view.dfy ===
/** What the two Qt terminals (`mobaxterm/ui/moba_terminal.py` and
    `mobaxterm/ui/terminal2.py`) share: the emulator's screen lines are
    shown as a plain-text document, the caret is clamped into it, and a
    single-shot timer coalesces bursts of output into one render. The
    document is reduced to its text; its blocks are the text's
    newline-separated lines. */
module TerminalView {
  import opened Base
  import opened Text

  /** The blocks of a plain-text document. An empty document has one empty
      block. */
  function Blocks(text: string): (r: seq<string>)
    ensures |r| >= 1
    ensures forall k :: 0 <= k < |r| ==> !Contains(r[k], '\n')
  {
    SplitOn(text, '\n')
  }

  /** `setPlainText("\n".join(lines))`. */
  function Show(lines: seq<string>): string
  {
    Join(lines, "\n")
  }

  /** A line as a screen shows it: without a newline. */
  predicate OneLine(line: string) { !Contains(line, '\n') }

  /** Showing lines and reading the document's blocks back gives the same
      lines. */
  lemma BlocksOfShow(lines: seq<string>)
    requires |lines| >= 1
    requires forall k :: 0 <= k < |lines| ==> OneLine(lines[k])
    ensures Blocks(Show(lines)) == lines
  {
    assert "\n" == ['\n'];
    SplitJoin(lines, '\n');
  }

  /** Reading a document's blocks and showing them again gives the same
      text. */
  lemma ShowOfBlocks(text: string)
    ensures Show(Blocks(text)) == text
  {
    assert "\n" == ['\n'];
    JoinSplit(text, '\n');
  }

  /** Empty lines appended up to `height`; never truncated. */
  function PadTo(lines: seq<string>, height: int): (r: seq<string>)
    ensures |r| == Max(|lines|, height)
    ensures r[..|lines|] == lines
    ensures forall k :: |lines| <= k < |r| ==> r[k] == ""
  {
    if |lines| < height then lines + seq(height - |lines|, _ => "") else lines
  }

  /** Trailing lines that are empty after `strip()` removed, one at a time
      from the end. */
  function TrimBlankTail(lines: seq<string>): (r: seq<string>)
    ensures |r| <= |lines| && r == lines[..|r|]
    ensures |r| > 0 ==> !IsBlank(r[|r| - 1])
    ensures forall k :: |r| <= k < |lines| ==> IsBlank(lines[k])
    decreases |lines|
  {
    if |lines| > 0 && IsBlank(lines[|lines| - 1]) then TrimBlankTail(lines[..|lines| - 1]) else lines
  }

  /** The three facts `TrimBlankTail` ensures determine its result: it is
      the longest prefix not ending in a blank line after which only blank
      lines follow. */
  lemma {:induction false} TrimBlankTailUnique(lines: seq<string>, n: nat)
    requires n <= |lines|
    requires n > 0 ==> !IsBlank(lines[n - 1])
    requires forall k :: n <= k < |lines| ==> IsBlank(lines[k])
    ensures TrimBlankTail(lines) == lines[..n]
    decreases |lines|
  {
    if |lines| > n {
      var shorter := lines[..|lines| - 1];
      assert IsBlank(lines[|lines| - 1]);
      assert forall k :: n <= k < |shorter| ==> IsBlank(shorter[k]);
      TrimBlankTailUnique(shorter, n);
      assert shorter[..n] == lines[..n];
    } else {
      assert lines[..n] == lines;
    }
  }

  /** Blank lines appended to a text do not survive the trim, and the trim
      is idempotent. */
  lemma TrimIgnoresBlankTail(lines: seq<string>, blanks: seq<string>)
    requires forall k :: 0 <= k < |blanks| ==> IsBlank(blanks[k])
    ensures TrimBlankTail(lines + blanks) == TrimBlankTail(lines)
    ensures TrimBlankTail(TrimBlankTail(lines)) == TrimBlankTail(lines)
  {
    var t := TrimBlankTail(lines);
    assert (lines + blanks)[..|lines|] == lines;
    assert t == (lines + blanks)[..|t|];
    TrimBlankTailUnique(lines + blanks, |t|);
    TrimBlankTailUnique(t, |t|);
  }

  /** The caret as a block number and a column within the block. */
  datatype Caret = Caret(row: nat, col: nat)

  /** The caret after a render: the emulator's cursor row clamped to the
      document's blocks, and its column to the chosen block's length. */
  function PlaceCaret(text: string, x: int, y: int): (c: Caret)
    ensures c.row < |Blocks(text)| && c.col <= |Blocks(text)[c.row]|
    ensures 0 <= y < |Blocks(text)| ==> c.row == y
    ensures y < 0 ==> c.row == 0
    ensures y >= |Blocks(text)| ==> c.row == |Blocks(text)| - 1
    ensures 0 <= x <= |Blocks(text)[c.row]| ==> c.col == x
    ensures x < 0 ==> c.col == 0
    ensures x > |Blocks(text)[c.row]| ==> c.col == |Blocks(text)[c.row]|
  {
    var blocks := Blocks(text);
    var row := Clamp(y, 0, |blocks| - 1);
    Caret(row, Clamp(x, 0, |blocks[row]|))
  }

  /** The render throttle: whether a render is pending, and how often the
      single-shot timer has been started. */
  datatype Throttle = Throttle(pending: bool, starts: nat)

  /** Output arrived: the timer starts only when no render is pending. */
  function Fed(t: Throttle): (r: Throttle)
    ensures r.pending
    ensures r.starts == t.starts + (if t.pending then 0 else 1)
  {
    if t.pending then t else Throttle(true, t.starts + 1)
  }

  /** The timer fired and the screen was rendered. */
  function Rendered(t: Throttle): (r: Throttle)
    ensures !r.pending && r.starts == t.starts
  {
    t.(pending := false)
  }

  datatype ViewEvent = Output | TimerFired

  function Run(t: Throttle, events: seq<ViewEvent>): (r: Throttle)
    ensures r.starts >= t.starts
    decreases |events|
  {
    if |events| == 0 then t
    else Run(if events[0] == Output then Fed(t) else Rendered(t), events[1..])
  }

  function Renders(events: seq<ViewEvent>): nat
  {
    if |events| == 0 then 0 else (if events[0] == TimerFired then 1 else 0) + Renders(events[1..])
  }

  /** However much output arrives, the timer is started at most once more
      than it fires: one render per burst. */
  lemma {:induction false} StartsBoundedByRenders(t: Throttle, events: seq<ViewEvent>)
    ensures Run(t, events).starts + (if Run(t, events).pending then 0 else 1)
            <= t.starts + Renders(events) + (if t.pending then 0 else 1)
    decreases |events|
  {
    if |events| > 0 {
      var next := if events[0] == Output then Fed(t) else Rendered(t);
      StartsBoundedByRenders(next, events[1..]);
    }
  }

  /** A burst of output with no render in between starts the timer exactly
      once if none was pending, and not at all otherwise. */
  lemma {:induction false} BurstStartsOnce(t: Throttle, n: nat)
    ensures Run(t, seq(n, _ => Output)).starts
            == t.starts + (if n > 0 && !t.pending then 1 else 0)
    ensures n > 0 ==> Run(t, seq(n, _ => Output)).pending
    decreases n
  {
    if n > 0 {
      var events := seq(n, _ => Output);
      assert events[0] == Output;
      assert events[1..] == seq(n - 1, _ => Output);
      BurstStartsOnce(Fed(t), n - 1);
    }
  }
}

=== FILE: text.dfy ===
/** Python and JavaScript string operations the models rely on: whitespace
    stripping, ASCII case folding, prefix tests, `split`/`join` on one
    separator. */
module Text {
  import opened Base

  /** The characters Python's `str.isspace` (and so `str.strip()` with no
      argument) treats as whitespace. */
  predicate IsSpace(c: char)
  {
    c == ' ' || c == '\t' || c == '\n' || c == '\r' || c == '\U{000B}' || c == '\U{000C}'
    || ('\U{001C}' <= c <= '\U{001F}')
    || c == '\U{0085}' || c == '\U{00A0}' || c == '\U{1680}'
    || ('\U{2000}' <= c <= '\U{200A}')
    || c == '\U{2028}' || c == '\U{2029}' || c == '\U{202F}' || c == '\U{205F}' || c == '\U{3000}'
  }

  /** True when every character is whitespace (Python `not s.strip()`). */
  predicate IsBlank(s: string)
  {
    forall i :: 0 <= i < |s| ==> IsSpace(s[i])
  }

  function LStrip(s: string): (r: string)
    ensures |r| <= |s| && r == s[|s| - |r|..]
    ensures |r| > 0 ==> !IsSpace(r[0])
    ensures IsBlank(s[..|s| - |r|])
    decreases |s|
  {
    if |s| > 0 && IsSpace(s[0]) then LStrip(s[1..]) else s
  }

  function RStrip(s: string): (r: string)
    ensures |r| <= |s| && r == s[..|r|]
    ensures |r| > 0 ==> !IsSpace(r[|r| - 1])
    ensures IsBlank(s[|r|..])
    decreases |s|
  {
    if |s| > 0 && IsSpace(s[|s| - 1]) then RStrip(s[..|s| - 1]) else s
  }

  /** Python `s.strip()`. */
  function Strip(s: string): string
  {
    RStrip(LStrip(s))
  }

  /** Where the stripped text starts inside the original. */
  function StripStart(s: string): nat
    ensures StripStart(s) <= |s|
  {
    |s| - |LStrip(s)|
  }

  /** `Strip` removes whitespace from both ends and nothing else: the result
      is a slice of the input, everything cut away is whitespace, and the
      result neither starts nor ends with whitespace. */
  lemma StripSpec(s: string)
    ensures StripStart(s) + |Strip(s)| <= |s|
    ensures Strip(s) == s[StripStart(s)..StripStart(s) + |Strip(s)|]
    ensures IsBlank(s[..StripStart(s)])
    ensures IsBlank(s[StripStart(s) + |Strip(s)|..])
    ensures |Strip(s)| > 0 ==> !IsSpace(Strip(s)[0]) && !IsSpace(Strip(s)[|Strip(s)| - 1])
  {
    StripSlice(s);
    StripEnds(s);
  }

  /** The stripped text sits at `StripStart(s)` and is followed by blanks. */
  lemma StripSlice(s: string)
    ensures StripStart(s) + |Strip(s)| <= |s|
    ensures Strip(s) == s[StripStart(s)..StripStart(s) + |Strip(s)|]
    ensures IsBlank(s[StripStart(s) + |Strip(s)|..])
  {
    var l := LStrip(s);
    var r := RStrip(l);
    var i := StripStart(s);
    SliceOfSuffix(s, i, l, r);
    assert Strip(s) == r;
    assert IsBlank(l[|r|..]);
  }

  /** A prefix of a suffix is a slice, and what follows it in the suffix
      is what follows it in the whole. */
  lemma SliceOfSuffix(s: string, i: nat, l: string, r: string)
    requires i <= |s| && l == s[i..] && |r| <= |l| && r == l[..|r|]
    ensures i + |r| <= |s| && r == s[i..i + |r|] && s[i + |r|..] == l[|r|..]
  {
  }

  /** The stripped text neither starts nor ends with whitespace. */
  lemma StripEnds(s: string)
    ensures |Strip(s)| > 0 ==> !IsSpace(Strip(s)[0]) && !IsSpace(Strip(s)[|Strip(s)| - 1])
  {
    var l := LStrip(s);
    var r := RStrip(l);
    if |r| > 0 {
      assert r[0] == l[0];
    }
  }

  /** A string is blank exactly when stripping it leaves nothing. */
  lemma StripEmptyIffBlank(s: string)
    ensures Strip(s) == "" <==> IsBlank(s)
  {
    var l := LStrip(s);
    if Strip(s) == "" {
      assert s[..|s| - |l|] == s;
    } else {
      StripSpec(s);
      var r := Strip(s);
      var i := StripStart(s);
      assert s[i] == r[0];
    }
  }

  /** Stripping a string with no whitespace at either end changes nothing. */
  lemma StripNoop(s: string)
    requires |s| > 0 ==> !IsSpace(s[0]) && !IsSpace(s[|s| - 1])
    ensures Strip(s) == s
  {
  }

  /** A trailing space is stripped away. */
  lemma StripTrailingSpace(w: string)
    requires |w| > 0 && !IsSpace(w[0]) && !IsSpace(w[|w| - 1])
    ensures Strip(w + " ") == w
  {
    assert (w + " ")[0] == w[0];
    assert LStrip(w + " ") == w + " ";
    assert (w + " ")[..|w|] == w;
    assert RStrip(w) == w;
  }

  /** One space on each side of a word is stripped away. */
  lemma StripPadded(w: string)
    requires |w| > 0 && !IsSpace(w[0]) && !IsSpace(w[|w| - 1])
    ensures Strip(" " + w + " ") == w && !IsBlank(" " + w + " ")
  {
    var s := " " + w + " ";
    assert s[1..] == w + " ";
    assert LStrip(w + " ") == w + " ";
    assert (w + " ")[..|w|] == w;
    assert RStrip(w) == w;
    assert s[1] == w[0];
  }

  /** Python `str.lower()` restricted to ASCII letters. */
  function LowerChar(c: char): char
  {
    if 'A' <= c <= 'Z' then (c as int + 32) as char else c
  }

  function Lower(s: string): (r: string)
    ensures |r| == |s|
    ensures forall i :: 0 <= i < |s| ==> r[i] == LowerChar(s[i])
  {
    seq(|s|, i requires 0 <= i < |s| => LowerChar(s[i]))
  }

  predicate StartsWith(s: string, p: string)
  {
    |p| <= |s| && s[..|p|] == p
  }

  predicate EndsWith(s: string, p: string)
  {
    |p| <= |s| && s[|s| - |p|..] == p
  }

  predicate Contains(s: string, c: char)
  {
    exists i :: 0 <= i < |s| && s[i] == c
  }

  /** Python `sep.join(parts)`. */
  function Join(parts: seq<string>, sep: string): string
  {
    if |parts| == 0 then ""
    else if |parts| == 1 then parts[0]
    else parts[0] + sep + Join(parts[1..], sep)
  }

  /** Python `s.split(c)` for a one-character separator: always at least one
      piece, and no piece contains the separator. */
  function SplitOn(s: string, c: char): (r: seq<string>)
    ensures |r| >= 1
    ensures forall k :: 0 <= k < |r| ==> !Contains(r[k], c)
    decreases |s|
  {
    if |s| == 0 then [""]
    else
      var rest := SplitOn(s[1..], c);
      if s[0] == c then [""] + rest
      else
        assert !Contains(rest[0], c);
        [[s[0]] + rest[0]] + rest[1..]
  }

  /** One step of the split: a separator starts a new piece, any other
      character joins the first piece of the rest. */
  lemma SplitOnCons(x: char, t: string, c: char)
    ensures SplitOn([x] + t, c)
            == if x == c then [""] + SplitOn(t, c) else [[x] + SplitOn(t, c)[0]] + SplitOn(t, c)[1..]
  {
    assert ([x] + t)[1..] == t;
  }

  /** Joining the pieces of a split with the separator restores the string. */
  lemma {:induction false} JoinSplit(s: string, c: char)
    ensures Join(SplitOn(s, c), [c]) == s
    decreases |s|
  {
    if |s| > 0 {
      var rest := SplitOn(s[1..], c);
      JoinSplit(s[1..], c);
      if s[0] == c {
        assert s == [c] + s[1..];
      } else {
        var r := SplitOn(s, c);
        assert r == [[s[0]] + rest[0]] + rest[1..];
        if |rest| == 1 {
          assert s == [s[0]] + rest[0];
        } else {
          assert r[1..] == rest[1..];
          assert Join(rest, [c]) == rest[0] + [c] + Join(rest[1..], [c]);
          assert s == [s[0]] + s[1..];
        }
      }
    }
  }

  /** A string without `c` has no `c` after its first character either. */
  lemma NotContainsTail(a: string, c: char)
    requires |a| > 0 && !Contains(a, c)
    ensures a[0] != c && !Contains(a[1..], c)
  {
    forall i | 0 <= i < |a[1..]| ensures a[1..][i] != c {
      assert a[1..][i] == a[i + 1];
    }
  }

  lemma {:induction false} SplitNoSep(a: string, c: char)
    requires !Contains(a, c)
    ensures SplitOn(a, c) == [a]
    decreases |a|
  {
    if |a| > 0 {
      NotContainsTail(a, c);
      SplitNoSep(a[1..], c);
      assert [a[0]] + a[1..] == a;
    }
  }

  lemma {:induction false} SplitAfterPiece(a: string, c: char, b: string)
    requires !Contains(a, c)
    ensures SplitOn(a + [c] + b, c) == [a] + SplitOn(b, c)
    decreases |a|
  {
    if |a| == 0 {
      assert a + [c] + b == [c] + b;
      assert ([c] + b)[1..] == b;
    } else {
      NotContainsTail(a, c);
      SplitAfterPiece(a[1..], c, b);
      assert (a + [c] + b)[1..] == a[1..] + [c] + b;
      assert [a[0]] + a[1..] == a;
    }
  }

  /** Splitting a join of separator-free pieces gives back the pieces. */
  lemma {:induction false} SplitJoin(parts: seq<string>, c: char)
    requires |parts| >= 1
    requires forall k :: 0 <= k < |parts| ==> !Contains(parts[k], c)
    ensures SplitOn(Join(parts, [c]), c) == parts
    decreases |parts|
  {
    if |parts| == 1 {
      SplitNoSep(parts[0], c);
    } else {
      SplitJoin(parts[1..], c);
      SplitAfterPiece(parts[0], c, Join(parts[1..], [c]));
      assert [parts[0]] + parts[1..] == parts;
    }
  }

  /** Python `s.rstrip(c)`: drop every trailing `c`. */
  function RStripChar(s: string, c: char): (r: string)
    ensures |r| <= |s| && r == s[..|r|]
    ensures |r| > 0 ==> r[|r| - 1] != c
    ensures forall i :: |r| <= i < |s| ==> s[i] == c
    decreases |s|
  {
    if |s| > 0 && s[|s| - 1] == c then RStripChar(s[..|s| - 1], c) else s
  }
}

=== FILE: tunnel_forward.dfy ===
/** One port forward of `mobaxterm/core/tunneling.py` (`PortForward`): the
    forwarding rule, the resources it holds, its idempotent `stop()`
    release sequence, and the SSH connect arguments built from a session.
    Threads are not modelled; the thread join inside `stop()` is left out. */
module TunnelForward {
  import opened Base
  import opened SessionModel

  /** `'Local'` is `ssh -L` (this process listens), `'Remote'` is `ssh -R`
      (the server listens). */
  datatype Kind = Local | Remote

  /** The life of one owned resource: never acquired, open, or closed. A
      `close()` of an already closed resource changes nothing. */
  datatype Res = Absent | Open | Closed {
    function Close(): Res { if this == Open then Closed else this }
  }

  /** A forward's rule and resource flags: the stop event, the SSH client,
      its transport, the local listening socket (Local only), the
      server-side port registration (Remote only), and the started flag. */
  datatype Forward = Forward(
    kind: Kind,
    sessionIndex: int,
    bindHost: string,
    bindPort: int,
    targetHost: string,
    targetPort: int,
    stopFlag: bool,
    client: Res,
    transport: bool,
    listener: Res,
    remoteBind: Res,
    startedOk: bool)

  /** The constructor: nothing acquired, not stopped, not started. */
  function NewForward(kind: Kind, sessionIndex: int, bindHost: string, bindPort: int,
                      targetHost: string, targetPort: int): (f: Forward)
    ensures WellFormed(f) && !f.stopFlag && !f.startedOk
    ensures f.client == Absent && f.listener == Absent && f.remoteBind == Absent && !f.transport
  {
    Forward(kind, sessionIndex, bindHost, bindPort, targetHost, targetPort,
            false, Absent, false, Absent, Absent, false)
  }

  /** The resource shape the runner maintains: a transport only comes from
      a client, a listener only on Local forwards, a server registration
      only on Remote forwards that have a transport. */
  ghost predicate WellFormed(f: Forward)
  {
    && (f.transport ==> f.client != Absent)
    && (f.listener != Absent ==> f.kind == Local)
    && (f.remoteBind != Absent ==> f.kind == Remote && f.transport)
  }

  predicate NothingOpen(f: Forward)
  {
    f.client != Open && f.listener != Open && f.remoteBind != Open
  }

  /** The calls `stop()` makes, in order. */
  datatype Release = CancelRemoteForward(host: string, port: int) | CloseListener | CloseClient

  /** True when `calls` keeps the order cancel, listener, client. */
  predicate ReleaseOrder(calls: seq<Release>)
  {
    forall i, j :: 0 <= i < j < |calls| ==> Rank(calls[i]) < Rank(calls[j])
  }

  function Rank(c: Release): nat
  {
    match c
    case CancelRemoteForward(_, _) => 0
    case CloseListener => 1
    case CloseClient => 2
  }

  /** `PortForward.stop()`: sets the stop flag, cancels the server-side
      registration of a Remote forward that has a transport, closes the
      listener if there is one, then closes the client if there is one.
      Every failure inside is swallowed, so it never fails. */
  function Stop(f: Forward): (r: (Forward, seq<Release>))
    ensures r.0.stopFlag
    ensures WellFormed(f) ==> WellFormed(r.0) && NothingOpen(r.0)
    ensures r.0.kind == f.kind && r.0.bindHost == f.bindHost && r.0.bindPort == f.bindPort
    ensures r.0.targetHost == f.targetHost && r.0.targetPort == f.targetPort
    ensures r.0.sessionIndex == f.sessionIndex && r.0.startedOk == f.startedOk
    ensures r.0.transport == f.transport
    ensures CancelRemoteForward(f.bindHost, f.bindPort) in r.1 <==> f.kind == Remote && f.transport
    ensures CloseListener in r.1 <==> f.listener != Absent
    ensures CloseClient in r.1 <==> f.client != Absent
    ensures ReleaseOrder(r.1)
  {
    var cancel := if f.kind == Remote && f.transport then [CancelRemoteForward(f.bindHost, f.bindPort)] else [];
    var listen := if f.listener != Absent then [CloseListener] else [];
    var client := if f.client != Absent then [CloseClient] else [];
    var f' := f.(
      stopFlag := true,
      remoteBind := if f.kind == Remote && f.transport then f.remoteBind.Close() else f.remoteBind,
      listener := f.listener.Close(),
      client := f.client.Close());
    (f', cancel + listen + client)
  }

  /** Stopping twice is harmless: the second call leaves the forward as the
      first left it, and every call it makes targets something already
      released. */
  lemma StopIdempotent(f: Forward)
    requires WellFormed(f)
    ensures Stop(Stop(f).0).0 == Stop(f).0
    ensures var g := Stop(f).0;
      (CloseListener in Stop(g).1 ==> g.listener == Closed)
      && (CloseClient in Stop(g).1 ==> g.client == Closed)
  {
  }

  // ----- `_connect` -----

  /** A keyword-argument value passed to `SSHClient.connect`. */
  datatype Arg = AStr(s: string) | AInt(n: int) | ABool(b: bool) | ANone

  function OptArg(o: Option<string>): Arg
  {
    match o
    case Some(v) => AStr(v)
    case None => ANone
  }

  /** The arguments `_connect` passes to `SSHClient.connect`. Key
      authentication sends the key path and passphrase and lets paramiko
      use the agent and key files; anything else sends a password and turns
      both off. `Session` declares no password, so `getattr` always yields
      `None` there. */
  function ConnectKwargs(s: Session): (k: map<string, Arg>)
    ensures s.authMethod == "key" ==> k.Keys == {"hostname", "port", "username", "timeout",
      "key_filename", "passphrase", "allow_agent", "look_for_keys"}
    ensures s.authMethod != "key" ==> k.Keys == {"hostname", "port", "username", "timeout",
      "password", "allow_agent", "look_for_keys"}
    ensures k["hostname"] == AStr(s.host) && k["port"] == AInt(s.port)
    ensures k["username"] == OptArg(s.username) && k["timeout"] == AInt(10)
    ensures k["allow_agent"] == ABool(s.authMethod == "key")
    ensures k["look_for_keys"] == ABool(s.authMethod == "key")
    ensures s.authMethod == "key" <==> "key_filename" in k
    ensures s.authMethod == "key" <==> "passphrase" in k
    ensures s.authMethod == "key" <==> "password" !in k
    ensures s.authMethod == "key" ==> k["key_filename"] == OptArg(s.privateKeyPath)
    ensures s.authMethod == "key" ==> k["passphrase"] == OptArg(s.privateKeyPassphrase)
    ensures "password" in k ==> k["password"] == ANone
  {
    var base := map[
      "hostname" := AStr(s.host),
      "port" := AInt(s.port),
      "username" := OptArg(s.username),
      "timeout" := AInt(10)];
    if s.authMethod == "key" then
      base["key_filename" := OptArg(s.privateKeyPath)]["passphrase" := OptArg(s.privateKeyPassphrase)]
          ["allow_agent" := ABool(true)]["look_for_keys" := ABool(true)]
    else
      base["password" := ANone]["allow_agent" := ABool(false)]["look_for_keys" := ABool(false)]
  }
}

=== FILE: tunnel_registry.dfy ===
/** The forward registry of `mobaxterm/core/tunneling.py`
    (`PortForwardManager`): a dictionary from forward id to forward, kept in
    insertion order as a Python `dict` is, with register, stop and list
    operations. The lock only serialises these operations; each is modelled
    as one atomic step. */
module TunnelRegistry {
  import opened Base
  import opened Numbers
  import opened TunnelForward

  /** The registry: `order` lists the ids in insertion order and `entries`
      maps each id to its forward. */
  datatype Registry = Registry(order: seq<string>, entries: map<string, Forward>)

  /** `order` lists every key exactly once. */
  ghost predicate Valid(r: Registry)
  {
    && (forall i, j :: 0 <= i < j < |r.order| ==> r.order[i] != r.order[j])
    && (forall id :: id in r.entries <==> id in r.order)
  }

  function EmptyRegistry(): (r: Registry)
    ensures Valid(r) && |r.entries| == 0
  {
    Registry([], map[])
  }

  /** The forward id: `L` or `R`, the session index, both endpoints and the
      start time in milliseconds, each written as `str()` writes it. */
  function ForwardId(kind: Kind, sessionIndex: int, bindHost: string, bindPort: int,
                     targetHost: string, targetPort: int, millis: nat): (id: string)
    ensures |id| > 2
    ensures kind == Local ==> id[..2] == "L:"
    ensures kind == Remote ==> id[..2] == "R:"
    ensures var t := ":" + DecimalString(millis); |t| <= |id| && id[|id| - |t|..] == t
  {
    var t := RuleText(kind, sessionIndex, bindHost, bindPort, targetHost, targetPort);
    var stamp := ":" + DecimalString(millis);
    var id := t + stamp;
    assert id[..2] == t[..2];
    assert id[|id| - |stamp|..] == stamp;
    id
  }

  /** Everything of a forward id before the timestamp. */
  function RuleText(kind: Kind, sessionIndex: int, bindHost: string, bindPort: int,
                    targetHost: string, targetPort: int): (t: string)
    ensures |t| >= 2 && t[..2] == KindTag(kind)
  {
    var rest := DecimalString(sessionIndex) + ":" + bindHost + ":" + DecimalString(bindPort)
      + "->" + targetHost + ":" + DecimalString(targetPort);
    var t := KindTag(kind) + rest;
    assert t[..2] == KindTag(kind);
    t
  }

  function KindTag(kind: Kind): string
  {
    if kind == Local then "L:" else "R:"
  }

  /** Two starts of the same rule receive the same id only when they fall in
      the same millisecond; ids of Local and Remote forwards never collide. */
  lemma ForwardIdDistinct(kind: Kind, sessionIndex: int, bindHost: string, bindPort: int,
                          targetHost: string, targetPort: int, m1: nat, m2: nat, other: Kind)
    ensures (ForwardId(kind, sessionIndex, bindHost, bindPort, targetHost, targetPort, m1)
             == ForwardId(kind, sessionIndex, bindHost, bindPort, targetHost, targetPort, m2)) <==> m1 == m2
    ensures other != kind ==>
      ForwardId(kind, sessionIndex, bindHost, bindPort, targetHost, targetPort, m1)
      != ForwardId(other, sessionIndex, bindHost, bindPort, targetHost, targetPort, m2)
  {
    var t := RuleText(kind, sessionIndex, bindHost, bindPort, targetHost, targetPort);
    StampsDiffer(t, m1, m2);
    if other != kind {
      var a := ForwardId(kind, sessionIndex, bindHost, bindPort, targetHost, targetPort, m1);
      var c := ForwardId(other, sessionIndex, bindHost, bindPort, targetHost, targetPort, m2);
      assert a[..2][0] == a[0] && c[..2][0] == c[0];
    }
  }

  /** Text followed by two timestamps is equal only for equal timestamps. */
  lemma StampsDiffer(t: string, m1: nat, m2: nat)
    ensures t + (":" + DecimalString(m1)) == t + (":" + DecimalString(m2)) <==> m1 == m2
  {
    var u := ":" + DecimalString(m1);
    var v := ":" + DecimalString(m2);
    if t + u == t + v {
      SamePrefixSameRest(t, u, v);
      assert DecimalString(m1) == u[1..] == v[1..] == DecimalString(m2);
      DecimalInjective(m1, m2);
    }
  }

  /** Equal strings with a common front agree after it. */
  lemma SamePrefixSameRest(t: string, u: string, v: string)
    requires t + u == t + v
    ensures u == v
  {
    assert u == (t + u)[|t|..];
    assert v == (t + v)[|t|..];
  }

  /** `_register`: a new id is appended; an existing id keeps its place and
      its forward is replaced. */
  function Register(r: Registry, id: string, f: Forward): (r': Registry)
    requires Valid(r)
    ensures Valid(r')
    ensures r'.entries == r.entries[id := f]
    ensures id in r.entries ==> r'.order == r.order
    ensures id !in r.entries ==> r'.order == r.order + [id]
  {
    if id in r.entries then Registry(r.order, r.entries[id := f])
    else Registry(r.order + [id], r.entries[id := f])
  }

  /** The order with one id taken out, as `dict.pop` leaves it. */
  function RemoveId(order: seq<string>, id: string): (r: seq<string>)
    ensures forall x :: x in r <==> x in order && x != id
    ensures |r| <= |order|
  {
    if |order| == 0 then []
    else if order[0] == id then RemoveId(order[1..], id)
    else [order[0]] + RemoveId(order[1..], id)
  }

  /** Removing an id from a duplicate-free order keeps every other id in its
      relative place and the order duplicate-free. */
  lemma {:induction false} RemoveIdOrder(order: seq<string>, id: string)
    requires forall i, j :: 0 <= i < j < |order| ==> order[i] != order[j]
    ensures var r := RemoveId(order, id);
      forall i, j :: 0 <= i < j < |r| ==> r[i] != r[j]
    ensures id in order ==> |RemoveId(order, id)| == |order| - 1
    ensures id !in order ==> RemoveId(order, id) == order
  {
    if |order| > 0 {
      RemoveIdOrder(order[1..], id);
      if order[0] != id {
        var r := RemoveId(order, id);
        var t := RemoveId(order[1..], id);
        assert r == [order[0]] + t;
        HeadNotInTail(order);
        assert order[0] !in t;
        forall i, j | 0 <= i < j < |r| ensures r[i] != r[j] {
          if i == 0 {
            assert r[j] == t[j - 1];
          } else {
            assert r[i] == t[i - 1] && r[j] == t[j - 1];
          }
        }
      } else {
        HeadNotInTail(order);
      }
    }
  }

  lemma HeadNotInTail(xs: seq<string>)
    requires |xs| > 0
    requires forall i, j :: 0 <= i < j < |xs| ==> xs[i] != xs[j]
    ensures xs[0] !in xs[1..]
  {
    forall k | 0 <= k < |xs| - 1 ensures xs[1..][k] != xs[0] {
      assert xs[1..][k] == xs[k + 1];
    }
  }

  /** `stop_forward(forward_id)`: an unknown id answers false and changes
      nothing; a known id has its forward stopped, is removed, and answers
      true, returning the stopped forward and the release calls `stop()`
      made. A forward object is always truthy, so every registered id takes
      the second path. */
  function StopForward(r: Registry, id: string): (res: (Registry, bool, Option<(Forward, seq<Release>)>))
    requires Valid(r)
    ensures Valid(res.0)
    ensures res.1 <==> id in r.entries
    ensures !res.1 ==> res.0 == r && res.2 == None
    ensures res.1 ==> res.2 == Some(Stop(r.entries[id]))
    ensures id !in res.0.entries
    ensures res.0.entries == r.entries - {id}
    ensures res.1 ==> |res.0.order| == |r.order| - 1
  {
    if id !in r.entries then (r, false, None)
    else
      RemoveIdOrder(r.order, id);
      (Registry(RemoveId(r.order, id), r.entries - {id}), true, Some(Stop(r.entries[id])))
  }

  /** Stopping an id twice: the second call answers false and leaves the
      registry as the first call left it. */
  lemma StopForwardTwice(r: Registry, id: string)
    requires Valid(r)
    ensures var first := StopForward(r, id);
      var second := StopForward(first.0, id);
      !second.1 && second.0 == first.0
  {
  }

  /** A forward just registered under `id` is the one a stop of `id` stops,
      and afterwards the registry holds what it held before, minus any
      earlier forward of that id. */
  lemma RegisterThenStop(r: Registry, id: string, f: Forward)
    requires Valid(r)
    ensures var s := StopForward(Register(r, id, f), id);
      s.1 && s.2 == Some(Stop(f)) && s.0.entries == r.entries - {id}
  {
  }

  /** `list_forwards`: a fresh list of the (id, forward) pairs in insertion
      order. Only which ids it holds, and their order, are a snapshot: the
      forward objects are the registry's own, so a later `stop()` on one of
      them shows through a list already returned. The model records the
      forwards as they were when listed. */
  function ListForwards(r: Registry): (l: seq<(string, Forward)>)
    requires Valid(r)
    ensures |l| == |r.order| == |r.entries|
    ensures forall i :: 0 <= i < |l| ==> l[i] == (r.order[i], r.entries[r.order[i]])
  {
    OrderSize(r);
    seq(|r.order|, i requires 0 <= i < |r.order| => (r.order[i], r.entries[r.order[i]]))
  }

  /** Every registered forward appears exactly once in the listing. */
  lemma ListForwardsComplete(r: Registry, id: string)
    requires Valid(r)
    ensures id in r.entries <==> exists i :: 0 <= i < |ListForwards(r)| && ListForwards(r)[i].0 == id
    ensures forall i, j :: 0 <= i < j < |ListForwards(r)| ==> ListForwards(r)[i].0 != ListForwards(r)[j].0
  {
    var l := ListForwards(r);
    if id in r.entries {
      var i :| 0 <= i < |r.order| && r.order[i] == id;
      assert l[i].0 == id;
    }
  }

  /** A duplicate-free order lists exactly as many ids as there are keys. */
  lemma OrderSize(r: Registry)
    requires Valid(r)
    ensures |r.order| == |r.entries|
  {
    DistinctCard(r.order);
    assert r.entries.Keys == set x | x in r.order;
  }

  lemma {:induction false} DistinctCard(xs: seq<string>)
    requires forall i, j :: 0 <= i < j < |xs| ==> xs[i] != xs[j]
    ensures |set x | x in xs| == |xs|
  {
    if |xs| > 0 {
      var t := xs[1..];
      DistinctCard(t);
      assert (set x | x in xs) == (set x | x in t) + {xs[0]};
      HeadNotInTail(xs);
    }
  }

  /** `start_local_forward` / `start_remote_forward`, up to the spawn: a new
      forward for the rule is registered under its id, and the id is
      returned. The runner's effect on the forward is `TunnelRunner`'s. */
  function StartForward(r: Registry, kind: Kind, sessionIndex: int, bindHost: string, bindPort: int,
                        targetHost: string, targetPort: int, millis: nat): (res: (Registry, string))
    requires Valid(r)
    ensures Valid(res.0)
    ensures res.1 == ForwardId(kind, sessionIndex, bindHost, bindPort, targetHost, targetPort, millis)
    ensures res.1 in res.0.entries && res.0.entries[res.1].kind == kind
    ensures var f := res.0.entries[res.1];
      f.sessionIndex == sessionIndex && f.bindHost == bindHost && f.bindPort == bindPort
      && f.targetHost == targetHost && f.targetPort == targetPort && !f.stopFlag
    ensures forall other :: other in r.entries && other != res.1 ==>
      other in res.0.entries && res.0.entries[other] == r.entries[other]
  {
    var id := ForwardId(kind, sessionIndex, bindHost, bindPort, targetHost, targetPort, millis);
    (Register(r, id, NewForward(kind, sessionIndex, bindHost, bindPort, targetHost, targetPort)), id)
  }

  /** The runner thread's progress made visible: the forward object the
      registry holds is shared with its runner, so the runner's changes are
      seen through the registry. An id already stopped is left alone. */
  function UpdateForward(r: Registry, id: string, f: Forward): (r': Registry)
    requires Valid(r)
    ensures Valid(r')
    ensures id in r.entries ==> r' == Registry(r.order, r.entries[id := f])
    ensures id !in r.entries ==> r' == r
  {
    if id in r.entries then Registry(r.order, r.entries[id := f]) else r
  }
}

=== FILE: tunnel_relay.dfy ===
/** The byte relay of `mobaxterm/core/tunneling.py` (`_bridge`): each
    direction copies `recv(32768)` results to the other side until a `recv`
    returns nothing or an I/O error ends it, and afterwards both the socket
    and the channel are closed. The two copy threads are modelled as two
    independent directions; `_bridge` returns only once both have ended. */
module TunnelRelay {
  import opened Base

  type Byte = b: int | 0 <= b < 256

  /** The buffer size of every `recv` in the copy loop. */
  const MaxChunk: nat := 32768

  /** What one `recv` call meets: `Ready(n)` means the peer has `n` bytes
      waiting (a blocking `recv` returns at least one once any arrive);
      `Broken` means the `recv` or the following `sendall` raised. */
  datatype RecvStep = Ready(n: nat) | Broken

  /** One direction's input: the bytes its source will deliver before end
      of stream, and how each `recv` meets them. Once `steps` runs out,
      every further `recv` finds a full buffer's worth waiting. */
  datatype Direction = Direction(source: seq<Byte>, steps: seq<RecvStep>)

  datatype End = Eof | IoError

  /** What one direction forwarded: the chunks `sendall` delivered, in
      order, and how the copy ended. */
  datatype Copy = Copy(chunks: seq<seq<Byte>>, end: End)

  /** How many bytes a `recv(MaxChunk)` returns when `pending` bytes remain
      and `ready` are waiting. */
  function RecvSize(pending: nat, ready: nat): (k: nat)
    ensures pending > 0 ==> 0 < k <= MaxChunk && k <= pending
  {
    Min(MaxChunk, Min(Max(1, ready), pending))
  }

  function Head(steps: seq<RecvStep>): RecvStep
  {
    if |steps| == 0 then Ready(MaxChunk) else steps[0]
  }

  function Tail(steps: seq<RecvStep>): seq<RecvStep>
  {
    if |steps| == 0 then [] else steps[1..]
  }

  /** `_copy(src, dst)`: the copy loop of one direction. */
  function CopyDirection(source: seq<Byte>, steps: seq<RecvStep>): Copy
    decreases |source|
  {
    if |source| == 0 then Copy([], Eof)
    else match Head(steps)
      case Broken => Copy([], IoError)
      case Ready(n) =>
        var k := RecvSize(|source|, n);
        var rest := CopyDirection(source[k..], Tail(steps));
        Copy([source[..k]] + rest.chunks, rest.end)
  }

  predicate NoErrors(steps: seq<RecvStep>)
  {
    forall i :: 0 <= i < |steps| ==> steps[i] != Broken
  }

  /** A direction forwards a prefix of its source, in order, in non-empty
      chunks of at most `MaxChunk` bytes; reaching end of stream means the
      whole source went through, and without I/O errors it always does. */
  lemma {:induction false} CopyDirectionSpec(source: seq<Byte>, steps: seq<RecvStep>)
    ensures var r := CopyDirection(source, steps);
      forall i :: 0 <= i < |r.chunks| ==> 0 < |r.chunks[i]| <= MaxChunk
    ensures var r := CopyDirection(source, steps);
      |Flatten(r.chunks)| <= |source| && Flatten(r.chunks) == source[..|Flatten(r.chunks)|]
    ensures CopyDirection(source, steps).end == Eof ==> Flatten(CopyDirection(source, steps).chunks) == source
    ensures NoErrors(steps) ==> CopyDirection(source, steps).end == Eof
    decreases |source|
  {
    if |source| > 0 && Head(steps).Ready? {
      var k := RecvSize(|source|, Head(steps).n);
      CopyDirectionSpec(source[k..], Tail(steps));
      var rest := CopyDirection(source[k..], Tail(steps));
      var r := CopyDirection(source, steps);
      assert r.chunks == [source[..k]] + rest.chunks;
      assert Flatten(r.chunks) == source[..k] + Flatten(rest.chunks);
      assert source == source[..k] + source[k..];
      if NoErrors(steps) {
        assert NoErrors(Tail(steps)) by {
          forall i | 0 <= i < |Tail(steps)| ensures Tail(steps)[i] != Broken {
            assert Tail(steps)[i] == steps[i + 1];
          }
        }
      }
    } else if |source| > 0 {
      assert |steps| > 0 && steps[0] == Broken;
    }
  }

  /** One turn of the copy loop, as `CopyDirection` sees it. */
  lemma CopyStep(source: seq<Byte>, steps: seq<RecvStep>)
    requires |source| > 0 && Head(steps).Ready?
    ensures var k := RecvSize(|source|, Head(steps).n);
      var rest := CopyDirection(source[k..], Tail(steps));
      CopyDirection(source, steps) == Copy([source[..k]] + rest.chunks, rest.end)
  {
  }

  /** The copy loop written as the source writes it, receiving from what
      is left of the source; it forwards exactly what `CopyDirection`
      describes. */
  method CopyLoop(source: seq<Byte>, steps: seq<RecvStep>) returns (sent: seq<seq<Byte>>, end: End)
    ensures Copy(sent, end) == CopyDirection(source, steps)
  {
    var remaining := source;
    var rest := steps;
    sent := [];
    while true
      invariant CopyDirection(source, steps).chunks == sent + CopyDirection(remaining, rest).chunks
      invariant CopyDirection(source, steps).end == CopyDirection(remaining, rest).end
      decreases |remaining|
    {
      if |remaining| == 0 {
        end := Eof;
        assert sent + [] == sent;
        return;
      }
      var step := Head(rest);
      if step.Broken? {
        end := IoError;
        assert sent + [] == sent;
        return;
      }
      var k := RecvSize(|remaining|, step.n);
      CopyStep(remaining, rest);
      var data := remaining[..k];
      var later := CopyDirection(remaining[k..], Tail(rest));
      assert sent + ([data] + later.chunks) == (sent + [data]) + later.chunks;
      sent := sent + [data];
      remaining := remaining[k..];
      rest := Tail(rest);
    }
  }

  /** The result of `_bridge(chan, sock)`: what went each way, and that
      both ends were closed in the `finally` clause. */
  datatype Bridge = Bridge(toSocket: Copy, toChannel: Copy, socketClosed: bool, channelClosed: bool)

  /** `_bridge(chan, sock)`: channel-to-socket and socket-to-channel copies,
      each running until its own end, then both ends closed whatever
      happened. An error in one direction ends only that direction. */
  function RunBridge(fromChannel: Direction, fromSocket: Direction): (r: Bridge)
    ensures r.socketClosed && r.channelClosed
    ensures r.toSocket.end == Eof ==> Flatten(r.toSocket.chunks) == fromChannel.source
    ensures r.toChannel.end == Eof ==> Flatten(r.toChannel.chunks) == fromSocket.source
    ensures r.toSocket == CopyDirection(fromChannel.source, fromChannel.steps)
    ensures r.toChannel == CopyDirection(fromSocket.source, fromSocket.steps)
  {
    CopyDirectionSpec(fromChannel.source, fromChannel.steps);
    CopyDirectionSpec(fromSocket.source, fromSocket.steps);
    Bridge(CopyDirection(fromChannel.source, fromChannel.steps),
           CopyDirection(fromSocket.source, fromSocket.steps), true, true)
  }

  /** Byte-for-byte delivery: with no I/O error, each direction delivers its
      whole source, in order, in chunks of at most `MaxChunk` bytes. */
  lemma RelayDeliversAll(fromChannel: Direction, fromSocket: Direction)
    requires NoErrors(fromChannel.steps) && NoErrors(fromSocket.steps)
    ensures var b := RunBridge(fromChannel, fromSocket);
      Flatten(b.toSocket.chunks) == fromChannel.source
      && Flatten(b.toChannel.chunks) == fromSocket.source
      && (forall i :: 0 <= i < |b.toSocket.chunks| ==> |b.toSocket.chunks[i]| <= MaxChunk)
      && (forall i :: 0 <= i < |b.toChannel.chunks| ==> |b.toChannel.chunks[i]| <= MaxChunk)
  {
    CopyDirectionSpec(fromChannel.source, fromChannel.steps);
    CopyDirectionSpec(fromSocket.source, fromSocket.steps);
  }
}

=== FILE: tunnel_runner.dfy ===
/** The `_runner` threads of `start_local_forward` and `start_remote_forward`
    in `mobaxterm/core/tunneling.py`, run sequentially. What the network
    does is an input: whether the session resolves, whether connecting and
    binding succeed, and the sequence of things each wait for a connection
    meets. The end of that sequence is the loop seeing the stop flag. */
module TunnelRunner {
  import opened Base
  import opened SessionModel
  import opened TunnelForward
  import opened TunnelRelay

  /** How the set-up steps go: the session the resolver returns (`None`
      also when no resolver is installed), whether `_connect` returns, and
      whether the Local socket's bind and listen, or the Remote
      `request_port_forward`, return. */
  datatype Setup = Setup(session: Option<Session>, connectOk: bool, bindOk: bool)

  /** One incoming connection: whether its peer could be reached (the
      `direct-tcpip` channel of a Local forward, the `create_connection` to
      the target of a Remote one), whether closing the accepted end of a
      dropped connection returns, and what each side then sends. */
  datatype Conn = Conn(peerOk: bool, closeOk: bool, fromChannel: Direction, fromSocket: Direction)

  /** What one wait for a connection meets: a timeout (`accept` raising
      `socket.timeout`, or `transport.accept` returning `None`), a
      connection, or any other exception, which leaves the loop. */
  datatype LoopEvent = Idle | Incoming(conn: Conn) | LoopError

  /** The end of a connection that the forward accepted: the client socket
      of a Local forward, the forwarded channel of a Remote one. */
  datatype End = ClientSocket | ForwardedChannel

  function IncomingEnd(kind: Kind): End
  {
    if kind == Local then ClientSocket else ForwardedChannel
  }

  /** What became of one connection: dropped, with the one end it had
      closed, or relayed to the end by `_bridge`. */
  datatype ConnResult = Dropped(closed: End) | Relayed(bridge: Bridge)

  datatype Loop = Loop(conns: seq<ConnResult>, failed: bool)

  /** Why the runner ended. */
  datatype Exit = NoSession | ConnectFailed | SetupFailed | LoopFailed | StopObserved

  /** A finished runner: the forward after the `finally` clause's `stop()`,
      the calls that `stop()` made, and what became of every connection. */
  datatype Run = Run(forward: Forward, exit: Exit, conns: seq<ConnResult>, releases: seq<Release>)

  /** Whether what a wait meets ends the loop: an exception from the wait
      itself, or, in a Local forward, one from closing the client socket of
      a dropped connection, which no handler inside the loop catches. The
      Remote loop wraps the close of a dropped channel and ignores its
      exception. */
  predicate Ends(kind: Kind, e: LoopEvent)
  {
    e.LoopError? || (e.Incoming? && kind == Local && !e.conn.peerOk && !e.conn.closeOk)
  }

  predicate HasError(kind: Kind, events: seq<LoopEvent>)
  {
    exists i :: 0 <= i < |events| && Ends(kind, events[i])
  }

  /** How many connections arrive in `events`. */
  function Arrivals(events: seq<LoopEvent>): nat
  {
    if |events| == 0 then 0
    else (if events[0].Incoming? then 1 else 0) + Arrivals(events[1..])
  }

  /** The body of the loop for one connection. A failed peer drops it,
      closing only the end that was accepted; otherwise `_bridge` runs
      inline, so the next connection waits until both directions of this
      one have ended. */
  function HandleConn(kind: Kind, c: Conn): (r: ConnResult)
    ensures r.Relayed? <==> c.peerOk
    ensures r.Relayed? ==> r.bridge.socketClosed && r.bridge.channelClosed
    ensures r.Dropped? ==> r.closed == IncomingEnd(kind)
  {
    if c.peerOk then Relayed(RunBridge(c.fromChannel, c.fromSocket)) else Dropped(IncomingEnd(kind))
  }

  /** The `while not stop` loop over what the waits meet. */
  function AcceptLoop(kind: Kind, events: seq<LoopEvent>): (r: Loop)
    ensures r.failed <==> HasError(kind, events)
    ensures |r.conns| <= Arrivals(events)
    ensures !r.failed ==> |r.conns| == Arrivals(events)
    ensures forall i :: 0 <= i < |r.conns| ==> r.conns[i].Relayed? ==>
      r.conns[i].bridge.socketClosed && r.conns[i].bridge.channelClosed
    ensures forall i :: 0 <= i < |r.conns| ==> r.conns[i].Dropped? ==>
      r.conns[i].closed == IncomingEnd(kind)
  {
    if |events| == 0 then Loop([], false)
    else
      assert HasError(kind, events) <==> Ends(kind, events[0]) || HasError(kind, events[1..]) by {
        if HasError(kind, events[1..]) {
          var i :| 0 <= i < |events[1..]| && Ends(kind, events[1..][i]);
          assert events[i + 1] == events[1..][i];
        }
        if HasError(kind, events) && !Ends(kind, events[0]) {
          var i :| 0 <= i < |events| && Ends(kind, events[i]);
          assert events[1..][i - 1] == events[i];
        }
      }
      match events[0]
      case Idle => AcceptLoop(kind, events[1..])
      case LoopError => Loop([], true)
      case Incoming(c) =>
        if Ends(kind, events[0]) then Loop([HandleConn(kind, c)], true)
        else
          var rest := AcceptLoop(kind, events[1..]);
          Loop([HandleConn(kind, c)] + rest.conns, rest.failed)
  }

  /** What the loop does with one event: the result of a connection, or
      nothing. */
  function Handled(kind: Kind, e: LoopEvent): seq<ConnResult>
  {
    if e.Incoming? then [HandleConn(kind, e.conn)] else []
  }

  /** Per-connection failures are isolated: as long as the loop has not
      failed, what happens to later connections is what would have happened
      to them alone, whatever became of the earlier ones. */
  lemma {:induction false} AcceptLoopAppend(kind: Kind, a: seq<LoopEvent>, b: seq<LoopEvent>)
    requires !HasError(kind, a)
    ensures AcceptLoop(kind, a + b) ==
      Loop(AcceptLoop(kind, a).conns + AcceptLoop(kind, b).conns, AcceptLoop(kind, b).failed)
  {
    if |a| == 0 {
      assert a + b == b;
    } else {
      var t := a[1..];
      assert a + b == [a[0]] + (t + b);
      NoErrorTail(kind, a);
      AcceptLoopAppend(kind, t, b);
      AcceptLoopGoesOn(kind, a[0], t);
      AcceptLoopGoesOn(kind, a[0], t + b);
      var h := Handled(kind, a[0]);
      assert h + (AcceptLoop(kind, t).conns + AcceptLoop(kind, b).conns)
        == (h + AcceptLoop(kind, t).conns) + AcceptLoop(kind, b).conns;
    }
  }

  /** Events without an error start with one that does not end the loop
      and go on without one. */
  lemma NoErrorTail(kind: Kind, a: seq<LoopEvent>)
    requires |a| > 0 && !HasError(kind, a)
    ensures !Ends(kind, a[0]) && !HasError(kind, a[1..])
  {
    forall i | 0 <= i < |a[1..]| ensures !Ends(kind, a[1..][i]) {
      assert a[1..][i] == a[i + 1];
    }
  }

  /** A turn that does not end the loop adds what it handled in front of
      what the rest of the loop does. */
  lemma AcceptLoopGoesOn(kind: Kind, x: LoopEvent, t: seq<LoopEvent>)
    requires !Ends(kind, x)
    ensures AcceptLoop(kind, [x] + t) == Loop(Handled(kind, x) + AcceptLoop(kind, t).conns, AcceptLoop(kind, t).failed)
  {
    AcceptLoopCons(kind, x, t);
    if !x.Incoming? {
      assert Handled(kind, x) + AcceptLoop(kind, t).conns == AcceptLoop(kind, t).conns;
    }
  }

  /** One turn of the loop. */
  lemma AcceptLoopCons(kind: Kind, x: LoopEvent, t: seq<LoopEvent>)
    ensures AcceptLoop(kind, [x] + t) == match x
      case Idle => AcceptLoop(kind, t)
      case LoopError => Loop([], true)
      case Incoming(c) =>
        if Ends(kind, x) then Loop([HandleConn(kind, c)], true)
        else Loop([HandleConn(kind, c)] + AcceptLoop(kind, t).conns, AcceptLoop(kind, t).failed)
  {
    assert ([x] + t)[0] == x && ([x] + t)[1..] == t;
  }

  /** A Remote connection whose target cannot be reached: the channel is
      closed, any failure of that close is ignored, and the loop serves
      what comes next. */
  lemma DroppedRemote(c: Conn, t: seq<LoopEvent>)
    requires !c.peerOk
    ensures AcceptLoop(Remote, [Incoming(c)] + t) ==
      Loop([Dropped(ForwardedChannel)] + AcceptLoop(Remote, t).conns, AcceptLoop(Remote, t).failed)
  {
    AcceptLoopCons(Remote, Incoming(c), t);
  }

  /** A Local connection whose channel cannot be opened: the client socket
      is closed and the loop serves what comes next, unless that close
      raises, which ends the loop. */
  lemma DroppedLocal(c: Conn, t: seq<LoopEvent>)
    requires !c.peerOk
    ensures c.closeOk ==>
      AcceptLoop(Local, [Incoming(c)] + t) ==
      Loop([Dropped(ClientSocket)] + AcceptLoop(Local, t).conns, AcceptLoop(Local, t).failed)
    ensures !c.closeOk ==> AcceptLoop(Local, [Incoming(c)] + t) == Loop([Dropped(ClientSocket)], true)
  {
    AcceptLoopCons(Local, Incoming(c), t);
  }

  /** The first event that ends the loop is the last one it looks at:
      nothing after it is handled. */
  lemma AcceptLoopStopsAtError(kind: Kind, events: seq<LoopEvent>, k: nat)
    requires k < |events| && Ends(kind, events[k]) && !HasError(kind, events[..k])
    ensures AcceptLoop(kind, events) == Loop(AcceptLoop(kind, events[..k]).conns + Handled(kind, events[k]), true)
    ensures |AcceptLoop(kind, events).conns| == Arrivals(events[..k]) + |Handled(kind, events[k])|
  {
    assert events == events[..k] + events[k..];
    AcceptLoopAppend(kind, events[..k], events[k..]);
    assert events[k..] == [events[k]] + events[k + 1..];
    AcceptLoopCons(kind, events[k], events[k + 1..]);
  }

  /** A forward as its constructor leaves it. */
  predicate Fresh(f: Forward)
  {
    && !f.stopFlag && !f.startedOk && !f.transport
    && f.client == Absent && f.listener == Absent && f.remoteBind == Absent
  }

  /** The Local `_runner`: resolve the session, connect, create the
      listening socket and bind it, set the started flag, serve connections
      until the stop flag is seen, and in every case finish with `stop()`.
      The socket object exists before `bind`, so a failed bind leaves it for
      `stop()` to close. */
  function RunLocal(f: Forward, setup: Setup, events: seq<LoopEvent>): (r: Run)
    requires Fresh(f) && f.kind == Local
    ensures r.forward.stopFlag && NothingOpen(r.forward) && WellFormed(r.forward)
    ensures r.forward.startedOk <==> setup.session.Some? && setup.connectOk && setup.bindOk
    ensures r.exit == NoSession <==> setup.session.None?
    ensures r.exit == ConnectFailed <==> setup.session.Some? && !setup.connectOk
    ensures r.exit == LoopFailed <==> r.forward.startedOk && HasError(Local, events)
    ensures setup.session.Some? && setup.connectOk ==>
      r.releases == [CloseListener, CloseClient] && r.forward.listener == Closed && r.forward.client == Closed
    ensures !(setup.session.Some? && setup.connectOk) ==> r.releases == [] && r.forward.client == Absent
    ensures !r.forward.startedOk ==> r.conns == []
    ensures r.exit == StopObserved ==> |r.conns| == Arrivals(events)
    ensures forall i :: 0 <= i < |r.conns| ==> r.conns[i].Dropped? ==> r.conns[i].closed == ClientSocket
  {
    if setup.session.None? then Finish(f, NoSession, [])
    else if !setup.connectOk then Finish(f, ConnectFailed, [])
    else
      var connected := f.(client := Open, transport := true, listener := Open);
      if !setup.bindOk then Finish(connected, SetupFailed, [])
      else
        var loop := AcceptLoop(Local, events);
        Finish(connected.(startedOk := true), if loop.failed then LoopFailed else StopObserved, loop.conns)
  }

  /** The Remote `_runner`: resolve the session, connect, ask the server to
      listen, set the started flag, serve what the server passes on until
      the stop flag is seen, and in every case finish with `stop()`, which
      cancels the server-side listener whenever a transport exists, even
      when the request for it failed. */
  function RunRemote(f: Forward, setup: Setup, events: seq<LoopEvent>): (r: Run)
    requires Fresh(f) && f.kind == Remote
    ensures r.forward.stopFlag && NothingOpen(r.forward) && WellFormed(r.forward)
    ensures r.forward.startedOk <==> setup.session.Some? && setup.connectOk && setup.bindOk
    ensures r.exit == NoSession <==> setup.session.None?
    ensures r.exit == ConnectFailed <==> setup.session.Some? && !setup.connectOk
    ensures r.exit == LoopFailed <==> r.forward.startedOk && HasError(Remote, events)
    ensures setup.session.Some? && setup.connectOk ==>
      r.releases == [CancelRemoteForward(f.bindHost, f.bindPort), CloseClient]
    ensures r.forward.startedOk ==> r.forward.remoteBind == Closed
    ensures r.forward.listener == Absent
    ensures !(setup.session.Some? && setup.connectOk) ==> r.releases == [] && r.forward.client == Absent
    ensures !r.forward.startedOk ==> r.conns == []
    ensures r.exit == StopObserved ==> |r.conns| == Arrivals(events)
    ensures forall i :: 0 <= i < |r.conns| ==> r.conns[i].Dropped? ==> r.conns[i].closed == ForwardedChannel
  {
    if setup.session.None? then Finish(f, NoSession, [])
    else if !setup.connectOk then Finish(f, ConnectFailed, [])
    else
      var connected := f.(client := Open, transport := true);
      if !setup.bindOk then Finish(connected, SetupFailed, [])
      else
        var loop := AcceptLoop(Remote, events);
        Finish(connected.(remoteBind := Open, startedOk := true),
               if loop.failed then LoopFailed else StopObserved, loop.conns)
  }

  /** Connections never reach the forward's own resources: whatever the
      waits meet, the listener, the SSH client and the server-side bind are
      left to `stop()`, which releases them exactly as it would had no
      connection arrived. */
  lemma ConnectionsLeaveForwardAlone(f: Forward, setup: Setup, events: seq<LoopEvent>)
    requires Fresh(f)
    ensures f.kind == Local ==>
      RunLocal(f, setup, events).forward == RunLocal(f, setup, []).forward &&
      RunLocal(f, setup, events).releases == RunLocal(f, setup, []).releases
    ensures f.kind == Remote ==>
      RunRemote(f, setup, events).forward == RunRemote(f, setup, []).forward &&
      RunRemote(f, setup, events).releases == RunRemote(f, setup, []).releases
  {
  }

  /** The `finally: p.stop()` every runner ends with. */
  function Finish(f: Forward, exit: Exit, conns: seq<ConnResult>): (r: Run)
    requires WellFormed(f)
    ensures r.forward == Stop(f).0 && r.releases == Stop(f).1
    ensures r.exit == exit && r.conns == conns
  {
    var (g, calls) := Stop(f);
    Run(g, exit, conns, calls)
  }
}

=== FILE: tunneling_dialog.dfy ===
/** The forward table of `mobaxterm/ui/tunneling_dialog.py`: validation of
    the editor row (`_on_add_forward`), the selection (`_selected_rows`),
    and the start and stop transitions of the selected rows against the
    forward registry. Message boxes are modelled as the message they show. */
module TunnelingDialog {
  import opened Base
  import opened Text
  import opened Numbers
  import opened SessionModel
  import opened SessionManager
  import opened TunnelForward
  import opened TunnelRegistry

  datatype Status = Stopped | Running

  /** One row of `_forwards`: the rule, its status, and the registry id
      while it runs (`None` when the dictionary has no `"id"` key). */
  datatype Row = Row(
    kind: Kind,
    sessionIndex: int,
    bindHost: string,
    bindPort: int,
    targetHost: string,
    targetPort: int,
    status: Status,
    id: Option<string>)

  /** The editor row as the user left it: the type combo, the session
      combo's data (`None` when the combo is empty), and the four texts. */
  datatype Form = Form(
    kind: Kind,
    sessionIndex: Option<int>,
    bindHostText: string,
    bindPortText: string,
    targetHostText: string,
    targetPortText: string)

  /** How an add is refused: a validation warning, or the `TypeError` of
      `get_session(None)`, which `except ValueError` does not catch. */
  datatype AddError = Warning(message: string) | Uncaught

  const DefaultBindHost: string := "127.0.0.1"
  const NotIntegers: string := "Ports must be integers"
  const NotPositive: string := "Ports must be positive integers"
  const TargetRequired: string := "Target host is required"

  /** A port field as `int(text.strip())` reads it. */
  function ParsePort(text: string): Option<int>
  {
    ParseInt(Strip(text))
  }

  /** The bind host: the stripped text, or `127.0.0.1` when that is empty. */
  function BindHost(text: string): (h: string)
    ensures h != ""
    ensures IsBlank(text) ==> h == DefaultBindHost
    ensures !IsBlank(text) ==> h == Strip(text)
  {
    StripEmptyIffBlank(text);
    var stripped := Strip(text);
    if stripped == "" then DefaultBindHost else stripped
  }

  /** The target host: for a Local forward the selected session's host (or
      `''` when the index finds no session), for a Remote one the stripped
      field. */
  function TargetHost(m: Manager, form: Form): string
    requires form.sessionIndex.Some?
  {
    if form.kind == Local then
      (var s := GetSession(m, form.sessionIndex.value); if s.Some? then s.value.host else "")
    else Strip(form.targetHostText)
  }

  /** `_on_add_forward`, checks in the source's order: the session lookup,
      the bind host (blank means `127.0.0.1`), the bind port, the target host
      (the session's host for Local forwards), the target port, the Remote
      target host, and the signs of the ports. */
  function AddForward(m: Manager, rows: seq<Row>, form: Form): (r: Result<seq<Row>, AddError>)
    ensures form.sessionIndex.None? <==> r == Err(Uncaught)
    ensures r.Ok? <==>
      && form.sessionIndex.Some?
      && ParsePort(form.bindPortText).Some? && ParsePort(form.targetPortText).Some?
      && (form.kind == Remote ==> Strip(form.targetHostText) != "")
      && ParsePort(form.bindPortText).value > 0 && ParsePort(form.targetPortText).value > 0
    ensures r.Ok? ==> |r.value| == |rows| + 1 && r.value[..|rows|] == rows
    ensures r.Ok? ==> var row := r.value[|rows|];
      && row.status == Stopped && row.id == None && row.kind == form.kind
      && row.sessionIndex == form.sessionIndex.value
      && row.bindPort > 0 && row.targetPort > 0
      && row.bindHost != ""
      && (IsBlank(form.bindHostText) ==> row.bindHost == DefaultBindHost)
      && (form.kind == Remote ==> row.targetHost == Strip(form.targetHostText) != "")
      && (form.kind == Local ==>
            row.targetHost == (var s := GetSession(m, form.sessionIndex.value); if s.Some? then s.value.host else ""))
    ensures form.sessionIndex.Some? && ParsePort(form.bindPortText).None? ==> r == Err(Warning(NotIntegers))
  {
    if form.sessionIndex.None? then Err(Uncaught)
    else Validate(rows, form.kind, form.sessionIndex.value, BindHost(form.bindHostText),
                  ParsePort(form.bindPortText), TargetHost(m, form), ParsePort(form.targetPortText))
  }

  /** The checks after the lookups, on the values already read. */
  function Validate(rows: seq<Row>, kind: Kind, idx: int, bindHost: string, bindPort: Option<int>,
                    targetHost: string, targetPort: Option<int>): (r: Result<seq<Row>, AddError>)
    ensures r.Ok? <==> bindPort.Some? && targetPort.Some? && (kind == Remote ==> targetHost != "")
                       && bindPort.value > 0 && targetPort.value > 0
    ensures r.Ok? ==> r.value == rows + [Row(kind, idx, bindHost, bindPort.value, targetHost, targetPort.value, Stopped, None)]
    ensures bindPort.None? ==> r == Err(Warning(NotIntegers))
    ensures r.Err? ==> r.error.Warning?
  {
    match bindPort
    case None => Err(Warning(NotIntegers))
    case Some(b) =>
      match targetPort
      case None => Err(Warning(NotIntegers))
      case Some(t) =>
        if kind == Remote && targetHost == "" then Err(Warning(TargetRequired))
        else if b <= 0 || t <= 0 then Err(Warning(NotPositive))
        else Ok(rows + [Row(kind, idx, bindHost, b, targetHost, t, Stopped, None)])
  }

  /** For a Local forward the target-host field plays no part. */
  lemma LocalIgnoresTargetField(m: Manager, rows: seq<Row>, form: Form, other: string)
    requires form.kind == Local
    ensures AddForward(m, rows, form) == AddForward(m, rows, form.(targetHostText := other))
  {
    var form' := form.(targetHostText := other);
    if form.sessionIndex.Some? {
      assert TargetHost(m, form) == TargetHost(m, form');
    }
  }

  /** Any positive port is accepted, however large: there is no upper
      bound. */
  lemma NoUpperPortBound(m: Manager, rows: seq<Row>, idx: int, bindPort: int, targetPort: int)
    requires bindPort > 0 && targetPort > 0
    ensures var form := Form(Local, Some(idx), "", DecimalString(bindPort), "", DecimalString(targetPort));
      var r := AddForward(m, rows, form);
      r.Ok? && r.value[|rows|].bindPort == bindPort && r.value[|rows|].targetPort == targetPort
      && r.value[|rows|].bindHost == DefaultBindHost
  {
    var form := Form(Local, Some(idx), "", DecimalString(bindPort), "", DecimalString(targetPort));
    ParsePortDecimal(bindPort);
    ParsePortDecimal(targetPort);
    assert IsBlank("");
    assert BindHost("") == DefaultBindHost;
    assert AddForward(m, rows, form) == Validate(rows, Local, idx, DefaultBindHost,
      Some(bindPort), TargetHost(m, form), Some(targetPort));
  }

  /** A port written in decimal reads back as itself. */
  lemma ParsePortDecimal(n: int)
    ensures ParsePort(DecimalString(n)) == Some(n)
  {
    StripDecimal(n);
    ParseDecimalRoundTrip(n);
  }

  // ----- the selection -----

  predicate Increasing(s: seq<nat>)
  {
    forall i, j :: 0 <= i < j < |s| ==> s[i] < s[j]
  }

  /** Adds `x` to a strictly increasing sequence, keeping it so. */
  function InsertSorted(x: nat, s: seq<nat>): (r: seq<nat>)
    requires Increasing(s)
    ensures Increasing(r)
    ensures forall y :: y in r <==> y == x || y in s
  {
    if |s| == 0 then [x]
    else if x < s[0] then [x] + s
    else if x == s[0] then s
    else
      var t := InsertSorted(x, s[1..]);
      assert forall y :: y in t ==> s[0] < y by {
        forall y | y in t ensures s[0] < y {
          if y in s[1..] {
            var k :| 0 <= k < |s[1..]| && s[1..][k] == y;
            assert s[k + 1] == y;
          }
        }
      }
      var r := [s[0]] + t;
      assert Increasing(r) by {
        forall i, j | 0 <= i < j < |r| ensures r[i] < r[j] {
          assert r[j] == t[j - 1] && t[j - 1] in t;
          if i > 0 {
            assert r[i] == t[i - 1];
          }
        }
      }
      r
  }

  /** `_selected_rows`: the rows of the selected cells, each once, in
      ascending order. */
  function SelectedRows(cells: seq<nat>): (r: seq<nat>)
    ensures Increasing(r)
    ensures |r| == 0 <==> |cells| == 0
    ensures forall y :: y in r <==> y in cells
  {
    if |cells| == 0 then []
    else InsertSorted(cells[|cells| - 1], SelectedRows(cells[..|cells| - 1]))
  }

  // ----- start and stop -----

  /** The dialog's rows together with the registry they refer to. */
  datatype State = State(rows: seq<Row>, registry: Registry)

  /** What starting one row's forward does. Either way the forward is
      registered under an id made at the given millisecond before anything
      can raise; then the start returns that id, or spawning the runner or
      waiting for it raises and the dialog never learns the id. */
  datatype StartAttempt = Started(millis: nat) | StartRaised(millis: nat)

  /** The id a start attempt registers the row's forward under. */
  function AttemptId(row: Row, a: StartAttempt): string
  {
    ForwardId(row.kind, row.sessionIndex, row.bindHost, row.bindPort, row.targetHost, row.targetPort, a.millis)
  }

  /** A row `_start_selected` skips: already running under a non-empty id. */
  predicate AlreadyRunning(row: Row)
  {
    row.status == Running && Truthy(row.id)
  }

  /** One row after `_start_selected` visited it. */
  function StartRow(row: Row, a: StartAttempt): (r: Row)
    ensures AlreadyRunning(row) || a.StartRaised? ==> r == row
    ensures !AlreadyRunning(row) && a.Started? ==> r.status == Running && r.id == Some(AttemptId(row, a))
    ensures !AlreadyRunning(row) && a.Started? ==> Truthy(r.id)
    ensures r.kind == row.kind && r.sessionIndex == row.sessionIndex
    ensures r.bindHost == row.bindHost && r.bindPort == row.bindPort
    ensures r.targetHost == row.targetHost && r.targetPort == row.targetPort
  {
    if AlreadyRunning(row) then row
    else match a
      case StartRaised(_) => row
      case Started(_) =>
        row.(status := Running, id := Some(AttemptId(row, a)))
  }

  /** One row after `_stop_selected` visited it. */
  function StopRow(row: Row): (r: Row)
    ensures Truthy(row.id) ==> r.status == Stopped && r.id == None
    ensures !Truthy(row.id) ==> r == row
    ensures r.kind == row.kind && r.sessionIndex == row.sessionIndex
    ensures r.bindHost == row.bindHost && r.bindPort == row.bindPort
    ensures r.targetHost == row.targetHost && r.targetPort == row.targetPort
  {
    if Truthy(row.id) then row.(status := Stopped, id := None) else row
  }

  function StartOne(st: State, i: nat, a: StartAttempt): (st': State)
    requires i < |st.rows| && Valid(st.registry)
    ensures Valid(st'.registry)
    ensures st'.rows == st.rows[i := StartRow(st.rows[i], a)]
    ensures st.registry.entries.Keys <= st'.registry.entries.Keys
    ensures AlreadyRunning(st.rows[i]) ==> st' == st
    ensures !AlreadyRunning(st.rows[i]) ==> AttemptId(st.rows[i], a) in st'.registry.entries
    ensures !AlreadyRunning(st.rows[i]) && a.Started? ==> st'.rows[i].id.Some? && st'.rows[i].id.value in st'.registry.entries
  {
    var row := st.rows[i];
    if AlreadyRunning(row) then st
    else
      var (reg, id) := StartForward(st.registry, row.kind, row.sessionIndex, row.bindHost, row.bindPort,
                                    row.targetHost, row.targetPort, a.millis);
      State(st.rows[i := StartRow(row, a)], reg)
  }

  /** What starting the rows in `sel` did, from `st` to `st'`: each
      selected row is visited by `StartRow` and the others are kept; no
      registry entry is removed; and every selected row that was not
      already running has its forward registered, whether or not its start
      then raised. */
  predicate StartedRows(st: State, sel: seq<nat>, attempt: nat -> StartAttempt, st': State)
  {
    && |st'.rows| == |st.rows|
    && (forall i :: 0 <= i < |st.rows| ==>
          st'.rows[i] == if i in sel then StartRow(st.rows[i], attempt(i)) else st.rows[i])
    && st.registry.entries.Keys <= st'.registry.entries.Keys
    && (forall i :: 0 <= i < |st.rows| && i in sel && !AlreadyRunning(st.rows[i]) ==>
          AttemptId(st.rows[i], attempt(i)) in st'.registry.entries)
  }

  /** The loop of `_start_selected` over the selected rows. */
  function StartRows(st: State, sel: seq<nat>, attempt: nat -> StartAttempt): (st': State)
    requires Valid(st.registry) && Increasing(sel)
    requires forall k :: 0 <= k < |sel| ==> sel[k] < |st.rows|
    ensures Valid(st'.registry)
    ensures StartedRows(st, sel, attempt, st')
    decreases |sel|
  {
    if |sel| == 0 then st
    else
      var st1 := StartOne(st, sel[0], attempt(sel[0]));
      IncreasingTail(sel);
      var st2 := StartRows(st1, sel[1..], attempt);
      StartRowsJoin(st, sel, attempt, st1, st2);
      st2
  }

  /** The tail of an increasing selection is increasing and does not hold
      its head. */
  lemma IncreasingTail(sel: seq<nat>)
    requires Increasing(sel) && |sel| > 0
    ensures Increasing(sel[1..]) && sel[0] !in sel[1..]
    ensures forall i :: i != sel[0] ==> (i in sel <==> i in sel[1..])
  {
    assert sel == [sel[0]] + sel[1..];
  }

  /** Starting the first selected row and then the rest starts each
      selected row once. */
  lemma StartRowsJoin(st: State, sel: seq<nat>, attempt: nat -> StartAttempt, st1: State, st2: State)
    requires Increasing(sel) && |sel| > 0
    requires forall k :: 0 <= k < |sel| ==> sel[k] < |st.rows|
    requires st1.rows == st.rows[sel[0] := StartRow(st.rows[sel[0]], attempt(sel[0]))]
    requires st.registry.entries.Keys <= st1.registry.entries.Keys
    requires !AlreadyRunning(st.rows[sel[0]]) ==> AttemptId(st.rows[sel[0]], attempt(sel[0])) in st1.registry.entries
    requires StartedRows(st1, sel[1..], attempt, st2)
    ensures StartedRows(st, sel, attempt, st2)
  {
    IncreasingTail(sel);
    forall i | 0 <= i < |st.rows| && i in sel && !AlreadyRunning(st.rows[i])
      ensures AttemptId(st.rows[i], attempt(i)) in st2.registry.entries
    {
      if i != sel[0] {
        assert st1.rows[i] == st.rows[i];
      }
    }
  }

  function StopOne(st: State, i: nat): (st': State)
    requires i < |st.rows| && Valid(st.registry)
    ensures Valid(st'.registry)
    ensures st'.rows == st.rows[i := StopRow(st.rows[i])]
    ensures st'.registry.entries.Keys <= st.registry.entries.Keys
    ensures Truthy(st.rows[i].id) ==> st.rows[i].id.value !in st'.registry.entries
  {
    var row := st.rows[i];
    if !Truthy(row.id) then st
    else State(st.rows[i := StopRow(row)], StopForward(st.registry, row.id.value).0)
  }

  /** The loop of `_stop_selected` over the selected rows. */
  function StopRows(st: State, sel: seq<nat>): (st': State)
    requires Valid(st.registry) && Increasing(sel)
    requires forall k :: 0 <= k < |sel| ==> sel[k] < |st.rows|
    ensures Valid(st'.registry) && |st'.rows| == |st.rows|
    ensures forall i :: 0 <= i < |st.rows| ==>
      st'.rows[i] == if i in sel then StopRow(st.rows[i]) else st.rows[i]
    ensures st'.registry.entries.Keys <= st.registry.entries.Keys
    ensures forall i :: i in sel && Truthy(st.rows[i].id) ==> st.rows[i].id.value !in st'.registry.entries
    decreases |sel|
  {
    if |sel| == 0 then st
    else
      var st1 := StopOne(st, sel[0]);
      IncreasingTail(sel);
      var st2 := StopRows(st1, sel[1..]);
      StopRowsJoin(st, sel, st1, st2);
      st2
  }

  /** Stopping the first selected row and then the rest stops each
      selected row once. */
  lemma StopRowsJoin(st: State, sel: seq<nat>, st1: State, st2: State)
    requires Increasing(sel) && |sel| > 0
    requires forall k :: 0 <= k < |sel| ==> sel[k] < |st.rows|
    requires st1.rows == st.rows[sel[0] := StopRow(st.rows[sel[0]])]
    requires st1.registry.entries.Keys <= st.registry.entries.Keys
    requires Truthy(st.rows[sel[0]].id) ==> st.rows[sel[0]].id.value !in st1.registry.entries
    requires |st2.rows| == |st1.rows|
    requires forall i :: 0 <= i < |st1.rows| ==>
      st2.rows[i] == if i in sel[1..] then StopRow(st1.rows[i]) else st1.rows[i]
    requires st2.registry.entries.Keys <= st1.registry.entries.Keys
    requires forall i :: i in sel[1..] && Truthy(st1.rows[i].id) ==> st1.rows[i].id.value !in st2.registry.entries
    ensures forall i :: 0 <= i < |st.rows| ==>
      st2.rows[i] == if i in sel then StopRow(st.rows[i]) else st.rows[i]
    ensures st2.registry.entries.Keys <= st.registry.entries.Keys
    ensures forall i :: i in sel && Truthy(st.rows[i].id) ==> st.rows[i].id.value !in st2.registry.entries
  {
    IncreasingTail(sel);
    forall i | i in sel && Truthy(st.rows[i].id)
      ensures st.rows[i].id.value !in st2.registry.entries
    {
      if i != sel[0] {
        assert st1.rows[i] == st.rows[i];
      }
    }
  }

  lemma InBounds(cells: seq<nat>, sel: seq<nat>, n: nat)
    requires forall k :: 0 <= k < |cells| ==> cells[k] < n
    requires forall y :: y in sel ==> y in cells
    ensures forall k :: 0 <= k < |sel| ==> sel[k] < n
  {
    forall k | 0 <= k < |sel| ensures sel[k] < n {
      assert sel[k] in cells;
      var j :| 0 <= j < |cells| && cells[j] == sel[k];
    }
  }

  /** `_start_selected`: with nothing selected it only asks for a selection
      (the `bool` result); otherwise it starts each selected row that is not
      already running. */
  function StartSelected(st: State, cells: seq<nat>, attempt: nat -> StartAttempt): (r: (State, bool))
    requires Valid(st.registry)
    requires forall k :: 0 <= k < |cells| ==> cells[k] < |st.rows|
    ensures r.1 <==> |cells| == 0
    ensures r.1 ==> r.0 == st
    ensures Valid(r.0.registry) && |r.0.rows| == |st.rows|
    ensures forall i :: 0 <= i < |st.rows| ==>
      r.0.rows[i] == if i in cells then StartRow(st.rows[i], attempt(i)) else st.rows[i]
    ensures st.registry.entries.Keys <= r.0.registry.entries.Keys
    ensures forall i :: i in cells && !AlreadyRunning(st.rows[i]) ==>
      AttemptId(st.rows[i], attempt(i)) in r.0.registry.entries
  {
    var sel := SelectedRows(cells);
    if |sel| == 0 then (st, true)
    else
      InBounds(cells, sel, |st.rows|);
      (StartRows(st, sel, attempt), false)
  }

  /** `_stop_selected`: with nothing selected it only asks for a selection;
      otherwise each selected row with an id has its forward stopped and
      becomes a stopped row without an id. */
  function StopSelected(st: State, cells: seq<nat>): (r: (State, bool))
    requires Valid(st.registry)
    requires forall k :: 0 <= k < |cells| ==> cells[k] < |st.rows|
    ensures r.1 <==> |cells| == 0
    ensures r.1 ==> r.0 == st
    ensures Valid(r.0.registry) && |r.0.rows| == |st.rows|
    ensures forall i :: 0 <= i < |st.rows| ==>
      r.0.rows[i] == if i in cells then StopRow(st.rows[i]) else st.rows[i]
    ensures forall i :: i in cells && Truthy(st.rows[i].id) ==> st.rows[i].id.value !in r.0.registry.entries
  {
    var sel := SelectedRows(cells);
    if |sel| == 0 then (st, true)
    else
      InBounds(cells, sel, |st.rows|);
      (StopRows(st, sel), false)
  }

  /** Starting and then stopping the same selection of stopped rows leaves
      the table as it was, whichever of the starts succeeded. */
  lemma StartThenStop(st: State, cells: seq<nat>, attempt: nat -> StartAttempt)
    requires Valid(st.registry)
    requires forall k :: 0 <= k < |cells| ==> cells[k] < |st.rows|
    requires forall k :: 0 <= k < |cells| ==> st.rows[cells[k]].status == Stopped && st.rows[cells[k]].id == None
    ensures var started := StartSelected(st, cells, attempt).0;
      StopSelected(started, cells).0.rows == st.rows
  {
    var started := StartSelected(st, cells, attempt).0;
    var stopped := StopSelected(started, cells).0;
    forall i | 0 <= i < |st.rows| ensures stopped.rows[i] == st.rows[i] {
      if i in cells {
        var k :| 0 <= k < |cells| && cells[k] == i;
        assert st.rows[i].status == Stopped && st.rows[i].id == None;
      }
    }
  }

  /** A start that raises still leaves its forward registered, while the
      row keeps no id: stopping that row afterwards finds no id to stop, so
      the forward stays in the registry. */
  lemma RaisedStartLeavesOrphan(st: State, i: nat, ms: nat)
    requires i < |st.rows| && Valid(st.registry)
    requires st.rows[i].status == Stopped && st.rows[i].id == None
    ensures var started := StartOne(st, i, StartRaised(ms));
      var stopped := StopOne(started, i);
      && started.rows == st.rows
      && AttemptId(st.rows[i], StartRaised(ms)) in started.registry.entries
      && stopped == started
  {
    assert st.rows[i := st.rows[i]] == st.rows;
  }
}
